=== FILE: README.md ===
# Alliance property management backend: a Dafny model of its data core

Alliance is a property-management web application. Its Node.js backend runs
against PostgreSQL or, by default, an embedded SQLite database. This project
models the parts of the backend where data is reshaped rather than merely
passed along, and proves what each part promises:

- **Backend selection and dialect translation** (`backend/src/config/database.js`).
  - `DB_TYPE` chooses the server or the embedded database.
  - On the embedded database, `convertQuery` rewrites every statement sent
    with parameters: `$n` placeholders become `?` with their values gathered
    in order, `ILIKE` becomes `LIKE`, `COUNT(..) FILTER (WHERE ..)` becomes a
    `SUM(CASE ..)`, `DATE_TRUNC('month', ..)` becomes `strftime`, and `NOW()`
    becomes `CURRENT_TIMESTAMP`. A statement sent without parameters, or with
    an empty list, is passed on as written.
  - `db.query` then classifies the statement: a read; an INSERT with
    `RETURNING`; another write with `RETURNING`; or a plain write. It shapes
    the engine's answer into a PostgreSQL-like result.
- **CSV migration** (`backend/src/services/migration.js`).
  - Mappers turn MDA export values into Alliance enumerations.
  - Validators check properties, tenants and leases; invoices get an inline
    check.
  - Each CSV row becomes a record.
  - Each import screens rows as they arrive, inserts the valid records once
    the file has been read, and reports `success`, `failed`, `total` and
    `errors`.
- **List endpoints** (`propertyController.js`, `tenantController.js`).
  - Query-string defaults and the offset computation.
  - The list and count statements with their parameter arrays.
  - The `pagination` object of the response.
- **Schema setup** (`db-setup-sqlite.js`).
  - Stripping `--` comments line by line.
  - Running the whole script as one batch, then statement by statement as
    a fallback.
  - The error messages the fallback ignores.

In three places the code does not do what a reader of the SQL it handles
would expect, and the model keeps what the code does:

- A `COUNT(expr) FILTER (WHERE cond)` rewrite drops `expr`. A `?` inside
  `expr` therefore disappears while its value stays in the parameter list.
  The model keeps this: the values sent are exactly those pass 1 gathers,
  and `DialectMarks.ConvertQueryDropsMark` exhibits a statement left with
  one value and no `?`.
- Malformed input is not reported as a translation error. A pattern that
  does not match leaves the text as it is, and an INSERT without
  `INTO <name>` reads its row back from `users`.
- An UPDATE or DELETE with `RETURNING` runs only the part before
  `RETURNING` and returns no rows.

JavaScript semantics are modelled where the code depends on them:

- truthiness and `a || b`;
- destructuring defaults, which apply only to `undefined`;
- `NaN` comparisons;
- `parseInt(undefined)` being `NaN`;
- `Math.ceil`;
- a `NaN` or infinite page count rendered as JSON `null`;
- the trim set of `String.prototype.trim`;
- global regular-expression replacement, which scans left to right and
  resumes after each match;
- the backtracking choices of the `\s+([^)]+)\)` captures.

Layout:

| file | module | contents |
|---|---|---|
| `js_value.dfy` | `JsValue` | `Option`, `Result`, numbers with `NaN`, values, truthiness, `\|\|` |
| `js_string.dfy` | `JsString` | case mapping, `indexOf`, case-insensitive search, `trim`, `split`/`join` |
| `translator.dfy` | `Translator` | `convertQuery`: the six passes and the left-to-right global replacement |
| `dialect_rules.dfy` | `DialectRules` | what each of passes 2 to 6 matches and writes, and the whole pass |
| `dialect_marks.dfy` | `DialectMarks` | how the translation changes the number of `?` marks |
| `database.dfy` | `Database` | `DB_TYPE`, statement classification, `db.query` |
| `migration.dfy` | `Migration` | mappers, validators, row mapping, the four imports |
| `listing.dfy` | `Listing` | `getProperties`, `getTenants` |
| `schema_setup.dfy` | `SchemaSetup` | comment stripping, statement split, fallback execution |

## Model

| member | source | states |
|---|---|---|
| Database.SelectBackend | backend/src/config/database.js:11-16 | The server backend is chosen exactly when `DB_TYPE` is `postgresql` or `postgres`; any other value, or none, selects the embedded database. |
| Translator.ConvertQuery | backend/src/config/database.js:56-97 | With no parameters the text is returned verbatim with no values. Otherwise the values sent are those of the `$n` placeholders that have a defined parameter, in textual order, one per use, never more than there are placeholders. The later passes do not touch them. What the passes do to the text is stated by the `DialectRules` and `DialectMarks` rows. |
| Translator.SubstituteGathers | backend/src/config/database.js:63-70 | Pass 1 takes `params[n-1]` for each `$n` whose value is defined, in the order the placeholders occur, repeated placeholders included. |
| Translator.SubstituteLeavesUnresolved | backend/src/config/database.js:63-70 | The `$n` placeholders left in the output are exactly those without a value, in their original order. |
| Translator.SubstituteMarks | backend/src/config/database.js:63-70 | Each value pass 1 takes comes with exactly one new `?`. After pass 1, the number of `?` therefore equals the number of values whenever the input held no `?`. |
| Translator.SubstituteNoDollar | backend/src/config/database.js:63-70 | Text without `$` passes pass 1 unchanged and contributes no values. |
| Translator.GatherUnresolvedSplit | backend/src/config/database.js:63-70 | Every placeholder either contributes a value or stays in the text, never both. |
| Translator.UnresolvedMembers | backend/src/config/database.js:65-69 | A placeholder number survives exactly when it occurs in the input and its parameter is `undefined` or out of range. |
| Translator.GatherAllResolved | backend/src/config/database.js:64-66 | When every placeholder resolves, none survives, and the i-th value sent is the parameter the i-th placeholder names. |
| Translator.CaptureToParenFinds | backend/src/config/database.js:77 | A `\s+([^)]+)\)` tail needing at least `minSpaces` white-space characters matches exactly when that many start it and the first `)` lies beyond them. The match then ends at that first `)`. |
| Translator.CaptureOf | backend/src/config/database.js:77 | When the text holds white space (at least `minSpaces`), then a capture without `)` that starts with a non-space character or is a single character, then `)`, the capture is exactly that text. This is the split the backtracking of `\s+` and `[^)]+` settles on. |
| Translator.CaptureToParenParts | backend/src/config/database.js:77 | Every match of the tail is made of such pieces, so the two lemmas together fix which text is captured. |
| DialectRules.FilterWhereMatches | backend/src/config/database.js:77-85 | The `\s+FILTER\s+\(WHERE\s+([^)]+)\)` tail matches at a position exactly when the text there is made of its pieces. Any such pieces give the captured condition and the length of the match. |
| DialectRules.MonthArgumentMatches | backend/src/config/database.js:88 | The `\s*\(\s*'month'\s*,\s*([^)]+)\s*\)` argument list matches at a position exactly when the text there is made of its pieces. Any such pieces give the captured expression, with its trailing white space, and the length of the match. |
| DialectRules.ILikeRewrite | backend/src/config/database.js:73 | `/ILIKE/gi` matches exactly where the next five characters spell `ILIKE` in any case, whatever comes before them. The five are replaced by `LIKE`. |
| DialectRules.CountStarFilterRewrite | backend/src/config/database.js:77-80 | `COUNT(*)` with a `FILTER (WHERE c)` tail matches exactly where the text is made of those pieces. It is replaced by `SUM(CASE WHEN c THEN 1 ELSE 0 END)`. |
| DialectRules.CountExprFilterRewrite | backend/src/config/database.js:82-85 | `COUNT(e)` with a `FILTER (WHERE c)` tail matches exactly where the text is made of those pieces, `e` being non-empty and without `)`. It is replaced by the same `SUM(CASE ..)`, and `e` is dropped. |
| DialectRules.DateTruncRewrite | backend/src/config/database.js:88-91 | `DATE_TRUNC('month', e)` with any white space and casing matches exactly where the text is made of its pieces. It is replaced by `strftime('%Y-%m', e)`. |
| DialectRules.NowRewrite | backend/src/config/database.js:94 | `NOW()` in any case matches exactly where the character before it, if any, is not a word character. It is replaced by `CURRENT_TIMESTAMP`. |
| Translator.HitChangesFirstChar | backend/src/config/database.js:73-94 | Every replacement begins with a character different from the first character of the text it replaces. |
| Translator.ReplaceAllNoMatch | backend/src/config/database.js:73-94 | A global replacement leaves the text unchanged when its pattern matches at no position. |
| Translator.ReplaceAllCopiesPrefix | backend/src/config/database.js:73-94 | A global replacement copies unchanged every leading position where its pattern does not match, and scans the rest with the last copied character as the one before. |
| Translator.ReplaceAllFirstMatch | backend/src/config/database.js:73-94 | A global replacement copies the text before the leftmost match, puts that match's replacement in its place, and scans on from the end of the match, the last replaced character counting for `\b`. |
| DialectRules.PassAt | backend/src/config/database.js:73-94 | The same for any pattern, stated by the match found at the leftmost matching position. |
| DialectRules.ILikePass | backend/src/config/database.js:73 | Pass 2 copies the text before the leftmost `ILIKE` in any case, writes `LIKE` in its place, and continues after it. |
| DialectRules.CountStarPass | backend/src/config/database.js:77-80 | Pass 3 copies the text before the leftmost `COUNT(*) FILTER (WHERE c)`, writes the `SUM(CASE WHEN c ..)` in its place, and continues after it. |
| DialectRules.CountExprPass | backend/src/config/database.js:82-85 | Pass 4 does the same for the leftmost `COUNT(e) FILTER (WHERE c)`, dropping `e`. |
| DialectRules.DateTruncPass | backend/src/config/database.js:88-91 | Pass 5 copies the text before the leftmost `DATE_TRUNC('month', e)`, writes `strftime('%Y-%m', e)` in its place, and continues after it. |
| DialectRules.NowPass | backend/src/config/database.js:94 | Pass 6 copies the text before the leftmost `NOW()` that follows no word character, writes `CURRENT_TIMESTAMP` in its place, and continues after it. |
| DialectMarks.HitMarks | backend/src/config/database.js:73-94 | Every rewrite except the `COUNT(e)` one puts as many `?` in its replacement as the text it replaces held. The `COUNT(e)` rewrite loses exactly the `?` in `e`. |
| DialectMarks.ReplaceAllMarks | backend/src/config/database.js:73-94 | A pass's `?` count plus the marks its matches drop equals the `?` count of its input. |
| DialectMarks.RuleDroppedMarks | backend/src/config/database.js:73-94 | No pass adds a `?`, and only pass 4 can drop one. |
| DialectMarks.CountExprKeepsMarks | backend/src/config/database.js:82-85 | Pass 4 keeps every `?` when no `COUNT` argument it would match holds one. |
| DialectMarks.RewriteDialectMarks | backend/src/config/database.js:73-94 | Passes 2 to 6 together lose exactly the `?` in the `COUNT` arguments pass 4 drops. |
| DialectMarks.ConvertQueryMarks | backend/src/config/database.js:56-97 | After translation, the `?` left plus those lost with `COUNT` arguments equal the input's `?` plus the values sent. When none is lost, each value sent has its `?`. |
| DialectMarks.ConvertQueryDropsMark | backend/src/config/database.js:82-85 | `COUNT($1) FILTER (WHERE c)` with one defined value sends that value but leaves no `?` for it. |
| Translator.ReplaceAllUnchangedIff | backend/src/config/database.js:73-94 | Each of passes 2 to 6 changes the text if and only if its pattern matches somewhere in it, the character before the text counting for `\b`. |
| Database.Command | backend/src/config/database.js:146 | The reported command is the leading run of the upper-cased, trimmed statement up to its first space. |
| Database.ReturningPartsAt | backend/src/config/database.js:121-123 | `query.split(/RETURNING/i)`: the statement run is the trimmed text before the leftmost `RETURNING` in any case. The returned columns are the trimmed text between it and the next one, or the end of the text. |
| Database.TableOfLeftmost | backend/src/config/database.js:132 | The read-back table is the name captured at the leftmost position where `INTO`, white space and a word match. |
| Database.TableOfDefault | backend/src/config/database.js:132 | Where `INTO`, white space and a word match nowhere, the read-back table is `users`. |
| Database.ReturningFetchAt | backend/src/config/database.js:123-132 | The read-back statement selects the returned columns from that table by `id = ?`. |
| Database.ReturningSeenBothWays | backend/src/config/database.js:119-121 | The upper-case check on the trimmed text and the case-insensitive split agree on whether `RETURNING` is present, so the `undefined` second piece is never reached. This holds under the ASCII-only upper-casing noted for `Database.Keyword`. |
| Database.TableOfInsert | backend/src/config/database.js:132 | For `INSERT INTO name ...`, the read-back table is `name`. |
| Database.ClassifyCases | backend/src/config/database.js:106-158 | Every statement gets exactly one of the four plans, decided by its leading keyword and whether `RETURNING` occurs in any case. A read or a plain write runs the text as it is. |
| Database.ClassifyInsertReturning | backend/src/config/database.js:119-133 | An INSERT holding `RETURNING` in any case runs the trimmed text before the leftmost `RETURNING`, which holds none itself, and reads its row back with the statement built from the returned columns. |
| Database.Execute | backend/src/config/database.js:101-164 | `params \|\| []`: without parameters the statement is run exactly as written, untranslated. In every case only a read returns more than one row, and then its row count is the number of rows. Only a plain write reports `lastInsertRowid`, and it returns no rows. |
| Database.Dispatch | backend/src/config/database.js:105-160 | Whatever the translated statement, only a read returns more than one row, with a row count equal to their number. Only a plain write reports `lastInsertRowid`, and then with no rows. |
| Database.DispatchSelect | backend/src/config/database.js:106-116 | A read returns every row the engine yields with the translated parameters, their number, and `SELECT`. An engine error passes through. |
| Database.DispatchInsertReturning | backend/src/config/database.js:119-141 | An INSERT with `RETURNING` runs the part before `RETURNING`. When that fails, its error is the result. Otherwise the row is read back by the new row id; a read error is the result, and a successful read gives at most one row, a row count of 1 even when the row is missing, and `INSERT`. |
| Database.DispatchWriteReturning | backend/src/config/database.js:143-147 | Another write with `RETURNING` runs the part before it and reports no rows, the number of changed rows and its first word. |
| Database.DispatchWrite | backend/src/config/database.js:148-158 | A plain write runs as it is and reports the changed rows, the last inserted row id and its first word. |
| Migration.Pick | backend/src/services/migration.js:127-134 | `row.A \|\| row.b` is truthy exactly when one of the cells is, and takes the first cell when that one is truthy. |
| Migration.DecimalOrZero | backend/src/services/migration.js:134 | `parseFloat(cell \|\| 0)` is 0 for a missing or empty cell, and the parse of the text otherwise. |
| Migration.IntegerOf | backend/src/services/migration.js:260-261 | `parseInt` of a missing or empty cell is `NaN`, which is falsy. |
| Migration.TextOr | backend/src/services/migration.js:267 | A text default gives a non-empty text, the cell's when it is truthy. |
| Migration.MapPropertyType | backend/src/services/migration.js:15-25 | The property type is always one of the five valid types: the table's value for a listed MDA name, `office` otherwise. |
| Migration.MapLeaseStatus | backend/src/services/migration.js:30-38 | The lease status is always one of the four valid statuses: the table's value for a listed name, `active` otherwise. |
| Migration.MapTransactionType | backend/src/services/migration.js:43-52 | The invoice type is always one of the four valid types: the table's value for a listed name, `other` otherwise. |
| Migration.MappersAreCaseSensitive | backend/src/services/migration.js:16-23 | The tables match capitalised MDA names only. An Alliance value such as `retail` maps to the default, and a missing cell maps to `office`. |
| Migration.LookupAsWritten | backend/src/services/migration.js:24 | An object-literal lookup yields the table's value, an inherited `Object.prototype` member for the names of those members, and the fallback otherwise. |
| Migration.MappersAsWrittenEscape | backend/src/services/migration.js:15-52 | As written, `constructor`, `toString` and `valueOf` escape the fallback of the three mappers. The corrected mappers return the fallback for them. |
| Migration.MappersAgreeOffPrototype | backend/src/services/migration.js:24-51 | The written and corrected mappers agree on every key except the inherited member names, and differ on every one of those. |
| Migration.PropertyFieldsMissing | backend/src/services/migration.js:60-63 | Name, address, city and province are each reported exactly when falsy, name first, and nothing else is reported. |
| Migration.PropertyFieldsInOrder | backend/src/services/migration.js:60-63 | The four field messages come in the order of the checks, so none is repeated, and all come before the area check. |
| Migration.ValidatePropertyData | backend/src/services/migration.js:57-74 | A property is accepted exactly when valid. Each check's message appears if and only if it fails: only a negative area is reported, since 0 and `NaN` are falsy. An invalid type is reported last, with that type. |
| Migration.PropertyProblemsInOrder | backend/src/services/migration.js:57-74 | Any two reported problems appear in the order the checks run, so no check is reported twice. |
| Migration.ValidateTenantData | backend/src/services/migration.js:79-89 | A tenant is accepted exactly when valid. Company and contact names are required. A non-empty email without `@` is reported, and an absent or empty one is not. |
| Migration.TenantProblemsInOrder | backend/src/services/migration.js:79-89 | The company, contact and email messages appear in the order of the checks, each at most once. |
| Migration.LeaseFieldsMissing | backend/src/services/migration.js:97-100 | Tenant id, unit id, start and end date are each reported exactly when falsy; a `NaN` or zero id counts as missing. |
| Migration.LeaseFieldsInOrder | backend/src/services/migration.js:97-100 | The four id and date messages come in the order of the checks, and all come before the rent check. |
| Migration.ValidateLeaseData | backend/src/services/migration.js:94-111 | A lease is accepted exactly when valid. The rent is reported unless it is a positive number, so `NaN` fails. An invalid status is reported last. |
| Migration.LeaseProblemsInOrder | backend/src/services/migration.js:94-111 | Any two reported problems appear in the order the checks run, so no check is reported twice. |
| Migration.InCheckOrderPairs | backend/src/services/migration.js:57-110 | A list in which each problem comes from a later check than the one just before it is exactly a list in which each comes from a later check than every problem before it. |
| Migration.MessageReadsBack | backend/src/services/migration.js:60-108 | Every message text reads back as the problem it reports, including the type or status quoted after the colon. |
| Migration.MessageInjective | backend/src/services/migration.js:60-108 | Two problems give the same message text exactly when they are the same problem. |
| Migration.InvoiceProblems | backend/src/services/migration.js:334-335 | An invoice is rejected, with the one message, exactly when its lease id is `NaN` or zero or its amount is a number at most 0. A `NaN` amount passes. |
| Migration.TenantFromRowValid | backend/src/services/migration.js:191-205 | A tenant row is accepted exactly when it names a company and a contact under either header, and the email taken from `Email`, or from `email` when `Email` is empty or missing, is absent, empty or holds an `@`. |
| Migration.PropertyFromRowType | backend/src/services/migration.js:126-138 | A property built from a row never fails the type check. |
| Migration.LeaseFromRowStatus | backend/src/services/migration.js:259-272 | A lease built from a row never fails the status check. |
| Migration.InvoiceFromRowDefaults | backend/src/services/migration.js:325-332 | An invoice from a row has a non-empty lower-case status, `pending` when absent, and a valid type, `other` when absent. |
| Migration.InsertPlaceholders | backend/src/services/migration.js:149-151 | The insert text of n columns uses `$1` to `$n`, once each, in order. |
| Migration.InsertSendsValues | backend/src/services/migration.js:149-154 | When every value is defined, the translated insert sends exactly the record's values in column order. |
| Migration.InsertKeepsUndefined | backend/src/services/migration.js:152-153 | An `undefined` value is not sent; its `$k` stays in the text. |
| Migration.PropertyInsertValues | backend/src/services/migration.js:147-154 | A valid property with postal code and description is sent with its eight values. Without a description, `$7` is left in the statement. |
| Migration.AcceptedSplit | backend/src/services/migration.js:138-143 | Every row is either accepted or rejected, and every rejection carries at least one message. |
| Migration.Screen | backend/src/services/migration.js:125-144 | Handling rows as they arrive collects the records of the valid rows and an entry for each invalid row, both in row order. |
| Migration.InsertAll | backend/src/services/migration.js:147-160 | Each accepted record is counted once as inserted or failed, and each failure is reported with one message. |
| Migration.InsertEach | backend/src/services/migration.js:147-160 | The awaited insert loop produces exactly the reference tally, with success plus failed equal to the number of records. |
| Migration.InsertAllSucceeds | backend/src/services/migration.js:155 | When each insert succeeds, all records count as successes and no error is reported. |
| Migration.Migrate | backend/src/services/migration.js:116-176 | A CSV parse error rejects with its error. Otherwise `total` is the number of valid rows and success plus failed equals it. The errors list the invalid rows, then the failed inserts. |
| Migration.MigrateProperties | backend/src/services/migration.js:116-176 | The property import rejects only on a parse error, and its counts add up to the valid rows. |
| Migration.MigrateTenants | backend/src/services/migration.js:181-244 | The tenant import rejects only on a parse error, and its counts add up to the valid rows. |
| Migration.MigrateLeases | backend/src/services/migration.js:249-310 | The lease import rejects only on a parse error, and its counts add up to the valid rows. |
| Migration.MigrateInvoices | backend/src/services/migration.js:315-371 | The invoice import rejects only on a parse error, and its counts add up to the valid rows. |
| Migration.MigrateCleanFile | backend/src/services/migration.js:162-167 | A file of valid rows whose inserts all succeed reports every row as a success, with no failures and no errors. |
| Migration.AllValidAccepted | backend/src/services/migration.js:139-143 | When every row is valid, no row is rejected. |
| Migration.AcceptedBuilt | backend/src/services/migration.js:142 | Every accepted record is the one built from some valid row. |
| Listing.Page | backend/src/controllers/propertyController.js:8 | The page defaults to 1 only when the field is absent; a present value, even an empty one, is kept. |
| Listing.Limit | backend/src/controllers/propertyController.js:8 | The limit defaults to 10 only when the field is absent. |
| Listing.Offset | backend/src/controllers/propertyController.js:9 | The offset is `(page - 1) * limit` after numeric conversion. It is 0 by default and `NaN` when either operand is not a number. |
| Listing.Ceil | backend/src/controllers/propertyController.js:45 | `Math.ceil` gives the least integer at or above its argument. |
| Listing.Pages | backend/src/controllers/propertyController.js:45 | The page count is a number exactly when total and limit are numbers and the limit is not zero; otherwise JSON renders `null`. |
| Listing.PagesHoldAll | backend/src/controllers/propertyController.js:45 | With a positive whole limit, the page count is the fewest pages of `limit` rows that hold every row. |
| Listing.ListStatement | backend/src/controllers/propertyController.js:11-26 | The list statement starts with the select text. It sends the `%search%` pattern first when searching, then the limit and the offset. |
| Listing.CountStatement | backend/src/controllers/propertyController.js:31-34 | The count statement counts the table and sends the pattern only when searching. |
| Listing.PropertyHandlerPlain | backend/src/controllers/propertyController.js:11-25 | The fixed parts of the property statements contain no `$`, so the only placeholders are the ones the handler adds. |
| Listing.TenantHandlerPlain | backend/src/controllers/tenantController.js:8-16 | The fixed parts of the tenant statements contain no `$`. |
| Listing.SearchClausePlaceholders | backend/src/controllers/tenantController.js:12 | The search clause uses `$1` twice. |
| Listing.PagingPlaceholders | backend/src/controllers/tenantController.js:16 | Limit and offset take the two placeholder numbers after those already used. |
| Listing.ListPlaceholders | backend/src/controllers/propertyController.js:20-26 | The list statement's placeholders are `$1 $1 $2 $3` when searching and `$1 $2` otherwise. |
| Listing.ListPlaceholdersMatchParams | backend/src/controllers/tenantController.js:11-17 | Every placeholder of the list statement names a parameter, and every parameter is named. |
| Listing.ListTranslated | backend/src/controllers/propertyController.js:28 | On the embedded database, the translated list statement sends the pattern once per use, then limit and offset. No parameter is lost. |
| Listing.CountPlaceholders | backend/src/controllers/tenantController.js:20-23 | The count statement uses `$1` twice exactly when searching, sends a value only then, and translates to the pattern sent twice. |
| Listing.DefaultRequest | backend/src/controllers/tenantController.js:5-6 | With no query fields, both handlers ask for 10 rows at offset 0, and their count statements take no parameters. |
| Listing.PropertyPagination | backend/src/controllers/propertyController.js:36-46 | `total` is the parsed count, and the page count divides the parsed count by the limit. The count is the driver's text, or `undefined`, whose parse is `NaN`. `page` and `limit` are 1 and 10 when absent, and otherwise `parseInt` of the text, `NaN` for an empty one. |
| Listing.TenantPagination | backend/src/controllers/tenantController.js:28-33 | `total` is the parsed count, but the page count divides the raw count. The count is the driver's text, or `undefined`, whose parse is `NaN`. `page` and `limit` are 1 and 10 when absent, and otherwise `parseInt` of the text, `NaN` for an empty one. |
| SchemaSetup.StripLine | db-setup-sqlite.js:35-42 | A line with a quote is kept whole. Otherwise it is cut just before its first `--`, and a line without `--` is kept whole. |
| SchemaSetup.StripLineIdempotent | db-setup-sqlite.js:37-39 | Stripping a stripped line changes nothing. |
| SchemaSetup.StripLines | db-setup-sqlite.js:34-42 | Lines are stripped one by one, and none is added or dropped. |
| SchemaSetup.StripCommentsLines | db-setup-sqlite.js:33-43 | The cleaned script has the same lines as the schema, each stripped. |
| SchemaSetup.StripCommentsIdempotent | db-setup-sqlite.js:33-43 | Cleaning a cleaned script changes nothing. |
| SchemaSetup.StripCommentsNoComment | db-setup-sqlite.js:33-43 | A script without `--` is left exactly as it is. |
| SchemaSetup.KeepStatements | db-setup-sqlite.js:57-58 | Each kept statement is trimmed, non-empty and does not start with `--`. |
| SchemaSetup.KeepStatementsMembers | db-setup-sqlite.js:55-58 | A statement is kept exactly when it is the trim of some piece and passes the filter. |
| SchemaSetup.KeepStatementsAppend | db-setup-sqlite.js:55-58 | Trimming and filtering two runs of pieces one after the other gives their filtered statements one after the other. |
| SchemaSetup.KeepStatementsAt | db-setup-sqlite.js:55-58 | A piece that passes the filter comes out trimmed, right after the statements kept from the pieces before it. |
| SchemaSetup.Statements | db-setup-sqlite.js:55-58 | The fallback statements are the trimmed pieces between semicolons that pass the filter, in the order of the pieces and with repeats kept. None holds a `;`. |
| SchemaSetup.IgnorableIff | db-setup-sqlite.js:67-69 | A statement error is ignored exactly when its message contains one of the three phrases. |
| SchemaSetup.RunEach | db-setup-sqlite.js:60-73 | Running statements one by one records at most one warning per statement, and never one that is ignorable. |
| SchemaSetup.RunStatements | db-setup-sqlite.js:60-73 | The fallback loop runs every statement, whatever failed before it, and yields the reference outcome. |
| SchemaSetup.ApplySchema | db-setup-sqlite.js:48-74 | When the batch succeeds, its effect stands with no warnings. When it fails, the statements run one at a time on the database as the batch left it. Only non-ignorable errors are warned about. |

## Left out

- Engines and I/O. The SQLite engine (`prepare`, `all`, `run`, `get`), the PostgreSQL pool and its connection settings are left out. `Database.Engine` is a parameter whose answers are taken as given; the server path passes statements through untranslated and is not modelled.
- CSV parsing. Framing, quoting, `skip_empty_lines` and header handling belong to the `csv-parse` package. A row is a map from column name to text, and the parser's output is a `CsvStream`.
- Stream errors. The file stream opened at `backend/src/services/migration.js:123` has no `error` listener, and `pipe` does not pass its errors on to the parser, whose listener is the only one. A read error is therefore an unhandled `error` event, which Node throws; `backend/src/server.js` installs no `uncaughtException` handler, so the server process exits. The model has no file system and only has parse errors, which reject the import.
- Number parsing. `parseFloat`, `parseInt` and the `Number` conversion of text are oracles (`JsValue.Parsers`); double-precision rounding is not modelled and numbers are exact reals.
- Infinities. `Listing.Pages` folds `NaN` and the infinities into `None`, which JSON renders as `null` in both cases.
- Migration.Subject: the lease and invoice error subjects keep the numbers rather than their text rendering (`Tenant 12 - Unit 3`).
- Database.Keyword: upper-casing is ASCII-only. `toUpperCase` also maps characters such as `ı` and `ſ` to `I` and `S`, which the `startsWith`/`includes` checks could then see.
- Unicode case folding in the `/i` patterns is not needed. Without the `u` flag, a non-ASCII character never folds to an ASCII one.
- The `getMigrationStats` query is a fixed statement whose result is the database's, with no logic of its own.
- The SQLite count column. There the count column is named `COUNT(*)`, so `rows[0].count` is `undefined` and `total` becomes `NaN`. The model takes the count value as a parameter and does not model result column naming.
- Listing.ParseInt: the numeric defaults `1` and `10` are used as they are rather than run through `parseInt`, which returns them unchanged. No other number reaches it: query-string values and the count are text, or `undefined`.
- Values. `JsValue.Value` has no `null`, no objects and no arrays, and a number is finite or `NaN`; the infinities appear only inside `Listing.Pages`. CSV cells, query fields and the count are text or absent, so none of the others reaches the modelled code.
- Repeated query fields. An `express` query field given twice arrives as an array; the model's fields are a text or absent.
- SchemaSetup.RunStatements: the loop's `statement.trim().length > 0` guard is not repeated. It always holds for the trimmed, non-empty statements the filter passes.
- Other setup steps. The rest of `setupDatabase` is not modelled: reading the schema file, the foreign-key pragma, listing the created tables and creating the admin user.
- Translator.ConvertQuery: its own contract is about the parameters. What the passes do to the text is stated pass by pass by `DialectRules` and, for the `?` marks, by `DialectMarks.ConvertQueryMarks`.
- Database.Dispatch: its own contract states only the shape shared by every plan. The exact result of each plan is stated by `DispatchSelect`, `DispatchInsertReturning`, `DispatchWriteReturning` and `DispatchWrite`.
- Migration.MigrateProperties, Migration.MigrateTenants, Migration.MigrateLeases, Migration.MigrateInvoices: the per-kind imports state the counts only. The full result, including the order of the error entries, is `Migration.Migrate`'s contract, which each of them instantiates.
- Migration.PropertyFromRow, Migration.LeaseFromRow, Migration.InvoiceFromRow and the imports built on them (`Migrate`, `MigrateProperties`, `MigrateTenants`, `MigrateLeases`, `MigrateInvoices`) use the corrected mappers of the Findings table. As written, a row whose type or status names an `Object.prototype` member gets a function as its value: a property or lease row is then rejected as invalid, and an invoice row sends the function to the insert. The pipeline does not model that path.
- InvoiceFromRowDefaults: the status is lower-cased for ASCII letters only. `toLowerCase` also folds other letters, such as `É` to `é`.
- Migration.InvoiceFromRow: same gap. A status holding non-ASCII capitals is stored with them.

## Findings

| source | as written | input that shows it | evidently intended | confidence | as-written member | corrected member |
|---|---|---|---|---|---|---|
| backend/src/services/migration.js:24 | `typeMap[mdaType]` on an object literal also finds members inherited from `Object.prototype`. These are functions, hence truthy, so the `'office'` fallback is skipped. | a property row with `PropertyType` = `constructor`: the mapper yields the inherited `Object` function instead of `office` (`Migration.MappersAsWrittenEscape`), which the type check at lines 68-71 then rejects | unknown names map to `office` | not executed | Migration.MapPropertyTypeAsWritten | Migration.MapPropertyType |
| backend/src/services/migration.js:37 | `statusMap[mdaStatus]` likewise finds inherited members. | a lease row with `Status` = `toString`: the mapper yields the inherited function instead of `active` (`Migration.MappersAsWrittenEscape`), which the status check at lines 105-108 then rejects | unknown statuses map to `active` | not executed | Migration.MapLeaseStatusAsWritten | Migration.MapLeaseStatus |
| backend/src/services/migration.js:51 | `typeMap[mdaType]` likewise finds inherited members, and invoices have no type validation. | an invoice row with `Type` = `valueOf`: the mapper yields the inherited function instead of `other` (`Migration.MappersAsWrittenEscape`), and nothing checks it before the insert | unknown types map to `other` | not executed | Migration.MapTransactionTypeAsWritten | Migration.MapTransactionType |

=== FILE: database.dfy ===
/**
  The database module: the choice between the PostgreSQL server and the
  embedded SQLite file, and the `query(text, params)` wrapper the embedded
  backend offers in place of a connection pool. The wrapper translates the
  statement (see `Translator`), sorts it into a read, a write with a
  `RETURNING` clause or a plain write, runs it on the engine and shapes the
  engine's answer like the `pg` driver's `{rows, rowCount, command}`.

  The engine itself is an oracle: `all`, `run` and `get` stand for preparing
  a statement and calling the method of that name, an `Err` for the
  exception either step throws.
 */
module Database {
  import opened JsValue
  import opened JsString
  import opened Translator

  // ---------------------------------------------------------------------
  // Backend selection
  // ---------------------------------------------------------------------

  datatype Backend = Server | Embedded

  /** `process.env.DB_TYPE || 'sqlite'`. */
  function ConfiguredType(env: Option<string>): string {
    if env.Some? && |env.value| > 0 then env.value else "sqlite"
  }

  /** The PostgreSQL server is used exactly when `DB_TYPE` names it; an unset,
      empty or unknown setting selects the embedded file. */
  function SelectBackend(env: Option<string>): (b: Backend)
    ensures b == Server <==> env == Some("postgresql") || env == Some("postgres")
  {
    var t := ConfiguredType(env);
    if t == "postgresql" || t == "postgres" then Server else Embedded
  }

  // ---------------------------------------------------------------------
  // Engine and results
  // ---------------------------------------------------------------------

  /** A result row: column name to value. */
  type Row = map<string, Value>

  /** What `stmt.run` reports. */
  datatype RunInfo = RunInfo(changes: nat, lastInsertRowid: int)

  /** The embedded engine: prepare a statement and read all rows, run it, or read one row. */
  datatype Engine = Engine(
    all: (string, seq<Value>) -> Result<seq<Row>>,
    run: (string, seq<Value>) -> Result<RunInfo>,
    get: (string, seq<Value>) -> Result<Option<Row>>)

  /** The driver-shaped answer of `query`; `lastInsertRowid` is present only for plain writes. */
  datatype QueryResult = QueryResult(rows: seq<Row>, rowCount: nat, command: string, lastInsertRowid: Option<int>)

  // ---------------------------------------------------------------------
  // Classification
  // ---------------------------------------------------------------------

  /** `query.trim().toUpperCase()`: what the classification looks at. */
  function Keyword(q: string): string {
    Upper(Trim(q))
  }

  /** `trimmedQuery.split(' ')[0]`: the statement's first space-separated word. */
  function Command(q: string): (c: string)
    ensures ' ' !in c && StartsWith(Keyword(q), c)
    ensures |c| == |Keyword(q)| || Keyword(q)[|c|] == ' '
  {
    SplitFirst(Keyword(q), ' ');
    Split(Keyword(q), ' ')[0]
  }

  const ReturningWord := "RETURNING"

  /** `query.split(/RETURNING/i)`, the first two pieces trimmed: the statement
      to run and the returned columns. `None` when there is no second piece,
      where the source would call `trim` on `undefined`. */
  function ReturningParts(q: string): (r: Option<(string, string)>)
    ensures r.Some? ==> FindCi(r.value.0, ReturningWord) < 0 && FindCi(r.value.1, ReturningWord) < 0
    ensures r.Some? <==> FindCi(q, ReturningWord) >= 0
  {
    var i := FindCi(q, ReturningWord);
    if i < 0 then None
    else
      var after := q[i + |ReturningWord|..];
      var j := FindCi(after, ReturningWord);
      var cut := if j < 0 then |after| else j;
      NoCiOccurrenceBefore(q, i);
      NoCiOccurrenceBefore(after, cut);
      Some((Trim(q[..i]), Trim(after[..cut])))
  }

  /** The two pieces are the trimmed text before the leftmost `RETURNING` (in
      any case) at `i`, and the trimmed text from its end up to the next
      `RETURNING` at `j`, or up to the end of the text when there is none. */
  lemma ReturningPartsAt(q: string, i: nat, j: nat)
    requires i + |ReturningWord| <= j <= |q|
    requires CiOccursAt(q, ReturningWord, i) && forall k :: 0 <= k < i ==> !CiOccursAt(q, ReturningWord, k)
    requires j == |q| || CiOccursAt(q, ReturningWord, j)
    requires forall k :: i + |ReturningWord| <= k < j ==> !CiOccursAt(q, ReturningWord, k)
    ensures ReturningParts(q) == Some((Trim(q[..i]), Trim(q[i + |ReturningWord|..j])))
  {
    var n := |ReturningWord|;
    FindCiAt(q, ReturningWord, i);
    FindCiNext(q, ReturningWord, i + n, j);
    ReturningPartsFound(q, i, j - (i + n));
    SliceOfSuffix(q, i + n, j);
  }

  /** `ReturningPartsAt` once both searches are known: the second piece runs
      for `c` characters after the leftmost `RETURNING`. */
  lemma ReturningPartsFound(q: string, i: nat, c: nat)
    requires i + |ReturningWord| + c <= |q| && FindCi(q, ReturningWord) == i
    requires var f := FindCi(q[i + |ReturningWord|..], ReturningWord);
             (if f < 0 then |q| - (i + |ReturningWord|) else f) == c
    ensures ReturningParts(q) == Some((Trim(q[..i]), Trim(q[i + |ReturningWord|..][..c])))
  {
  }

  /** A text cut before the first occurrence of `RETURNING`, and then trimmed, holds none. */
  lemma NoCiOccurrenceBefore(q: string, i: int)
    requires 0 <= i <= |q|
    requires forall k :: 0 <= k < i ==> !CiOccursAt(q, ReturningWord, k)
    ensures FindCi(Trim(q[..i]), ReturningWord) < 0
  {
    var p := q[..i];
    var j := FindCi(p, ReturningWord);
    if j >= 0 {
      CiOccursInSlice(q, ReturningWord, 0, i, j);
      assert false;
    }
    FindCiTrim(p, ReturningWord);
  }

  /** `/INTO\s+(\w+)/i` tried at the start of `s`: the captured table name. */
  function IntoAt(s: string): (t: Option<string>)
    ensures t.Some? ==> |t.value| > 0 && forall k :: 0 <= k < |t.value| ==> IsWordChar(t.value[k])
  {
    if |s| < 4 || !CiEq(s[..4], "INTO") then None
    else
      var w := SpaceRun(s[4..]);
      var n := Run(s[4 + w..], IsWordChar);
      if w == 0 || n == 0 then None
      else
        var name := s[4 + w..4 + w + n];
        assert forall k :: 0 <= k < n ==> name[k] == s[4 + w..][k];
        Some(name)
  }

  /** The first match of `/INTO\s+(\w+)/i` in `s`, scanning from the left. */
  function TableMatch(s: string): (t: Option<string>)
    ensures t.Some? ==> |t.value| > 0 && forall k :: 0 <= k < |t.value| ==> IsWordChar(t.value[k])
    decreases |s|
  {
    if |s| == 0 then None
    else if IntoAt(s).Some? then IntoAt(s)
    else TableMatch(s[1..])
  }

  /** `query.match(/INTO\s+(\w+)/i)?.[1] || 'users'`. */
  function TableOf(q: string): (t: string)
    ensures |t| > 0 && forall k :: 0 <= k < |t| ==> IsWordChar(t[k])
  {
    match TableMatch(q)
    case Some(name) => name
    case None => "users"
  }

  /** The table is the name captured by the leftmost position where
      `INTO`, white space and a word match. */
  lemma TableOfLeftmost(q: string, k: nat, name: string)
    requires k <= |q|
    requires forall i :: 0 <= i < k ==> IntoAt(q[i..]).None?
    requires IntoAt(q[k..]) == Some(name)
    ensures TableOf(q) == name
  {
    TableMatchSkip(q, k);
  }

  /** Without any such position the table is `users`. */
  lemma TableOfDefault(q: string)
    requires forall i :: 0 <= i < |q| ==> IntoAt(q[i..]).None?
    ensures TableOf(q) == "users"
  {
    TableMatchSkip(q, |q|);
  }

  /** Positions where `INTO` does not match are skipped by the scan. */
  lemma {:induction false} TableMatchSkip(s: string, k: nat)
    requires k <= |s|
    requires forall i :: 0 <= i < k ==> IntoAt(s[i..]).None?
    ensures TableMatch(s) == TableMatch(s[k..])
    decreases k
  {
    if k > 0 {
      assert s[0..] == s;
      assert forall i :: 0 <= i < k - 1 ==> s[1..][i..] == s[i + 1..];
      TableMatchSkip(s[1..], k - 1);
      assert s[1..][k - 1..] == s[k..];
    }
  }

  /** `INTO name` followed by a non-word character captures `name`. */
  lemma IntoAtName(name: string, rest: string)
    requires |name| > 0 && forall k :: 0 <= k < |name| ==> IsWordChar(name[k])
    requires |rest| == 0 || !IsWordChar(rest[0])
    ensures IntoAt("INTO " + name + rest) == Some(name)
  {
    var t := "INTO " + name + rest;
    assert t[..4] == "INTO";
    assert t[4..] == " " + (name + rest);
    assert t[5..] == name + rest;
    SpaceRunAt(t[4..], 1);
    RunOfPrefix(name, rest, IsWordChar);
    assert t[5..5 + |name|] == name;
  }

  /** None of the first seven positions of `INSERT INTO ` starts a match. */
  lemma NoIntoInInsert(q: string, i: nat)
    requires 12 <= |q| && q[..12] == "INSERT INTO " && i < 7
    ensures IntoAt(q[i..]).None?
  {
    if i == 0 {
      assert q[2] == q[..12][2] == 'S';
      NotIntoAt(q, 2);
    } else {
      assert q[i] == q[..12][i] != 'I';
      NotIntoAt(q[i..], 0);
    }
  }

  /** A text whose `j`-th character differs from that of `INTO` in any case does not start a match. */
  lemma NotIntoAt(s: string, j: nat)
    requires j < 4 && j < |s| && UpperChar(s[j]) != "INTO"[j]
    ensures IntoAt(s).None?
  {
    if |s| >= 4 {
      assert s[..4][j] == s[j];
    }
  }

  /** The table of `INSERT INTO name ...` is `name`. */
  lemma TableOfInsert(name: string, rest: string)
    requires |name| > 0 && forall k :: 0 <= k < |name| ==> IsWordChar(name[k])
    requires |rest| == 0 || !IsWordChar(rest[0])
    ensures TableOf("INSERT INTO " + name + rest) == name
  {
    var x := "INTO " + name + rest;
    var q := "INSERT " + x;
    assert q == "INSERT INTO " + name + rest;
    assert q[..12] == "INSERT INTO ";
    forall i | 0 <= i < 7
      ensures IntoAt(q[i..]).None?
    {
      NoIntoInInsert(q, i);
    }
    TableMatchSkip(q, 7);
    assert q[7..] == x;
    IntoAtName(name, rest);
  }

  /** How the wrapper handles a translated statement. */
  datatype Plan =
    | ReadAll(sql: string)
    | InsertReturning(main: string, fetch: string)
    | WriteReturning(main: string, command: string)
    | Write(sql: string, command: string)

  /** The statement that reads back an inserted row. */
  function FetchInserted(clause: string, table: string): string {
    "SELECT " + clause + " FROM " + table + " WHERE id = ?"
  }

  function Classify(q: string): Result<Plan> {
    var t := Keyword(q);
    if StartsWith(t, "SELECT") then Ok(ReadAll(q))
    else if Contains(t, ReturningWord) then
      match ReturningParts(q)
      case None => Err("Cannot read properties of undefined (reading 'trim')")
      case Some(parts) =>
        if StartsWith(t, "INSERT") then Ok(InsertReturning(parts.0, FetchInserted(parts.1, TableOf(q))))
        else Ok(WriteReturning(parts.0, Command(q)))
    else Ok(Write(q, Command(q)))
  }

  /** The upper-cased, trimmed text mentions `RETURNING` exactly when the
      case-insensitive split finds it, so the classification never reaches
      the `undefined` piece. */
  lemma ReturningSeenBothWays(q: string)
    ensures Contains(Keyword(q), ReturningWord) <==> FindCi(q, ReturningWord) >= 0
  {
    IndexOfUpper(Trim(q), ReturningWord);
    FindCiTrim(q, ReturningWord);
  }

  /** Every statement gets a plan; which one depends only on the leading
      keyword and on whether `RETURNING` occurs in any case. The statement
      run by a `RETURNING` plan holds no `RETURNING`. */
  lemma ClassifyCases(q: string)
    ensures Classify(q).Ok?
    ensures Classify(q).value.ReadAll? <==> StartsWith(Keyword(q), "SELECT")
    ensures Classify(q).value.InsertReturning? <==>
              !StartsWith(Keyword(q), "SELECT") && StartsWith(Keyword(q), "INSERT") && FindCi(q, ReturningWord) >= 0
    ensures Classify(q).value.WriteReturning? <==>
              !StartsWith(Keyword(q), "SELECT") && !StartsWith(Keyword(q), "INSERT") && FindCi(q, ReturningWord) >= 0
    ensures Classify(q).value.Write? <==> !StartsWith(Keyword(q), "SELECT") && FindCi(q, ReturningWord) < 0
    ensures Classify(q).value.ReadAll? ==> Classify(q).value.sql == q
    ensures Classify(q).value.Write? ==> Classify(q).value.sql == q
    ensures Classify(q).value.InsertReturning? || Classify(q).value.WriteReturning? ==>
              FindCi(Classify(q).value.main, ReturningWord) < 0
  {
    ReturningSeenBothWays(q);
  }

  // ---------------------------------------------------------------------
  // The query wrapper
  // ---------------------------------------------------------------------

  /** `params || []`. */
  function Args(params: Option<seq<Value>>): seq<Value> {
    if params.Some? then params.value else []
  }

  /** `db.query(text, params)` on the embedded backend; `params` is `None`
      when the caller passes none. The statement is translated, then run. */
  function Execute(engine: Engine, text: string, params: Option<seq<Value>>): (r: Result<QueryResult>)
    ensures r.Ok? && |r.value.rows| > 1 ==> r.value.command == "SELECT" && r.value.rowCount == |r.value.rows|
    ensures r.Ok? && r.value.lastInsertRowid.Some? ==> r.value.rows == []
    ensures r.Ok? && r.value.lastInsertRowid.Some? ==>
              Classify(ConvertQuery(text, Args(params)).query).Ok? && Classify(ConvertQuery(text, Args(params)).query).value.Write?
    ensures |Args(params)| == 0 ==> r == Dispatch(engine, Converted(text, []))
  {
    Dispatch(engine, ConvertQuery(text, Args(params)))
  }

  /** Running a translated statement by its plan. Only a read returns more
      than one row, and only a plain write reports `lastInsertRowid`. */
  function Dispatch(engine: Engine, c: Converted): (r: Result<QueryResult>)
    ensures r.Ok? && |r.value.rows| > 1 ==> r.value.command == "SELECT" && r.value.rowCount == |r.value.rows|
    ensures r.Ok? && r.value.lastInsertRowid.Some? ==> r.value.rows == []
    ensures r.Ok? && r.value.lastInsertRowid.Some? ==> Classify(c.query).Ok? && Classify(c.query).value.Write?
  {
    match Classify(c.query)
    case Err(e) => Err(e)
    case Ok(plan) =>
      match plan
      case ReadAll(sql) =>
        (match engine.all(sql, c.params)
         case Err(e) => Err(e)
         case Ok(rows) => Ok(QueryResult(rows, |rows|, "SELECT", None)))
      case InsertReturning(main, fetch) =>
        (match engine.run(main, c.params)
         case Err(e) => Err(e)
         case Ok(info) =>
           match engine.get(fetch, [Num(Finite(info.lastInsertRowid as real))])
           case Err(e) => Err(e)
           case Ok(row) => Ok(QueryResult(if row.Some? then [row.value] else [], 1, "INSERT", None)))
      case WriteReturning(main, command) =>
        (match engine.run(main, c.params)
         case Err(e) => Err(e)
         case Ok(info) => Ok(QueryResult([], info.changes, command, None)))
      case Write(sql, command) =>
        (match engine.run(sql, c.params)
         case Err(e) => Err(e)
         case Ok(info) => Ok(QueryResult([], info.changes, command, Some(info.lastInsertRowid))))
  }

  /** A statement whose trimmed text starts with `SELECT` (in any case) is read
      in full with the translated parameters: every row, their number, and
      the command `SELECT`; an engine error is passed on. */
  lemma DispatchSelect(engine: Engine, c: Converted)
    requires StartsWith(Keyword(c.query), "SELECT")
    ensures var out := engine.all(c.query, c.params);
            Dispatch(engine, c) == if out.Ok? then Ok(QueryResult(out.value, |out.value|, "SELECT", None)) else Err(out.error)
  {
    ClassifyCases(c.query);
  }

  /** An INSERT with `RETURNING` runs only the part before `RETURNING`, then
      reads the new row back by `id = lastInsertRowid` from the table named
      after `INTO` (`users` when there is none): at most one row, a row count
      of 1 even when the row is not found, and the command `INSERT`. */
  lemma DispatchInsertReturning(engine: Engine, c: Converted)
    requires !StartsWith(Keyword(c.query), "SELECT") && StartsWith(Keyword(c.query), "INSERT")
    requires FindCi(c.query, ReturningWord) >= 0
    ensures var main := Trim(c.query[..FindCi(c.query, ReturningWord)]);
            var out := engine.run(main, c.params);
            FindCi(main, ReturningWord) < 0 &&
            Dispatch(engine, c) ==
              if out.Err? then Err(out.error)
              else
                var fetch := engine.get(ReturningFetch(c.query), [Num(Finite(out.value.lastInsertRowid as real))]);
                if fetch.Err? then Err(fetch.error)
                else Ok(QueryResult(if fetch.value.Some? then [fetch.value.value] else [], 1, "INSERT", None))
  {
    ClassifyInsertReturning(c.query);
    var main := Trim(c.query[..FindCi(c.query, ReturningWord)]);
    assert Dispatch(engine, c) == (
      match engine.run(main, c.params)
      case Err(e) => Err(e)
      case Ok(info) =>
        match engine.get(ReturningFetch(c.query), [Num(Finite(info.lastInsertRowid as real))])
        case Err(e) => Err(e)
        case Ok(row) => Ok(QueryResult(if row.Some? then [row.value] else [], 1, "INSERT", None)));
  }

  /** The plan of an INSERT with `RETURNING`: the text before `RETURNING`, trimmed, and the read-back. */
  lemma ClassifyInsertReturning(q: string)
    requires !StartsWith(Keyword(q), "SELECT") && StartsWith(Keyword(q), "INSERT")
    requires FindCi(q, ReturningWord) >= 0
    ensures Classify(q) == Ok(InsertReturning(Trim(q[..FindCi(q, ReturningWord)]), ReturningFetch(q)))
    ensures FindCi(Trim(q[..FindCi(q, ReturningWord)]), ReturningWord) < 0
  {
    ReturningSeenBothWays(q);
  }

  /** The read-back statement of an INSERT with `RETURNING`: the returned
      columns, from the table after `INTO`. */
  function ReturningFetch(q: string): string
    requires FindCi(q, ReturningWord) >= 0
  {
    FetchInserted(ReturningParts(q).value.1, TableOf(q))
  }

  /** The read-back selects the trimmed text between the leftmost `RETURNING`
      at `i` and the next one at `j` (or the end of the text). */
  lemma ReturningFetchAt(q: string, i: nat, j: nat)
    requires i + |ReturningWord| <= j <= |q|
    requires CiOccursAt(q, ReturningWord, i) && forall k :: 0 <= k < i ==> !CiOccursAt(q, ReturningWord, k)
    requires j == |q| || CiOccursAt(q, ReturningWord, j)
    requires forall k :: i + |ReturningWord| <= k < j ==> !CiOccursAt(q, ReturningWord, k)
    ensures FindCi(q, ReturningWord) == i
    ensures ReturningFetch(q) == "SELECT " + Trim(q[i + |ReturningWord|..j]) + " FROM " + TableOf(q) + " WHERE id = ?"
  {
    ReturningPartsAt(q, i, j);
  }

  /** Another statement with `RETURNING` runs the part before `RETURNING` and
      returns no rows, the number of changed rows and its first word. */
  lemma DispatchWriteReturning(engine: Engine, c: Converted)
    requires !StartsWith(Keyword(c.query), "SELECT") && !StartsWith(Keyword(c.query), "INSERT")
    requires FindCi(c.query, ReturningWord) >= 0
    ensures var main := Trim(c.query[..FindCi(c.query, ReturningWord)]);
            var out := engine.run(main, c.params);
            FindCi(main, ReturningWord) < 0 &&
            Dispatch(engine, c) == if out.Ok? then Ok(QueryResult([], out.value.changes, Command(c.query), None)) else Err(out.error)
  {
    ClassifyCases(c.query);
  }

  /** A statement without `RETURNING` that is not a read runs as it is and
      reports the changed rows, the last inserted row id and its first word. */
  lemma DispatchWrite(engine: Engine, c: Converted)
    requires !StartsWith(Keyword(c.query), "SELECT") && FindCi(c.query, ReturningWord) < 0
    ensures var out := engine.run(c.query, c.params);
            Dispatch(engine, c) == if out.Ok? then Ok(QueryResult([], out.value.changes, Command(c.query), Some(out.value.lastInsertRowid))) else Err(out.error)
  {
    ClassifyCases(c.query);
  }
}

=== FILE: dialect_marks.dfy ===
/**
  How the translation changes the number of `?` marks, the positional
  placeholders SQLite binds one value each. Pass 1 puts one `?` in place of
  each `$n` it takes a value for. Every later rewrite carries the marks of
  the text it replaces into its replacement, except `COUNT(e) FILTER (…)`:
  that rewrite drops the argument `e`, and any `?` in it, while the value
  stays in the parameter list.
*/
module DialectMarks {
  import opened JsValue
  import opened JsString
  import opened Translator
  import opened DialectRules

  // ---------------------------------------------------------------------
  // Marks of the pieces the patterns match
  // ---------------------------------------------------------------------

  /** A text that matches a mark-free pattern ignoring case holds no mark:
      `?` is not a letter, so it only ever matches itself. */
  lemma CiEqNoMarks(x: string, pattern: string)
    requires CiEq(x, pattern) && '?' !in pattern
    ensures Marks(x) == 0
  {
    forall i | 0 <= i < |x| ensures x[i] != '?' {
      assert UpperChar(x[i]) == pattern[i];
    }
    CountCharAbsent(x, '?');
  }

  lemma SpaceNoMarks(x: string)
    requires AllSpace(x)
    ensures Marks(x) == 0
  {
    forall i | 0 <= i < |x| ensures x[i] != '?' {
      assert IsSpace(x[i]);
    }
    CountCharAbsent(x, '?');
  }

  lemma LiteralNoMarks(x: string)
    requires '?' !in x
    ensures Marks(x) == 0
  {
    CountCharAbsent(x, '?');
  }

  /** A FILTER clause holds exactly the marks of its condition. */
  lemma FilterTextMarks(f: FilterSyntax)
    requires ValidFilter(f)
    ensures Marks(FilterText(f)) == Marks(f.cond)
  {
    SpaceNoMarks(f.ws1);
    SpaceNoMarks(f.ws2);
    SpaceNoMarks(f.ws3);
    CiEqNoMarks(f.filter, "FILTER");
    CiEqNoMarks(f.where, "(WHERE");
    LiteralNoMarks(")");
    CountCharAppend(f.cond, ")", '?');
    CountCharAppend(f.ws3, f.cond + ")", '?');
    CountCharAppend(f.where, f.ws3 + (f.cond + ")"), '?');
    CountCharAppend(f.ws2, f.where + (f.ws3 + (f.cond + ")")), '?');
    CountCharAppend(f.filter, WhereText(f), '?');
    CountCharAppend(f.ws1, f.filter + WhereText(f), '?');
  }

  /** A month argument list holds exactly the marks of its expression. */
  lemma MonthTextMarks(a: MonthSyntax)
    requires ValidMonth(a)
    ensures Marks(MonthText(a)) == Marks(a.expr)
  {
    SpaceNoMarks(a.ws1);
    SpaceNoMarks(a.ws2);
    SpaceNoMarks(a.ws3);
    SpaceNoMarks(a.ws4);
    CiEqNoMarks(a.month, "'MONTH'");
    LiteralNoMarks(")");
    LiteralNoMarks(",");
    LiteralNoMarks("(");
    CountCharAppend(a.expr, ")", '?');
    CountCharAppend(a.ws4, a.expr + ")", '?');
    CountCharAppend(",", a.ws4 + (a.expr + ")"), '?');
    CountCharAppend(a.ws3, "," + (a.ws4 + (a.expr + ")")), '?');
    CountCharAppend(a.month, MonthExprText(a), '?');
    CountCharAppend(a.ws2, a.month + MonthExprText(a), '?');
    CountCharAppend("(", MonthListText(a), '?');
    CountCharAppend(a.ws1, "(" + MonthListText(a), '?');
  }

  /** Mark-free text around `x` adds no mark to it. */
  lemma MarksAround(a: string, x: string, b: string)
    requires '?' !in a && '?' !in b
    ensures Marks(a + x + b) == Marks(x)
  {
    LiteralNoMarks(a);
    LiteralNoMarks(b);
    CountCharAppend(a, x, '?');
    CountCharAppend(a + x, b, '?');
  }

  lemma SumCaseMarks(cond: string)
    ensures Marks(SumCase(cond)) == Marks(cond)
  {
    MarksAround("SUM(CASE WHEN ", cond, " THEN 1 ELSE 0 END)");
  }

  lemma MonthBucketMarks(expr: string)
    ensures Marks(MonthBucket(expr)) == Marks(expr)
  {
    MarksAround("strftime('%Y-%m', ", expr, ")");
  }

  /** The marks of a prefix of `s` that ends with the text `x` found at `a`. */
  lemma PrefixMarks(s: string, a: nat, x: string)
    requires TextAt(s, a, x)
    ensures Marks(s[..a + |x|]) == Marks(s[..a]) + Marks(x)
  {
    assert s[..a + |x|] == s[..a] + x by {
      forall j | a <= j < a + |x| ensures s[..a + |x|][j] == (s[..a] + x)[j] {
        assert s[a + (j - a)] == x[j - a];
      }
    }
    CountCharAppend(s[..a], x, '?');
  }

  /** A head matched ignoring case against a mark-free pattern holds no mark. */
  lemma HeadNoMarks(s: string, pattern: string)
    requires CiTextAt(s, 0, pattern) && '?' !in pattern
    ensures Marks(s[..|pattern|]) == 0
  {
    forall j | 0 <= j < |pattern| ensures s[..|pattern|][j] != '?' {
      assert UpperChar(s[0 + j]) == pattern[j];
    }
    CountCharAbsent(s[..|pattern|], '?');
  }

  // ---------------------------------------------------------------------
  // One replacement
  // ---------------------------------------------------------------------

  /** The COUNT(e) rewrite keeps the marks of the condition and drops those of `e`. */
  lemma CountExprMarks(s: string, e: string, f: FilterSyntax)
    requires CountExprAt(s, e, f)
    ensures 6 + |e| + 1 + |FilterText(f)| <= |s|
    ensures Marks(s[..6 + |e| + 1 + |FilterText(f)|]) == Marks(SumCase(f.cond)) + Marks(e)
  {
    var x := e + (")" + FilterText(f));
    assert 6 + |x| == 6 + |e| + 1 + |FilterText(f)|;
    PrefixMarks(s, 6, x);
    HeadNoMarks(s, "COUNT(");
    LiteralNoMarks(")");
    CountCharAppend(")", FilterText(f), '?');
    CountCharAppend(e, ")" + FilterText(f), '?');
    FilterTextMarks(f);
    SumCaseMarks(f.cond);
  }

  lemma CountStarMarks(s: string, f: FilterSyntax)
    requires CountStarAt(s, f)
    ensures 8 + |FilterText(f)| <= |s|
    ensures Marks(s[..8 + |FilterText(f)|]) == Marks(SumCase(f.cond))
  {
    PrefixMarks(s, 8, FilterText(f));
    HeadNoMarks(s, "COUNT(*)");
    FilterTextMarks(f);
    SumCaseMarks(f.cond);
  }

  lemma DateTruncMarks(s: string, a: MonthSyntax)
    requires DateTruncAt(s, a)
    ensures 10 + |MonthText(a)| <= |s|
    ensures Marks(s[..10 + |MonthText(a)|]) == Marks(MonthBucket(a.expr))
  {
    PrefixMarks(s, 10, MonthText(a));
    HeadNoMarks(s, "DATE_TRUNC");
    MonthTextMarks(a);
    MonthBucketMarks(a.expr);
  }

  lemma ILikeHitMarks(s: string, prev: Option<char>)
    requires MatchAt(ILike, s, prev).Some?
    ensures Marks(MatchAt(ILike, s, prev).value.out) == Marks(s[..MatchAt(ILike, s, prev).value.len])
  {
    ILikeRewrite(s, prev);
    HeadAt(s, "ILIKE");
    CiEqNoMarks(s[..5], "ILIKE");
    LiteralNoMarks("LIKE");
  }

  lemma NowHitMarks(s: string, prev: Option<char>)
    requires MatchAt(Now, s, prev).Some?
    ensures Marks(MatchAt(Now, s, prev).value.out) == Marks(s[..MatchAt(Now, s, prev).value.len])
  {
    NowRewrite(s, prev);
    HeadAt(s, "NOW()");
    CiEqNoMarks(s[..5], "NOW()");
    LiteralNoMarks("CURRENT_TIMESTAMP");
  }

  lemma CountStarHitMarks(s: string)
    requires CountStarMatch(s).Some?
    ensures Marks(CountStarMatch(s).value.out) == Marks(s[..CountStarMatch(s).value.len])
  {
    var f := CountStarParts(s);
    CountStarOf(s, f);
    CountStarMarks(s, f);
  }

  lemma DateTruncHitMarks(s: string)
    requires DateTruncMatch(s).Some?
    ensures Marks(DateTruncMatch(s).value.out) == Marks(s[..DateTruncMatch(s).value.len])
  {
    var a := DateTruncParts(s);
    DateTruncOf(s, a);
    DateTruncMarks(s, a);
  }

  lemma CountExprHitMarks(s: string, e: string, f: FilterSyntax)
    requires CountExprAt(s, e, f)
    ensures CountExprMatch(s).Some?
    ensures Marks(s[..CountExprMatch(s).value.len]) == Marks(CountExprMatch(s).value.out) + Marks(e)
  {
    CountExprOf(s, e, f);
    CountExprMarks(s, e, f);
  }

  /** What one replacement does to the marks: every rule but COUNT(e) puts
      in as many as it takes out; COUNT(e) takes out those of its argument
      on top of those it carries over. */
  lemma HitMarks(rule: Rule, s: string, prev: Option<char>)
    requires MatchAt(rule, s, prev).Some?
    ensures var h := MatchAt(rule, s, prev).value;
            rule != CountExprFilter ==> Marks(h.out) == Marks(s[..h.len])
    ensures var h := MatchAt(rule, s, prev).value;
            forall e, f :: rule == CountExprFilter && CountExprAt(s, e, f) ==> Marks(s[..h.len]) == Marks(h.out) + Marks(e)
  {
    match rule
    case ILike => ILikeHitMarks(s, prev);
    case Now => NowHitMarks(s, prev);
    case CountStarFilter => CountStarHitMarks(s);
    case DateTruncMonth => DateTruncHitMarks(s);
    case CountExprFilter =>
      forall e, f | CountExprAt(s, e, f)
        ensures Marks(s[..CountExprMatch(s).value.len]) == Marks(CountExprMatch(s).value.out) + Marks(e)
      {
        CountExprHitMarks(s, e, f);
      }
  }

  // ---------------------------------------------------------------------
  // One pass
  // ---------------------------------------------------------------------

  /** The marks a pass takes out of the text: for each match it replaces,
      the marks of the matched text beyond those of its replacement. */
  function DroppedMarks(m: Matcher, s: string, prev: Option<char>): int
    requires Consumes(m)
    decreases |s|
  {
    if |s| == 0 then 0
    else
      match m(s, prev)
      case Some(h) => Marks(s[..h.len]) - Marks(h.out) + DroppedMarks(m, s[h.len..], Some(s[h.len - 1]))
      case None => DroppedMarks(m, s[1..], Some(s[0]))
  }

  /** A pass leaves the marks of its input less the ones it drops. */
  lemma {:induction false} ReplaceAllMarks(m: Matcher, s: string, prev: Option<char>)
    requires Consumes(m)
    ensures Marks(ReplaceAll(m, s, prev)) + DroppedMarks(m, s, prev) == Marks(s)
    decreases |s|
  {
    if |s| > 0 {
      match m(s, prev)
      case Some(h) =>
        var rest := s[h.len..];
        ReplaceAllMarks(m, rest, Some(s[h.len - 1]));
        CountCharAppend(h.out, ReplaceAll(m, rest, Some(s[h.len - 1])), '?');
        assert s == s[..h.len] + rest;
        CountCharAppend(s[..h.len], rest, '?');
      case None =>
        ReplaceAllMarks(m, s[1..], Some(s[0]));
        CountCharAppend([s[0]], ReplaceAll(m, s[1..], Some(s[0])), '?');
        assert s == [s[0]] + s[1..];
        CountCharAppend([s[0]], s[1..], '?');
    }
  }

  /** One step of `DroppedMarks` where the matcher matches. */
  lemma DroppedMarksHit(m: Matcher, s: string, prev: Option<char>, h: Hit)
    requires Consumes(m) && |s| > 0 && m(s, prev) == Some(h)
    ensures 0 < h.len <= |s|
    ensures DroppedMarks(m, s, prev) ==
            Marks(s[..h.len]) - Marks(h.out) + DroppedMarks(m, s[h.len..], Some(s[h.len - 1]))
  {
  }

  /** One step of `DroppedMarks` where the matcher does not match. */
  lemma DroppedMarksMiss(m: Matcher, s: string, prev: Option<char>)
    requires Consumes(m) && |s| > 0 && m(s, prev).None?
    ensures DroppedMarks(m, s, prev) == DroppedMarks(m, s[1..], Some(s[0]))
  {
  }

  /** A pass over a text that one match covers drops that match's marks. */
  lemma WholeMatchDrops(m: Matcher, q: string, h: Hit)
    requires Consumes(m) && |q| > 0 && m(q, None) == Some(h) && h.len == |q|
    ensures DroppedMarks(m, q, None) == Marks(q) - Marks(h.out)
  {
    DroppedMarksHit(m, q, None, h);
    assert q[..|q|] == q;
    assert DroppedMarks(m, q[|q|..], Some(q[|q| - 1])) == 0;
  }

  /** No pass adds marks, and every pass but COUNT(e) drops none. */
  lemma {:induction false} RuleDroppedMarks(rule: Rule, s: string, prev: Option<char>)
    ensures DroppedMarks(Pattern(rule), s, prev) >= 0
    ensures rule != CountExprFilter ==> DroppedMarks(Pattern(rule), s, prev) == 0
    decreases |s|
  {
    if |s| > 0 {
      match MatchAt(rule, s, prev)
      case Some(h) =>
        DroppedMarksHit(Pattern(rule), s, prev, h);
        HitMarks(rule, s, prev);
        if rule == CountExprFilter {
          var e, f := CountExprParts(s);
        }
        RuleDroppedMarks(rule, s[h.len..], Some(s[h.len - 1]));
      case None =>
        DroppedMarksMiss(Pattern(rule), s, prev);
        RuleDroppedMarks(rule, s[1..], Some(s[0]));
    }
  }

  /** No COUNT argument at any place of `s` holds a mark. */
  ghost predicate MarklessArguments(s: string) {
    forall i, e, f :: 0 <= i < |s| && CountExprAt(s[i..], e, f) ==> '?' !in e
  }

  /** A COUNT(e) hit whose argument holds no mark keeps every mark. */
  lemma CountExprHitKeeps(s: string, prev: Option<char>, h: Hit)
    requires MatchAt(CountExprFilter, s, prev) == Some(h)
    requires forall e, f :: CountExprAt(s, e, f) ==> '?' !in e
    ensures Marks(s[..h.len]) == Marks(h.out)
  {
    var e, f := CountExprParts(s);
    CountExprHitMarks(s, e, f);
    LiteralNoMarks(e);
  }

  /** What holds of every place of a text holds of every place of its tails. */
  lemma MarklessTail(s: string, k: nat)
    requires MarklessArguments(s) && k <= |s|
    ensures MarklessArguments(s[k..])
  {
    var t := s[k..];
    forall i, e, f | 0 <= i < |t| && CountExprAt(t[i..], e, f) ensures '?' !in e {
      assert t[i..] == s[k + i..];
    }
  }

  /** The COUNT(e) pass drops no mark when no argument it could match holds one. */
  lemma {:induction false} CountExprKeepsMarks(s: string, prev: Option<char>)
    requires forall i, e, f :: 0 <= i < |s| && CountExprAt(s[i..], e, f) ==> '?' !in e
    ensures DroppedMarks(Pattern(CountExprFilter), s, prev) == 0
    decreases |s|
  {
    if |s| > 0 {
      assert MarklessArguments(s);
      match MatchAt(CountExprFilter, s, prev)
      case Some(h) =>
        DroppedMarksHit(Pattern(CountExprFilter), s, prev, h);
        assert s[0..] == s;
        CountExprHitKeeps(s, prev, h);
        MarklessTail(s, h.len);
        CountExprKeepsMarks(s[h.len..], Some(s[h.len - 1]));
      case None =>
        DroppedMarksMiss(Pattern(CountExprFilter), s, prev);
        MarklessTail(s, 1);
        CountExprKeepsMarks(s[1..], Some(s[0]));
    }
  }

  // ---------------------------------------------------------------------
  // The whole translation
  // ---------------------------------------------------------------------

  /** The marks the COUNT(e) pass drops from what the ILIKE and COUNT(*)
      passes leave of `q`: those of the arguments it discards. */
  function CountArgumentMarks(q: string): (n: int)
    ensures n >= 0
  {
    var q3 := ReplaceAll(Pattern(CountStarFilter), ReplaceAll(Pattern(ILike), q, None), None);
    RuleDroppedMarks(CountExprFilter, q3, None);
    DroppedMarks(Pattern(CountExprFilter), q3, None)
  }

  /** Passes 2 to 6 keep every mark but those of the dropped COUNT arguments. */
  lemma RewriteDialectMarks(q: string)
    ensures Marks(RewriteDialect(q)) + CountArgumentMarks(q) == Marks(q)
  {
    var q2 := ReplaceAll(Pattern(ILike), q, None);
    var q3 := ReplaceAll(Pattern(CountStarFilter), q2, None);
    var q4 := ReplaceAll(Pattern(CountExprFilter), q3, None);
    var q5 := ReplaceAll(Pattern(DateTruncMonth), q4, None);
    ReplaceAllMarks(Pattern(ILike), q, None);
    RuleDroppedMarks(ILike, q, None);
    ReplaceAllMarks(Pattern(CountStarFilter), q2, None);
    RuleDroppedMarks(CountStarFilter, q2, None);
    ReplaceAllMarks(Pattern(CountExprFilter), q3, None);
    ReplaceAllMarks(Pattern(DateTruncMonth), q4, None);
    RuleDroppedMarks(DateTruncMonth, q4, None);
    ReplaceAllMarks(Pattern(Now), q5, None);
    RuleDroppedMarks(Now, q5, None);
  }

  /** The statement `convertQuery` returns has one `?` for each value it
      sends, besides the marks of the original text, less the marks the
      COUNT(e) rewrite drops; so the values never number fewer than the new
      marks, and they match exactly when no COUNT argument holds a mark. */
  lemma ConvertQueryMarks(text: string, params: seq<Value>)
    ensures var r := ConvertQuery(text, params);
            |params| > 0 ==> Marks(r.query) + CountArgumentMarks(Substitute(text, params).query) == Marks(text) + |r.params|
    ensures var r := ConvertQuery(text, params);
            Marks(r.query) <= Marks(text) + |r.params|
    ensures var r := ConvertQuery(text, params);
            |params| > 0 && CountArgumentMarks(Substitute(text, params).query) == 0 ==> Marks(r.query) == Marks(text) + |r.params|
  {
    if |params| > 0 {
      SubstituteMarks(text, params);
      SubstituteGathers(text, params);
      RewriteDialectMarks(Substitute(text, params).query);
    }
  }

  // ---------------------------------------------------------------------
  // A statement that loses its mark
  // ---------------------------------------------------------------------

  /** Text without `$` passes through pass 1 unchanged ahead of the rest. */
  lemma {:induction false} SubstitutePlainPrefix(a: string, b: string, params: seq<Value>)
    requires '$' !in a
    ensures Substitute(a + b, params) == Converted(a + Substitute(b, params).query, Substitute(b, params).params)
    decreases |a|
  {
    if |a| > 0 {
      assert (a + b)[0] == a[0];
      assert (a + b)[1..] == a[1..] + b;
      SubstitutePlainPrefix(a[1..], b, params);
      assert a == [a[0]] + a[1..];
    } else {
      assert a + b == b;
    }
  }

  /** An `ILIKE` in any case has a `K` in its fourth place. */
  lemma ILikeNeedsK(q: string, i: nat)
    requires i <= |q|
    ensures CiOccursAt(q[i..], "ILIKE", 0) ==> i + 3 < |q| && UpperChar(q[i + 3]) == 'K'
  {
    if CiOccursAt(q[i..], "ILIKE", 0) {
      assert q[i..][0..5][3] == q[i + 3];
    }
  }

  /** A `COUNT(*)` in any case has a `*` in its seventh place. */
  lemma CountStarNeedsStar(q: string, i: nat)
    requires i <= |q|
    ensures CiTextAt(q[i..], 0, "COUNT(*)") ==> i + 6 < |q| && q[i + 6] == '*'
  {
    if CiTextAt(q[i..], 0, "COUNT(*)") {
      assert UpperChar(q[i..][0 + 6]) == "COUNT(*)"[6];
    }
  }

  /** Without a `K` in any case there is no `ILIKE` to rewrite. */
  lemma ILikePassWithoutK(q: string, prev: Option<char>)
    requires 'K' !in q && 'k' !in q
    ensures ReplaceAll(Pattern(ILike), q, prev) == q
  {
    forall i | 0 <= i < |q| ensures !MatchesAt(Pattern(ILike), q, prev, i) {
      var t := q[i..];
      ILikeRewrite(t, PrevAt(q, prev, i));
      ILikeNeedsK(q, i);
    }
    ReplaceAllNoMatch(Pattern(ILike), q, prev);
  }

  /** Without a `*` there is no `COUNT(*)` to rewrite. */
  lemma CountStarPassWithoutStar(q: string, prev: Option<char>)
    requires '*' !in q
    ensures ReplaceAll(Pattern(CountStarFilter), q, prev) == q
  {
    forall i | 0 <= i < |q| ensures !MatchesAt(Pattern(CountStarFilter), q, prev, i) {
      CountStarNeedsStar(q, i);
    }
    ReplaceAllNoMatch(Pattern(CountStarFilter), q, prev);
  }

  /** A rule's pass over a text that one of its matches covers drops the
      marks that match takes out. */
  lemma RuleWholeMatchDrops(rule: Rule, q: string, h: Hit, k: int)
    requires |q| > 0 && MatchAt(rule, q, None) == Some(h) && h.len == |q|
    requires Marks(q) == Marks(h.out) + k
    ensures DroppedMarks(Pattern(rule), q, None) == k
  {
    WholeMatchDrops(Pattern(rule), q, h);
  }

  /** A text that is one whole COUNT(e) match: the rule's hit covers it
      and keeps all its marks but those of `e`. */
  lemma CountExprWholeHit(q: string, e: string, f: FilterSyntax)
    requires CountExprAt(q, e, f) && 6 + |e| + 1 + |FilterText(f)| == |q|
    ensures MatchAt(CountExprFilter, q, None) == Some(Hit(|q|, SumCase(f.cond)))
    ensures Marks(q) == Marks(SumCase(f.cond)) + Marks(e)
  {
    CountExprOf(q, e, f);
    CountExprMarks(q, e, f);
    assert q[..|q|] == q;
  }

  /** A text that is one whole COUNT(e) match: the pass drops the marks of `e`. */
  lemma CountExprWholeDrops(q: string, e: string, f: FilterSyntax)
    requires CountExprAt(q, e, f) && 6 + |e| + 1 + |FilterText(f)| == |q|
    ensures DroppedMarks(Pattern(CountExprFilter), q, None) == Marks(e)
  {
    CountExprWholeHit(q, e, f);
    RuleWholeMatchDrops(CountExprFilter, q, Hit(|q|, SumCase(f.cond)), Marks(e));
  }

  /** A statement that is one whole COUNT(e) match, with no `K` or `*`
      for the earlier passes to act on: the rewrite drops the marks of `e`. */
  lemma WholeCountDrops(q: string, e: string, f: FilterSyntax)
    requires 'K' !in q && 'k' !in q && '*' !in q
    requires CountExprAt(q, e, f) && 6 + |e| + 1 + |FilterText(f)| == |q|
    ensures CountArgumentMarks(q) == Marks(e)
  {
    ILikePassWithoutK(q, None);
    CountStarPassWithoutStar(q, None);
    CountExprWholeDrops(q, e, f);
  }

  lemma AbsentAround(a: string, x: string, b: string, c: char)
    requires c !in a && c !in x && c !in b
    ensures c !in a + x + b
  {
  }

  /** Pass 1 on a statement with the single placeholder `$1`. */
  lemma SubstituteFirstPlaceholder(a: string, b: string, params: seq<Value>)
    requires '$' !in a && '$' !in b && (|b| == 0 || !IsDigit(b[0]))
    requires |params| > 0 && params[0] != Undefined
    ensures Substitute(a + ("$1" + b), params) == Converted(a + ("?" + b), [params[0]])
  {
    PlaceholderHeadParts("1", b);
    assert "$1" + b == "$" + "1" + b;
    assert DecimalValue("1") == 1;
    SubstituteNoDollar(b, params);
    SubstitutePlainPrefix(a, "$1" + b, params);
  }

  /** A text that continues `a` with `x` holds `x` right after `a`. */
  lemma TextAtAfter(a: string, x: string)
    ensures TextAt(a + x, |a|, x)
  {
  }

  /** `COUNT(` as written matches the pattern's head. */
  lemma CountHead(x: string)
    ensures CiTextAt("COUNT(" + x, 0, "COUNT(")
  {
    var s := "COUNT(" + x;
    forall j | 0 <= j < 6 ensures UpperChar(s[0 + j]) == "COUNT("[j] {
      assert s[j] == "COUNT("[j];
    }
  }

  /** The FILTER clause ` FILTER (WHERE c)`, written with single spaces. */
  function PlainFilter(cond: string): FilterSyntax {
    FilterSyntax(" ", "FILTER", " ", "(WHERE", " ", cond)
  }

  lemma PlainFilterText(cond: string)
    requires Capturable(cond)
    ensures ValidFilter(PlainFilter(cond))
    ensures FilterText(PlainFilter(cond)) == " FILTER (WHERE " + cond + ")"
  {
    assert AllSpace(" ") by { assert IsSpace(" "[0]); }
    assert CiEq("FILTER", "FILTER");
    assert CiEq("(WHERE", "(WHERE");
  }

  /** The statement pass 1 makes of `COUNT($1) FILTER (WHERE c)`. */
  function CountMarkStatement(cond: string): string {
    "COUNT(" + ("?" + (")" + FilterText(PlainFilter(cond))))
  }

  /** The COUNT(e) rule sees the whole statement, `?` being its argument. */
  lemma CountMarkStatementMatches(cond: string)
    requires Capturable(cond)
    ensures var q := CountMarkStatement(cond);
            CountExprAt(q, "?", PlainFilter(cond)) && 6 + |"?"| + 1 + |FilterText(PlainFilter(cond))| == |q|
  {
    var x := "?" + (")" + FilterText(PlainFilter(cond)));
    PlainFilterText(cond);
    CountHead(x);
    TextAtAfter("COUNT(", x);
  }

  lemma CountMarkStatementText(cond: string)
    requires Capturable(cond)
    ensures CountMarkStatement(cond) == "COUNT(?) FILTER (WHERE " + cond + ")"
  {
    PlainFilterText(cond);
  }

  /** The fixed text of the statement has no `K` and no `*`. */
  lemma CountMarkFixedText()
    ensures 'K' !in "COUNT(?) FILTER (WHERE " && 'k' !in "COUNT(?) FILTER (WHERE " && '*' !in "COUNT(?) FILTER (WHERE "
    ensures 'K' !in ")" && 'k' !in ")" && '*' !in ")"
  {
  }

  /** The statement has nothing for the ILIKE and COUNT(*) rules to act on. */
  lemma CountMarkStatementChars(cond: string)
    requires Capturable(cond) && 'K' !in cond && 'k' !in cond && '*' !in cond
    ensures var q := CountMarkStatement(cond);
            'K' !in q && 'k' !in q && '*' !in q
  {
    CountMarkFixedText();
    CountMarkStatementText(cond);
  }

  /** The original statement, in the pieces pass 1 sees. */
  lemma CountMarkSource(cond: string)
    requires Capturable(cond) && '$' !in cond
    ensures var rest := ")" + FilterText(PlainFilter(cond));
            "COUNT($1) FILTER (WHERE " + cond + ")" == "COUNT(" + ("$1" + rest) &&
            '$' !in rest && !IsDigit(rest[0])
  {
    PlainFilterText(cond);
    AbsentAround(") FILTER (WHERE ", cond, ")", '$');
  }

  /** The original statement holds no mark. */
  lemma CountMarkSourceMarks(cond: string)
    requires '?' !in cond
    ensures Marks("COUNT($1) FILTER (WHERE " + cond + ")") == 0
  {
    AbsentAround("COUNT($1) FILTER (WHERE ", cond, ")", '?');
    LiteralNoMarks("COUNT($1) FILTER (WHERE " + cond + ")");
  }

  /** When pass 1 leaves one whole COUNT(e) match, with nothing for the
      ILIKE and COUNT(*) rules before it, the marks of `e` are lost. */
  lemma ConvertQueryLosesMarks(text: string, params: seq<Value>, e: string, f: FilterSyntax)
    requires |params| > 0
    requires var q := Substitute(text, params).query;
             'K' !in q && 'k' !in q && '*' !in q && CountExprAt(q, e, f) && 6 + |e| + 1 + |FilterText(f)| == |q|
    ensures var r := ConvertQuery(text, params);
            Marks(r.query) + Marks(e) == Marks(text) + |r.params|
  {
    WholeCountDrops(Substitute(text, params).query, e, f);
    ConvertQueryMarks(text, params);
  }

  /** `COUNT($1) FILTER (WHERE c)` with one value: the value is sent, but
      the rewritten statement has no `?` left to bind it to. */
  lemma ConvertQueryDropsMark(v: Value, cond: string)
    requires v != Undefined && Capturable(cond)
    requires '$' !in cond && '?' !in cond && '*' !in cond && 'K' !in cond && 'k' !in cond
    ensures var r := ConvertQuery("COUNT($1) FILTER (WHERE " + cond + ")", [v]);
            r.params == [v] && Marks(r.query) == 0
  {
    var text := "COUNT($1) FILTER (WHERE " + cond + ")";
    var rest := ")" + FilterText(PlainFilter(cond));
    CountMarkSource(cond);
    CountMarkSourceMarks(cond);
    SubstituteFirstPlaceholder("COUNT(", rest, [v]);
    CountMarkStatementMatches(cond);
    CountMarkStatementChars(cond);
    ConvertQueryLosesMarks(text, [v], "?", PlainFilter(cond));
  }
}

=== FILE: dialect_rules.dfy ===
/**
  What each dialect rewrite of `convertQuery` does, stated over the texts
  its regular expression matches rather than over the scan that finds them:

    - `ILIKE`, in any case and with no word boundary, becomes `LIKE`;
    - `COUNT(*) FILTER (WHERE c)` becomes `SUM(CASE WHEN c THEN 1 ELSE 0 END)`;
    - `COUNT(e) FILTER (WHERE c)` becomes the same, `e` being dropped;
    - `DATE_TRUNC('month', e)` becomes `strftime('%Y-%m', e)`;
    - `NOW()` not preceded by a word character becomes `CURRENT_TIMESTAMP`.

  A text a pattern matches is described by its pieces (white-space runs,
  keywords as written, captured texts); each rule lemma says that the rule
  matches exactly the texts that start with such pieces, and what it puts in
  their place. The last section lifts each rule to its whole pass: the text
  before the leftmost match is copied, the match is replaced, and the scan
  goes on after it.
*/
module DialectRules {
  import opened JsValue
  import opened JsString
  import opened Translator

  // ---------------------------------------------------------------------
  // The texts the patterns match
  // ---------------------------------------------------------------------

  /** The pieces of a text matching `\s+FILTER\s+\(WHERE\s+([^)]+)\)`. */
  datatype FilterSyntax = FilterSyntax(ws1: string, filter: string, ws2: string, where: string, ws3: string, cond: string)

  predicate ValidFilter(f: FilterSyntax) {
    0 < |f.ws1| && AllSpace(f.ws1) && CiEq(f.filter, "FILTER") && ValidWhere(f)
  }

  /** The pieces after `FILTER` are those of `\s+\(WHERE\s+([^)]+)\)`. */
  predicate ValidWhere(f: FilterSyntax) {
    && 0 < |f.ws2| && AllSpace(f.ws2) && CiEq(f.where, "(WHERE")
    && 0 < |f.ws3| && AllSpace(f.ws3) && Capturable(f.cond)
  }

  function FilterText(f: FilterSyntax): string {
    f.ws1 + (f.filter + WhereText(f))
  }

  /** The part of `FilterText(f)` after `FILTER`. */
  function WhereText(f: FilterSyntax): string {
    f.ws2 + (f.where + (f.ws3 + (f.cond + ")")))
  }

  /** The pieces of a text matching `\s*\(\s*'month'\s*,\s*([^)]+)\s*\)`. */
  datatype MonthSyntax = MonthSyntax(ws1: string, ws2: string, month: string, ws3: string, ws4: string, expr: string)

  predicate ValidMonth(a: MonthSyntax) {
    AllSpace(a.ws1) && ValidMonthList(a)
  }

  /** The pieces after the `(` are those of `\s*'month'\s*,\s*([^)]+)\s*\)`. */
  predicate ValidMonthList(a: MonthSyntax) {
    && AllSpace(a.ws2) && CiEq(a.month, "'MONTH'")
    && AllSpace(a.ws3) && AllSpace(a.ws4) && Capturable(a.expr)
  }

  function MonthText(a: MonthSyntax): string {
    a.ws1 + ("(" + MonthListText(a))
  }

  /** The part of `MonthText(a)` after its `(`. */
  function MonthListText(a: MonthSyntax): string {
    a.ws2 + (a.month + MonthExprText(a))
  }

  /** The part of `MonthListText(a)` after `'month'`. */
  function MonthExprText(a: MonthSyntax): string {
    a.ws3 + ("," + (a.ws4 + (a.expr + ")")))
  }

  /** `s` starts with `COUNT(*)` and a FILTER clause made of the pieces `f`. */
  predicate CountStarAt(s: string, f: FilterSyntax) {
    CiTextAt(s, 0, "COUNT(*)") && ValidFilter(f) && TextAt(s, 8, FilterText(f))
  }

  /** `s` starts with `COUNT(`, the argument `e`, `)` and a FILTER clause made of the pieces `f`. */
  predicate CountExprAt(s: string, e: string, f: FilterSyntax) {
    CiTextAt(s, 0, "COUNT(") && 0 < |e| && ')' !in e && ValidFilter(f) && TextAt(s, 6, e + (")" + FilterText(f)))
  }

  /** `s` starts with `DATE_TRUNC` and an argument list made of the pieces `a`. */
  predicate DateTruncAt(s: string, a: MonthSyntax) {
    CiTextAt(s, 0, "DATE_TRUNC") && ValidMonth(a) && TextAt(s, 10, MonthText(a))
  }

  /** A keyword matched ignoring case starts with white space only if the keyword does. */
  lemma KeywordHead(k: string, pattern: string)
    requires CiEq(k, pattern) && 0 < |pattern|
    ensures IsSpace(k[0]) ==> IsSpace(pattern[0])
    ensures pattern[0] == '(' ==> k[0] == '('
  {
    assert UpperChar(k[0]) == pattern[0];
  }

  // ---------------------------------------------------------------------
  // The FILTER clause and the month argument
  // ---------------------------------------------------------------------

  /** White space and a keyword as written, from index `i` of `s`: the
      keyword pattern consumes both. */
  lemma SpacedKeywordOf(s: string, i: nat, ws: string, k: string, pattern: string, minSpaces: nat)
    requires AllSpace(ws) && minSpaces <= |ws| && CiEq(k, pattern) && 0 < |pattern| && !IsSpace(pattern[0])
    requires TextAt(s, i, ws) && TextAt(s, i + |ws|, k)
    ensures SpacedKeyword(s, i, pattern, minSpaces) == Some(|ws| + |k|)
  {
    KeywordHead(k, pattern);
    forall j | i <= j < i + |ws| ensures IsSpace(s[j]) {
      assert s[i + (j - i)] == ws[j - i];
    }
    assert s[i + |ws| + 0] == k[0];
    SpacesFromAt(s, i, |ws|);
    forall j | 0 <= j < |pattern| ensures UpperChar(s[i + |ws| + j]) == pattern[j] {
      assert s[i + |ws| + j] == k[j];
    }
  }

  /** What the keyword pattern consumed: white space, then the keyword as written. */
  lemma SpacedKeywordParts(s: string, i: nat, pattern: string, minSpaces: nat) returns (ws: string, k: string)
    requires i <= |s| && SpacedKeyword(s, i, pattern, minSpaces).Some?
    ensures AllSpace(ws) && minSpaces <= |ws| && CiEq(k, pattern)
    ensures TextAt(s, i, ws) && TextAt(s, i + |ws|, k)
    ensures SpacedKeyword(s, i, pattern, minSpaces).value == |ws| + |k|
  {
    var w := SpacesFrom(s, i);
    SpacesFromRun(s, i);
    ws := Slice(s, i, i + w);
    k := Slice(s, i + w, i + w + |pattern|);
    forall j | 0 <= j < |k| ensures UpperChar(k[j]) == pattern[j] {
      assert k[j] == s[i + w + j];
    }
  }

  /** `WhereCondition` assembled from what its two steps found. */
  lemma WhereConditionSteps(s: string, i: nat, b: nat, cond: string, k: nat, len: nat)
    requires i <= |s|
    requires SpacedKeyword(s, i, "(WHERE", 1) == Some(b)
    requires CaptureToParen(s, i + b, 1) == Some(Group(cond, k))
    requires len == b + k
    ensures WhereCondition(s, i) == Some(Group(cond, len))
  {
  }

  lemma WhereConditionOf(s: string, i: nat, f: FilterSyntax)
    requires ValidWhere(f) && TextAt(s, i, WhereText(f))
    ensures WhereCondition(s, i) == Some(Group(f.cond, |WhereText(f)|))
  {
    var tail := f.ws3 + (f.cond + ")");
    TextAtConcat(s, i, f.ws2, f.where + tail);
    TextAtConcat(s, i + |f.ws2|, f.where, tail);
    SpacedKeywordOf(s, i, f.ws2, f.where, "(WHERE", 1);
    var b := |f.ws2| + 6;
    CaptureOf(s, i + b, 1, f.ws3, f.cond);
    WhereConditionSteps(s, i, b, f.cond, |tail|, |WhereText(f)|);
  }

  /** The pieces of what `WhereCondition` matched, completed by the given
      pieces before `(WHERE`. */
  lemma WhereConditionParts(s: string, i: nat, ws1: string, filter: string) returns (f: FilterSyntax)
    requires i <= |s| && WhereCondition(s, i).Some?
    ensures f.ws1 == ws1 && f.filter == filter && ValidWhere(f) && TextAt(s, i, WhereText(f))
    ensures f.cond == WhereCondition(s, i).value.text
  {
    var b := SpacedKeyword(s, i, "(WHERE", 1).value;
    f := WherePieces(s, i, b, CaptureToParen(s, i + b, 1).value, ws1, filter);
  }

  /** The pieces behind the two steps of `WhereCondition`. */
  lemma WherePieces(s: string, i: nat, b: nat, c: Group, ws1: string, filter: string) returns (f: FilterSyntax)
    requires i <= |s|
    requires SpacedKeyword(s, i, "(WHERE", 1) == Some(b)
    requires CaptureToParen(s, i + b, 1) == Some(c)
    ensures f.ws1 == ws1 && f.filter == filter && ValidWhere(f) && TextAt(s, i, WhereText(f)) && f.cond == c.text
  {
    var ws3 := CaptureToParenParts(s, i + b, 1);
    var ws2, where := SpacedKeywordParts(s, i, "(WHERE", 1);
    var tail := ws3 + (c.text + ")");
    assert i + |ws2| + |where| == i + b;
    TextAtPieces(s, i, ws2, where, tail);
    f := FilterSyntax(ws1, filter, ws2, where, ws3, c.text);
  }

  /** `FilterWhere` assembled from its `FILTER` step and `WhereCondition`. */
  lemma FilterWhereSteps(s: string, i: nat, a: nat, cond: string, k: nat, len: nat)
    requires i <= |s|
    requires SpacedKeyword(s, i, "FILTER", 1) == Some(a)
    requires WhereCondition(s, i + a) == Some(Group(cond, k))
    requires len == a + k
    ensures FilterWhere(s, i) == Some(Group(cond, len))
  {
  }

  lemma FilterWhereOf(s: string, i: nat, f: FilterSyntax)
    requires ValidFilter(f) && TextAt(s, i, FilterText(f))
    ensures FilterWhere(s, i) == Some(Group(f.cond, |FilterText(f)|))
  {
    TextAtConcat(s, i, f.ws1, f.filter + WhereText(f));
    TextAtConcat(s, i + |f.ws1|, f.filter, WhereText(f));
    SpacedKeywordOf(s, i, f.ws1, f.filter, "FILTER", 1);
    var a := |f.ws1| + 6;
    WhereConditionOf(s, i + a, f);
    FilterWhereSteps(s, i, a, f.cond, |WhereText(f)|, |FilterText(f)|);
  }

  /** The pieces of the clause `FilterWhere` found. */
  lemma FilterWhereParts(s: string, i: nat) returns (f: FilterSyntax)
    requires i <= |s| && FilterWhere(s, i).Some?
    ensures ValidFilter(f) && TextAt(s, i, FilterText(f))
    ensures f.cond == FilterWhere(s, i).value.text
  {
    var a := SpacedKeyword(s, i, "FILTER", 1).value;
    f := FilterPieces(s, i, a, WhereCondition(s, i + a).value);
  }

  /** The pieces behind the two steps of `FilterWhere`. */
  lemma FilterPieces(s: string, i: nat, a: nat, g: Group) returns (f: FilterSyntax)
    requires i <= |s|
    requires SpacedKeyword(s, i, "FILTER", 1) == Some(a)
    requires WhereCondition(s, i + a) == Some(g)
    ensures ValidFilter(f) && TextAt(s, i, FilterText(f)) && f.cond == g.text
  {
    var ws1, filter := SpacedKeywordParts(s, i, "FILTER", 1);
    f := WhereConditionParts(s, i + a, ws1, filter);
    assert i + |ws1| + |filter| == i + a;
    TextAtPieces(s, i, ws1, filter, WhereText(f));
  }

  /** `\s+FILTER\s+\(WHERE\s+([^)]+)\)` matches at index `i` of `s` exactly
      when the pieces of such a clause stand there, and then it captures the
      condition and consumes the clause. */
  lemma FilterWhereMatches(s: string, i: nat)
    requires i <= |s|
    ensures FilterWhere(s, i).Some? <==> exists f :: ValidFilter(f) && TextAt(s, i, FilterText(f))
    ensures forall f :: ValidFilter(f) && TextAt(s, i, FilterText(f)) ==> FilterWhere(s, i) == Some(Group(f.cond, |FilterText(f)|))
  {
    forall f | ValidFilter(f) && TextAt(s, i, FilterText(f))
      ensures FilterWhere(s, i) == Some(Group(f.cond, |FilterText(f)|))
    {
      FilterWhereOf(s, i, f);
    }
    if FilterWhere(s, i).Some? {
      var f := FilterWhereParts(s, i);
    }
  }

  /** `MonthExpr` assembled from what its two steps found. */
  lemma MonthExprSteps(s: string, i: nat, c: nat, expr: string, k: nat, len: nat)
    requires i <= |s|
    requires SpacedKeyword(s, i, ",", 0) == Some(c)
    requires CaptureToParen(s, i + c, 0) == Some(Group(expr, k))
    requires len == c + k
    ensures MonthExpr(s, i) == Some(Group(expr, len))
  {
  }

  lemma MonthExprOf(s: string, i: nat, m: MonthSyntax)
    requires ValidMonth(m) && TextAt(s, i, MonthExprText(m))
    ensures MonthExpr(s, i) == Some(Group(m.expr, |MonthExprText(m)|))
  {
    var tail := m.ws4 + (m.expr + ")");
    TextAtConcat(s, i, m.ws3, "," + tail);
    TextAtConcat(s, i + |m.ws3|, ",", tail);
    SpacedKeywordOf(s, i, m.ws3, ",", ",", 0);
    var c := |m.ws3| + 1;
    CaptureOf(s, i + c, 0, m.ws4, m.expr);
    MonthExprSteps(s, i, c, m.expr, |tail|, |MonthExprText(m)|);
  }

  /** The pieces of what `MonthExpr` matched: the white space around its comma. */
  lemma MonthExprParts(s: string, i: nat) returns (ws3: string, ws4: string)
    requires i <= |s| && MonthExpr(s, i).Some?
    ensures var e := MonthExpr(s, i).value.text;
            AllSpace(ws3) && AllSpace(ws4) && Capturable(e) && TextAt(s, i, ws3 + ("," + (ws4 + (e + ")"))))
  {
    var c := SpacedKeyword(s, i, ",", 0).value;
    ws3, ws4 := MonthExprPieces(s, i, c, CaptureToParen(s, i + c, 0).value);
  }

  /** The pieces behind the two steps of `MonthExpr`. */
  lemma MonthExprPieces(s: string, i: nat, c: nat, e: Group) returns (ws3: string, ws4: string)
    requires i <= |s|
    requires SpacedKeyword(s, i, ",", 0) == Some(c)
    requires CaptureToParen(s, i + c, 0) == Some(e)
    ensures AllSpace(ws3) && AllSpace(ws4) && Capturable(e.text) && TextAt(s, i, ws3 + ("," + (ws4 + (e.text + ")"))))
  {
    ws4 := CaptureToParenParts(s, i + c, 0);
    var comma;
    ws3, comma := SpacedKeywordParts(s, i, ",", 0);
    KeywordHead(comma, ",");
    assert comma == ",";
    var tail := ws4 + (e.text + ")");
    assert i + |ws3| + 1 == i + c;
    TextAtPieces(s, i, ws3, ",", tail);
  }

  /** `MonthList` assembled from its `'month'` step and `MonthExpr`. */
  lemma MonthListSteps(s: string, i: nat, b: nat, expr: string, k: nat, len: nat)
    requires i <= |s|
    requires SpacedKeyword(s, i, "'MONTH'", 0) == Some(b)
    requires MonthExpr(s, i + b) == Some(Group(expr, k))
    requires len == b + k
    ensures MonthList(s, i) == Some(Group(expr, len))
  {
  }

  lemma MonthListOf(s: string, i: nat, m: MonthSyntax)
    requires ValidMonth(m) && TextAt(s, i, MonthListText(m))
    ensures MonthList(s, i) == Some(Group(m.expr, |MonthListText(m)|))
  {
    TextAtConcat(s, i, m.ws2, m.month + MonthExprText(m));
    TextAtConcat(s, i + |m.ws2|, m.month, MonthExprText(m));
    SpacedKeywordOf(s, i, m.ws2, m.month, "'MONTH'", 0);
    var b := |m.ws2| + 7;
    MonthExprOf(s, i + b, m);
    MonthListSteps(s, i, b, m.expr, |MonthExprText(m)|, |MonthListText(m)|);
  }

  /** `MonthArgument` assembled from its `(` step and `MonthList`. */
  lemma MonthArgumentSteps(s: string, i: nat, a: nat, expr: string, k: nat, len: nat)
    requires i <= |s|
    requires SpacedKeyword(s, i, "(", 0) == Some(a)
    requires MonthList(s, i + a) == Some(Group(expr, k))
    requires len == a + k
    ensures MonthArgument(s, i) == Some(Group(expr, len))
  {
  }

  lemma MonthArgumentOf(s: string, i: nat, m: MonthSyntax)
    requires ValidMonth(m) && TextAt(s, i, MonthText(m))
    ensures MonthArgument(s, i) == Some(Group(m.expr, |MonthText(m)|))
  {
    TextAtConcat(s, i, m.ws1, "(" + MonthListText(m));
    TextAtConcat(s, i + |m.ws1|, "(", MonthListText(m));
    SpacedKeywordOf(s, i, m.ws1, "(", "(", 0);
    var a := |m.ws1| + 1;
    MonthListOf(s, i + a, m);
    MonthArgumentSteps(s, i, a, m.expr, |MonthListText(m)|, |MonthText(m)|);
  }

  /** The pieces of the list `MonthList` found, completed by the given white
      space before the `(`. */
  lemma MonthListParts(s: string, i: nat, ws1: string) returns (m: MonthSyntax)
    requires i <= |s| && MonthList(s, i).Some?
    ensures m.ws1 == ws1 && ValidMonthList(m) && TextAt(s, i, MonthListText(m))
    ensures m.expr == MonthList(s, i).value.text
  {
    var b := SpacedKeyword(s, i, "'MONTH'", 0).value;
    m := MonthListPieces(s, i, b, MonthExpr(s, i + b).value, ws1);
  }

  /** The pieces behind the two steps of `MonthList`. */
  lemma MonthListPieces(s: string, i: nat, b: nat, e: Group, ws1: string) returns (m: MonthSyntax)
    requires i <= |s|
    requires SpacedKeyword(s, i, "'MONTH'", 0) == Some(b)
    requires MonthExpr(s, i + b) == Some(e)
    ensures m.ws1 == ws1 && ValidMonthList(m) && TextAt(s, i, MonthListText(m)) && m.expr == e.text
  {
    var ws3, ws4 := MonthExprParts(s, i + b);
    var ws2, month := SpacedKeywordParts(s, i, "'MONTH'", 0);
    m := MonthSyntax(ws1, ws2, month, ws3, ws4, e.text);
    assert i + |ws2| + |month| == i + b;
    TextAtPieces(s, i, ws2, month, MonthExprText(m));
  }

  /** The pieces of the argument list `MonthArgument` found. */
  lemma MonthArgumentParts(s: string, i: nat) returns (m: MonthSyntax)
    requires i <= |s| && MonthArgument(s, i).Some?
    ensures ValidMonth(m) && TextAt(s, i, MonthText(m))
  {
    var a := SpacedKeyword(s, i, "(", 0).value;
    m := MonthArgumentPieces(s, i, a, MonthList(s, i + a).value);
  }

  /** The pieces behind the two steps of `MonthArgument`. */
  lemma MonthArgumentPieces(s: string, i: nat, a: nat, e: Group) returns (m: MonthSyntax)
    requires i <= |s|
    requires SpacedKeyword(s, i, "(", 0) == Some(a)
    requires MonthList(s, i + a) == Some(e)
    ensures ValidMonth(m) && TextAt(s, i, MonthText(m)) && m.expr == e.text
  {
    var ws1, paren := SpacedKeywordParts(s, i, "(", 0);
    KeywordHead(paren, "(");
    assert paren == "(";
    m := MonthListParts(s, i + a, ws1);
    assert i + |ws1| + 1 == i + a;
    TextAtPieces(s, i, ws1, "(", MonthListText(m));
  }

  /** `\s*\(\s*'month'\s*,\s*([^)]+)\s*\)` matches at index `i` of `s`
      exactly when the pieces of such an argument list stand there, and then
      it captures the expression and consumes the list. */
  lemma MonthArgumentMatches(s: string, i: nat)
    requires i <= |s|
    ensures MonthArgument(s, i).Some? <==> exists m :: ValidMonth(m) && TextAt(s, i, MonthText(m))
    ensures forall m :: ValidMonth(m) && TextAt(s, i, MonthText(m)) ==> MonthArgument(s, i) == Some(Group(m.expr, |MonthText(m)|))
  {
    forall m | ValidMonth(m) && TextAt(s, i, MonthText(m))
      ensures MonthArgument(s, i) == Some(Group(m.expr, |MonthText(m)|))
    {
      MonthArgumentOf(s, i, m);
    }
    if MonthArgument(s, i).Some? {
      var m := MonthArgumentParts(s, i);
    }
  }

  // ---------------------------------------------------------------------
  // The five rules
  // ---------------------------------------------------------------------

  /** A pattern matched ignoring case at the start of `s`, in the form the
      rules test it. */
  lemma HeadAt(s: string, pattern: string)
    ensures CiOccursAt(s, pattern, 0) <==> |pattern| <= |s| && CiEq(s[..|pattern|], pattern)
  {
    if |pattern| <= |s| {
      assert s[0..|pattern|] == s[..|pattern|];
    }
  }

  /** `/ILIKE/gi`: any casing of `ILIKE` matches, whatever comes before it,
      and becomes `LIKE`. */
  lemma ILikeRewrite(s: string, prev: Option<char>)
    ensures MatchAt(ILike, s, prev).Some? <==> CiOccursAt(s, "ILIKE", 0)
    ensures MatchAt(ILike, s, prev) == MatchAt(ILike, s, None)
    ensures MatchAt(ILike, s, prev).Some? ==> MatchAt(ILike, s, prev).value == Hit(5, "LIKE")
  {
    HeadAt(s, "ILIKE");
  }

  /** `/\bNOW\(\)/gi`: `NOW()` in any casing matches only where no word
      character comes before it, and becomes `CURRENT_TIMESTAMP`. */
  lemma NowRewrite(s: string, prev: Option<char>)
    ensures MatchAt(Now, s, prev).Some? <==> (prev.None? || !IsWordChar(prev.value)) && CiOccursAt(s, "NOW()", 0)
    ensures MatchAt(Now, s, prev).Some? ==> MatchAt(Now, s, prev).value == Hit(5, "CURRENT_TIMESTAMP")
  {
    HeadAt(s, "NOW()");
  }

  /** The COUNT(*) rule assembled from the FILTER clause after its head. */
  lemma CountStarSteps(s: string, cond: string, k: nat, len: nat)
    requires CiTextAt(s, 0, "COUNT(*)")
    requires FilterWhere(s, 8) == Some(Group(cond, k))
    requires len == 8 + k
    ensures CountStarMatch(s) == Some(Hit(len, SumCase(cond)))
  {
  }

  /** A `COUNT(*)` head and a FILTER clause made of the pieces `f`: the rule's hit. */
  lemma CountStarOf(s: string, f: FilterSyntax)
    requires CountStarAt(s, f)
    ensures CountStarMatch(s) == Some(Hit(8 + |FilterText(f)|, SumCase(f.cond)))
  {
    FilterWhereOf(s, 8, f);
    CountStarSteps(s, f.cond, |FilterText(f)|, 8 + |FilterText(f)|);
  }

  /** The FILTER clause the COUNT(*) rule matched. */
  lemma CountStarParts(s: string) returns (f: FilterSyntax)
    requires CountStarMatch(s).Some?
    ensures CountStarAt(s, f)
  {
    f := FilterWhereParts(s, 8);
  }

  /** `/COUNT\(\*\)\s+FILTER\s+\(WHERE\s+([^)]+)\)/gi` matches exactly the
      texts that start with `COUNT(*)` and a FILTER clause, and the whole of
      it becomes a `SUM(CASE …)` over the condition. */
  lemma CountStarFilterRewrite(s: string, prev: Option<char>)
    ensures MatchAt(CountStarFilter, s, prev).Some? <==> exists f :: CountStarAt(s, f)
    ensures forall f :: CountStarAt(s, f) ==>
              MatchAt(CountStarFilter, s, prev) == Some(Hit(8 + |FilterText(f)|, SumCase(f.cond)))
  {
    forall f | CountStarAt(s, f)
      ensures CountStarMatch(s) == Some(Hit(8 + |FilterText(f)|, SumCase(f.cond)))
    {
      CountStarOf(s, f);
    }
    if CountStarMatch(s).Some? {
      var f := CountStarParts(s);
    }
  }

  /** The argument of `COUNT(e)` runs to the first `)`. */
  lemma CountArgumentOf(s: string, e: string, rest: string)
    requires 0 < |e| && ')' !in e
    requires TextAt(s, 6, e + (")" + rest))
    ensures ParenFrom(s, 6) == 6 + |e|
    ensures TextAt(s, 6 + |e| + 1, rest)
  {
    TextAtConcat(s, 6, e, ")" + rest);
    TextAtConcat(s, 6 + |e|, ")", rest);
    assert s[6 + |e| + 0] == ")"[0];
    forall j | 6 <= j < 6 + |e| ensures s[j] != ')' {
      assert s[6 + (j - 6)] == e[j - 6];
    }
    ParenFromAt(s, 6, 6 + |e|);
  }

  /** The argument `COUNT(e)` took: everything before the first `)`. */
  lemma CountArgumentParts(s: string, rest: string) returns (e: string)
    requires 6 <= |s| && ParenFrom(s, 6) > 6
    requires TextAt(s, ParenFrom(s, 6) + 1, rest)
    ensures 0 < |e| && ')' !in e
    ensures TextAt(s, 6, e + (")" + rest))
  {
    var p := ParenFrom(s, 6);
    ParenFromFirst(s, 6);
    e := Slice(s, 6, p);
    assert TextAt(s, p, ")");
    TextAtConcat(s, p, ")", rest);
    TextAtConcat(s, 6, e, ")" + rest);
  }

  /** The COUNT(e) rule assembled from the argument and the FILTER clause after it. */
  lemma CountExprSteps(s: string, p: nat, cond: string, k: nat, len: nat)
    requires CiTextAt(s, 0, "COUNT(")
    requires ParenFrom(s, 6) == p && 6 < p
    requires FilterWhere(s, p + 1) == Some(Group(cond, k))
    requires len == p + 1 + k
    ensures CountExprMatch(s) == Some(Hit(len, SumCase(cond)))
  {
  }

  /** The argument and the FILTER clause the COUNT(e) rule matched. */
  lemma CountExprParts(s: string) returns (e: string, f: FilterSyntax)
    requires CountExprMatch(s).Some?
    ensures CountExprAt(s, e, f)
  {
    var p := ParenFrom(s, 6);
    f := FilterWhereParts(s, p + 1);
    e := CountArgumentParts(s, FilterText(f));
  }

  /** A `COUNT(` head, an argument, `)` and a FILTER clause: the rule's hit. */
  lemma CountExprOf(s: string, e: string, f: FilterSyntax)
    requires CountExprAt(s, e, f)
    ensures CountExprMatch(s) == Some(Hit(6 + |e| + 1 + |FilterText(f)|, SumCase(f.cond)))
  {
    CountArgumentOf(s, e, FilterText(f));
    FilterWhereOf(s, 6 + |e| + 1, f);
    CountExprSteps(s, 6 + |e|, f.cond, |FilterText(f)|, 6 + |e| + 1 + |FilterText(f)|);
  }

  /** `/COUNT\(([^)]+)\)\s+FILTER\s+\(WHERE\s+([^)]+)\)/gi` matches exactly
      the texts that start with `COUNT(`, an argument free of `)`, `)` and a
      FILTER clause; the whole of it becomes a `SUM(CASE …)` over the
      condition, and the argument is dropped. */
  lemma CountExprFilterRewrite(s: string, prev: Option<char>)
    ensures MatchAt(CountExprFilter, s, prev).Some? <==> exists e, f :: CountExprAt(s, e, f)
    ensures forall e, f :: CountExprAt(s, e, f) ==>
              MatchAt(CountExprFilter, s, prev) == Some(Hit(6 + |e| + 1 + |FilterText(f)|, SumCase(f.cond)))
  {
    forall e, f | CountExprAt(s, e, f)
      ensures CountExprMatch(s) == Some(Hit(6 + |e| + 1 + |FilterText(f)|, SumCase(f.cond)))
    {
      CountExprOf(s, e, f);
    }
    if CountExprMatch(s).Some? {
      var e, f := CountExprParts(s);
    }
  }

  /** The DATE_TRUNC rule assembled from the argument list after its head. */
  lemma DateTruncSteps(s: string, expr: string, k: nat, len: nat)
    requires CiTextAt(s, 0, "DATE_TRUNC")
    requires MonthArgument(s, 10) == Some(Group(expr, k))
    requires len == 10 + k
    ensures DateTruncMatch(s) == Some(Hit(len, MonthBucket(expr)))
  {
  }

  /** A `DATE_TRUNC` head and a month argument list made of the pieces `a`: the rule's hit. */
  lemma DateTruncOf(s: string, a: MonthSyntax)
    requires DateTruncAt(s, a)
    ensures DateTruncMatch(s) == Some(Hit(10 + |MonthText(a)|, MonthBucket(a.expr)))
  {
    MonthArgumentOf(s, 10, a);
    DateTruncSteps(s, a.expr, |MonthText(a)|, 10 + |MonthText(a)|);
  }

  /** The argument list the DATE_TRUNC rule matched. */
  lemma DateTruncParts(s: string) returns (a: MonthSyntax)
    requires DateTruncMatch(s).Some?
    ensures DateTruncAt(s, a)
  {
    a := MonthArgumentParts(s, 10);
  }

  /** `/DATE_TRUNC\s*\(\s*'month'\s*,\s*([^)]+)\s*\)/gi` matches exactly the
      texts that start with `DATE_TRUNC` and a month argument list, and the
      whole of it becomes `strftime('%Y-%m', …)` over the expression. */
  lemma DateTruncRewrite(s: string, prev: Option<char>)
    ensures MatchAt(DateTruncMonth, s, prev).Some? <==> exists a :: DateTruncAt(s, a)
    ensures forall a :: DateTruncAt(s, a) ==>
              MatchAt(DateTruncMonth, s, prev) == Some(Hit(10 + |MonthText(a)|, MonthBucket(a.expr)))
  {
    forall a | DateTruncAt(s, a)
      ensures DateTruncMatch(s) == Some(Hit(10 + |MonthText(a)|, MonthBucket(a.expr)))
    {
      DateTruncOf(s, a);
    }
    if DateTruncMatch(s).Some? {
      var a := DateTruncParts(s);
    }
  }

  // ---------------------------------------------------------------------
  // Whole passes
  // ---------------------------------------------------------------------

  /** What a pass of `m` over `s` gives when it copies the text before `i`,
      writes `out` in place of the `len` characters from `i` on, and goes on
      after them. */
  function Spliced(m: Matcher, s: string, prev: Option<char>, i: nat, len: nat, out: string): string
    requires Consumes(m) && 0 < len && i + len <= |s|
  {
    s[..i] + (out + ReplaceAll(m, s[i + len..], Some(s[i + len - 1])))
  }

  /** A pass where the leftmost match of its matcher is at `i`, takes `len`
      characters and is replaced by `out`. */
  lemma PassAt(m: Matcher, s: string, prev: Option<char>, i: nat, len: nat, out: string)
    requires Consumes(m) && i < |s|
    requires forall j :: 0 <= j < i ==> m(s[j..], PrevAt(s, prev, j)).None?
    requires m(s[i..], PrevAt(s, prev, i)) == Some(Hit(len, out))
    ensures 0 < len && i + len <= |s|
    ensures ReplaceAll(m, s, prev) == Spliced(m, s, prev, i, len, out)
  {
    forall j | 0 <= j < i ensures !MatchesAt(m, s, prev, j) {
    }
    ReplaceAllCopiesPrefix(m, s, prev, i);
    var t := s[i..];
    assert t[len..] == s[i + len..];
    assert t[len - 1] == s[i + len - 1];
  }

  /** `PassAt` for the pass of one rule. */
  lemma RulePassAt(rule: Rule, s: string, prev: Option<char>, i: nat, len: nat, out: string)
    requires i < |s|
    requires forall j :: 0 <= j < i ==> Pattern(rule)(s[j..], PrevAt(s, prev, j)).None?
    requires Pattern(rule)(s[i..], PrevAt(s, prev, i)) == Some(Hit(len, out))
    ensures 0 < len && i + len <= |s|
    ensures ReplaceAll(Pattern(rule), s, prev) == Spliced(Pattern(rule), s, prev, i, len, out)
  {
    PassAt(Pattern(rule), s, prev, i, len, out);
  }

  /** No `ILIKE` before `i`: the ILIKE rule does not match there. */
  lemma ILikeMissBefore(s: string, prev: Option<char>, i: nat)
    requires i <= |s|
    requires forall j :: 0 <= j < i ==> !CiOccursAt(s[j..], "ILIKE", 0)
    ensures forall j :: 0 <= j < i ==> Pattern(ILike)(s[j..], PrevAt(s, prev, j)).None?
  {
    forall j | 0 <= j < i ensures MatchAt(ILike, s[j..], PrevAt(s, prev, j)).None? {
      ILikeRewrite(s[j..], PrevAt(s, prev, j));
    }
  }

  /** The ILIKE pass copies the text before the leftmost `ILIKE` in any
      case, writes `LIKE` for it, and goes on after it. */
  lemma ILikePass(s: string, prev: Option<char>, i: nat)
    requires i < |s|
    requires forall j :: 0 <= j < i ==> !CiOccursAt(s[j..], "ILIKE", 0)
    requires CiOccursAt(s[i..], "ILIKE", 0)
    ensures i + 5 <= |s|
    ensures ReplaceAll(Pattern(ILike), s, prev) == Spliced(Pattern(ILike), s, prev, i, 5, "LIKE")
  {
    ILikeMissBefore(s, prev, i);
    ILikeRewrite(s[i..], PrevAt(s, prev, i));
    PassAt(Pattern(ILike), s, prev, i, 5, "LIKE");
  }

  /** `NOW()` in any case at index `i` of `s`, with no word character before it. */
  predicate NowAt(s: string, prev: Option<char>, i: nat)
    requires i <= |s|
  {
    var p := PrevAt(s, prev, i);
    (p.None? || !IsWordChar(p.value)) && CiOccursAt(s[i..], "NOW()", 0)
  }

  /** No bounded `NOW()` before `i`: the NOW rule does not match there. */
  lemma NowMissBefore(s: string, prev: Option<char>, i: nat)
    requires i <= |s|
    requires forall j :: 0 <= j < i ==> !NowAt(s, prev, j)
    ensures forall j :: 0 <= j < i ==> Pattern(Now)(s[j..], PrevAt(s, prev, j)).None?
  {
    forall j | 0 <= j < i ensures MatchAt(Now, s[j..], PrevAt(s, prev, j)).None? {
      assert !NowAt(s, prev, j);
      NowRewrite(s[j..], PrevAt(s, prev, j));
    }
  }

  /** The NOW pass copies the text before the leftmost `NOW()` that follows
      no word character, writes `CURRENT_TIMESTAMP` for it, and goes on
      after it. */
  lemma NowPass(s: string, prev: Option<char>, i: nat)
    requires i < |s|
    requires forall j :: 0 <= j < i ==> !NowAt(s, prev, j)
    requires NowAt(s, prev, i)
    ensures i + 5 <= |s|
    ensures ReplaceAll(Pattern(Now), s, prev) == Spliced(Pattern(Now), s, prev, i, 5, "CURRENT_TIMESTAMP")
  {
    NowMissBefore(s, prev, i);
    NowRewrite(s[i..], PrevAt(s, prev, i));
    PassAt(Pattern(Now), s, prev, i, 5, "CURRENT_TIMESTAMP");
  }

  /** No `COUNT(*) FILTER (WHERE c)` before `i`: the COUNT(*) rule does not match there. */
  lemma CountStarMissBefore(s: string, prev: Option<char>, i: nat)
    requires i <= |s|
    requires forall j, g :: 0 <= j < i ==> !CountStarAt(s[j..], g)
    ensures forall j :: 0 <= j < i ==> Pattern(CountStarFilter)(s[j..], PrevAt(s, prev, j)).None?
  {
    forall j | 0 <= j < i ensures MatchAt(CountStarFilter, s[j..], PrevAt(s, prev, j)).None? {
      CountStarFilterRewrite(s[j..], PrevAt(s, prev, j));
    }
  }

  /** A COUNT(*) match, as its pass sees it. */
  lemma CountStarHitAt(t: string, p: Option<char>, f: FilterSyntax)
    requires CountStarAt(t, f)
    ensures Pattern(CountStarFilter)(t, p) == Some(Hit(8 + |FilterText(f)|, SumCase(f.cond)))
  {
    CountStarOf(t, f);
  }

  /** The COUNT(*) pass copies the text before the leftmost
      `COUNT(*) FILTER (WHERE c)`, writes the `SUM(CASE …)` over `c` for it,
      and goes on after it. */
  lemma CountStarPass(s: string, prev: Option<char>, i: nat, f: FilterSyntax)
    requires i < |s|
    requires forall j, g :: 0 <= j < i ==> !CountStarAt(s[j..], g)
    requires CountStarAt(s[i..], f)
    ensures 0 < 8 + |FilterText(f)| && i + (8 + |FilterText(f)|) <= |s|
    ensures ReplaceAll(Pattern(CountStarFilter), s, prev) == Spliced(Pattern(CountStarFilter), s, prev, i, 8 + |FilterText(f)|, SumCase(f.cond))
  {
    CountStarMissBefore(s, prev, i);
    CountStarHitAt(s[i..], PrevAt(s, prev, i), f);
    RulePassAt(CountStarFilter, s, prev, i, 8 + |FilterText(f)|, SumCase(f.cond));
  }

  /** No `COUNT(e) FILTER (WHERE c)` before `i`: the COUNT(e) rule does not match there. */
  lemma CountExprMissBefore(s: string, prev: Option<char>, i: nat)
    requires i <= |s|
    requires forall j, e, g :: 0 <= j < i ==> !CountExprAt(s[j..], e, g)
    ensures forall j :: 0 <= j < i ==> Pattern(CountExprFilter)(s[j..], PrevAt(s, prev, j)).None?
  {
    forall j | 0 <= j < i ensures MatchAt(CountExprFilter, s[j..], PrevAt(s, prev, j)).None? {
      CountExprFilterRewrite(s[j..], PrevAt(s, prev, j));
    }
  }

  /** A COUNT(e) match, as its pass sees it. */
  lemma CountExprHitAt(t: string, p: Option<char>, e: string, f: FilterSyntax)
    requires CountExprAt(t, e, f)
    ensures Pattern(CountExprFilter)(t, p) == Some(Hit(6 + |e| + 1 + |FilterText(f)|, SumCase(f.cond)))
  {
    CountExprOf(t, e, f);
  }

  /** The COUNT(e) pass copies the text before the leftmost
      `COUNT(e) FILTER (WHERE c)`, writes the `SUM(CASE …)` over `c` for it,
      dropping `e`, and goes on after it. */
  lemma CountExprPass(s: string, prev: Option<char>, i: nat, e: string, f: FilterSyntax)
    requires i < |s|
    requires forall j, e', g :: 0 <= j < i ==> !CountExprAt(s[j..], e', g)
    requires CountExprAt(s[i..], e, f)
    ensures 0 < 6 + |e| + 1 + |FilterText(f)| && i + (6 + |e| + 1 + |FilterText(f)|) <= |s|
    ensures ReplaceAll(Pattern(CountExprFilter), s, prev) == Spliced(Pattern(CountExprFilter), s, prev, i, 6 + |e| + 1 + |FilterText(f)|, SumCase(f.cond))
  {
    CountExprMissBefore(s, prev, i);
    CountExprHitAt(s[i..], PrevAt(s, prev, i), e, f);
    RulePassAt(CountExprFilter, s, prev, i, 6 + |e| + 1 + |FilterText(f)|, SumCase(f.cond));
  }

  /** No `DATE_TRUNC('month', e)` before `i`: the DATE_TRUNC rule does not match there. */
  lemma DateTruncMissBefore(s: string, prev: Option<char>, i: nat)
    requires i <= |s|
    requires forall j, b :: 0 <= j < i ==> !DateTruncAt(s[j..], b)
    ensures forall j :: 0 <= j < i ==> Pattern(DateTruncMonth)(s[j..], PrevAt(s, prev, j)).None?
  {
    forall j | 0 <= j < i ensures MatchAt(DateTruncMonth, s[j..], PrevAt(s, prev, j)).None? {
      DateTruncRewrite(s[j..], PrevAt(s, prev, j));
    }
  }

  /** A DATE_TRUNC match, as its pass sees it. */
  lemma DateTruncHitAt(t: string, p: Option<char>, a: MonthSyntax)
    requires DateTruncAt(t, a)
    ensures Pattern(DateTruncMonth)(t, p) == Some(Hit(10 + |MonthText(a)|, MonthBucket(a.expr)))
  {
    DateTruncOf(t, a);
  }

  /** The DATE_TRUNC pass copies the text before the leftmost
      `DATE_TRUNC('month', e)`, writes `strftime('%Y-%m', e)` for it, and
      goes on after it. */
  lemma DateTruncPass(s: string, prev: Option<char>, i: nat, a: MonthSyntax)
    requires i < |s|
    requires forall j, b :: 0 <= j < i ==> !DateTruncAt(s[j..], b)
    requires DateTruncAt(s[i..], a)
    ensures 0 < 10 + |MonthText(a)| && i + (10 + |MonthText(a)|) <= |s|
    ensures ReplaceAll(Pattern(DateTruncMonth), s, prev) == Spliced(Pattern(DateTruncMonth), s, prev, i, 10 + |MonthText(a)|, MonthBucket(a.expr))
  {
    DateTruncMissBefore(s, prev, i);
    DateTruncHitAt(s[i..], PrevAt(s, prev, i), a);
    RulePassAt(DateTruncMonth, s, prev, i, 10 + |MonthText(a)|, MonthBucket(a.expr));
  }
}

=== FILE: js_string.dfy ===
/**
  The string operations of ECMAScript that the modelled code relies on:
  regular-expression character classes (`\d`, `\w`, `\s`), case mapping,
  `startsWith`, `includes`, `indexOf`, `trim` and `split`/`join` on a
  one-character separator. Strings are sequences of Unicode scalar values.
 */
module JsString {

  /** `\d`: an ASCII digit. */
  predicate IsDigit(c: char) {
    '0' <= c <= '9'
  }

  /** `\w` of a regular expression without the `u` flag: ASCII letters, digits and `_`. */
  predicate IsWordChar(c: char) {
    'a' <= c <= 'z' || 'A' <= c <= 'Z' || IsDigit(c) || c == '_'
  }

  /** ECMAScript WhiteSpace and LineTerminator: what `\s` matches and `trim` removes. */
  predicate IsSpace(c: char) {
    || c == '\t' || c == '\n' || c == '\U{000B}' || c == '\U{000C}' || c == '\r' || c == ' '
    || c == '\U{00A0}' || c == '\U{1680}' || ('\U{2000}' <= c <= '\U{200A}')
    || c == '\U{2028}' || c == '\U{2029}' || c == '\U{202F}' || c == '\U{205F}'
    || c == '\U{3000}' || c == '\U{FEFF}'
  }

  /** Upper-case mapping of ASCII letters; every other character maps to itself. */
  function UpperChar(c: char): (u: char)
    ensures 'a' <= c <= 'z' ==> u as int == c as int - 32
    ensures !('a' <= c <= 'z') ==> u == c
  {
    if 'a' <= c <= 'z' then (c as int - 32) as char else c
  }

  /** Lower-case mapping of ASCII letters; every other character maps to itself. */
  function LowerChar(c: char): (l: char)
    ensures 'A' <= c <= 'Z' ==> l as int == c as int + 32
    ensures !('A' <= c <= 'Z') ==> l == c
  {
    if 'A' <= c <= 'Z' then (c as int + 32) as char else c
  }

  function Upper(s: string): (u: string)
    ensures |u| == |s|
    ensures forall i :: 0 <= i < |s| ==> u[i] == UpperChar(s[i])
  {
    seq(|s|, i requires 0 <= i < |s| => UpperChar(s[i]))
  }

  function Lower(s: string): (l: string)
    ensures |l| == |s|
    ensures forall i :: 0 <= i < |s| ==> l[i] == LowerChar(s[i])
  {
    seq(|s|, i requires 0 <= i < |s| => LowerChar(s[i]))
  }

  /** `s` matches `pattern` under the `i` flag of a regular expression without
      the `u` flag, `pattern` being written in upper case. Only ASCII letters
      fold: a non-ASCII character never canonicalizes to an ASCII one. */
  predicate CiEq(s: string, pattern: string) {
    |s| == |pattern| && forall i :: 0 <= i < |s| ==> UpperChar(s[i]) == pattern[i]
  }

  predicate StartsWith(s: string, prefix: string) {
    |prefix| <= |s| && s[..|prefix|] == prefix
  }

  /** `sub` occurs in `s` at index `i`. */
  predicate OccursAt(s: string, sub: string, i: int) {
    0 <= i && i + |sub| <= |s| && s[i..i + |sub|] == sub
  }

  /** `s.indexOf(sub)`: the first index at which `sub` occurs, or -1. */
  function IndexOf(s: string, sub: string): (r: int)
    ensures -1 <= r
    ensures r >= 0 ==> OccursAt(s, sub, r)
    ensures forall i :: 0 <= i && (r < 0 || i < r) ==> !OccursAt(s, sub, i)
    decreases |s|
  {
    if |s| < |sub| then -1
    else if s[..|sub|] == sub then 0
    else
      var k := IndexOf(s[1..], sub);
      assert forall i :: 1 <= i ==> (OccursAt(s, sub, i) <==> OccursAt(s[1..], sub, i - 1)) by {
        forall i | 1 <= i {
          OccursAtTail(s, sub, i);
        }
      }
      if k < 0 then -1 else k + 1
  }

  /** An occurrence after the first character is an occurrence in the tail. */
  lemma OccursAtTail(s: string, sub: string, i: int)
    requires 1 <= i && |s| >= 1
    ensures OccursAt(s, sub, i) <==> OccursAt(s[1..], sub, i - 1)
  {
    if i + |sub| <= |s| {
      assert s[1..][i - 1..i - 1 + |sub|] == s[i..i + |sub|];
    }
  }

  /** `s.includes(sub)`. */
  predicate Contains(s: string, sub: string) {
    IndexOf(s, sub) >= 0
  }

  lemma StartsWithAppend(a: string, b: string)
    ensures StartsWith(a + b, a)
  {
    assert (a + b)[..|a|] == a;
  }

  lemma StartsWithGrouped(a: string, b: string, c: string)
    ensures StartsWith(a + (b + c), a + b)
  {
    StartsWithAppend(a + b, c);
    assert a + b + c == a + (b + c);
  }

  lemma ContainsIff(s: string, sub: string)
    ensures Contains(s, sub) <==> exists i :: OccursAt(s, sub, i)
  {
  }

  /** `includes` of a one-character string is membership of the character. */
  lemma ContainsChar(s: string, c: char)
    ensures Contains(s, [c]) <==> c in s
  {
    if c in s {
      var i :| 0 <= i < |s| && s[i] == c;
      assert s[i..i + 1] == [c];
      assert OccursAt(s, [c], i);
    }
    if Contains(s, [c]) {
      var i := IndexOf(s, [c]);
      assert s[i..i + 1][0] == s[i];
    }
  }

  /** `pattern` occurs in `s` at index `i` ignoring ASCII case, `pattern` being written in upper case. */
  predicate CiOccursAt(s: string, pattern: string, i: int) {
    0 <= i && i + |pattern| <= |s| && CiEq(s[i..i + |pattern|], pattern)
  }

  /** `s` holds `x` from index `i` on. */
  predicate TextAt(s: string, i: nat, x: string) {
    i + |x| <= |s| && forall j {:trigger x[j]} :: 0 <= j < |x| ==> s[i + j] == x[j]
  }

  /** `s` holds, from index `i` on, a text equal to `pattern` ignoring ASCII
      case, `pattern` being written in upper case. */
  predicate CiTextAt(s: string, i: nat, pattern: string) {
    i + |pattern| <= |s| && forall j :: 0 <= j < |pattern| ==> UpperChar(s[i + j]) == pattern[j]
  }

  /** A concatenation read in place is its two parts, one after the other. */
  lemma TextAtConcat(s: string, i: nat, a: string, b: string)
    ensures TextAt(s, i, a + b) <==> TextAt(s, i, a) && TextAt(s, i + |a|, b)
  {
    if TextAt(s, i, a) && TextAt(s, i + |a|, b) {
      forall j | 0 <= j < |a + b| ensures s[i + j] == (a + b)[j] {
        if j >= |a| {
          assert s[i + |a| + (j - |a|)] == b[j - |a|];
        }
      }
    }
    if TextAt(s, i, a + b) {
      forall j | 0 <= j < |b| ensures s[i + |a| + j] == b[j] {
        assert s[i + (|a| + j)] == (a + b)[|a| + j];
      }
      forall j | 0 <= j < |a| ensures s[i + j] == a[j] {
        assert s[i + j] == (a + b)[j];
      }
    }
  }

  /** Three texts held one after the other make up their concatenation. */
  lemma TextAtPieces(s: string, i: nat, x: string, y: string, z: string)
    requires TextAt(s, i, x) && TextAt(s, i + |x|, y) && TextAt(s, i + |x| + |y|, z)
    ensures TextAt(s, i, x + (y + z))
  {
    TextAtConcat(s, i + |x|, y, z);
    TextAtConcat(s, i, x, y + z);
  }

  /** `s.substring(a, b)`: the characters from index `a` up to `b`, read in place. */
  function Slice(s: string, a: nat, b: nat): (r: string)
    requires a <= b <= |s|
    ensures |r| == b - a && TextAt(s, a, r)
    decreases b - a
  {
    if a == b then [] else Slice(s, a, b - 1) + [s[b - 1]]
  }

  /** A text held from index `a` on is the slice there. */
  lemma SliceOf(s: string, a: nat, x: string)
    requires TextAt(s, a, x)
    ensures Slice(s, a, a + |x|) == x
  {
    var r := Slice(s, a, a + |x|);
    forall j | 0 <= j < |x| ensures r[j] == x[j] {
      assert r[j] == s[a + j];
    }
  }

  /** `s.search(/pattern/i)`: the first index at which `pattern` occurs ignoring ASCII case, or -1. */
  function FindCi(s: string, pattern: string): (r: int)
    ensures -1 <= r
    ensures r >= 0 ==> CiOccursAt(s, pattern, r)
    ensures forall i :: 0 <= i && (r < 0 || i < r) ==> !CiOccursAt(s, pattern, i)
  {
    FindCiFrom(s, pattern, 0)
  }

  /** The search, resumed at index `k`. */
  function FindCiFrom(s: string, pattern: string, k: nat): (r: int)
    ensures r == -1 || (k <= r && CiOccursAt(s, pattern, r))
    ensures forall i :: k <= i && (r < 0 || i < r) ==> !CiOccursAt(s, pattern, i)
    decreases |s| - k
  {
    if |s| < k + |pattern| then -1
    else if CiOccursAt(s, pattern, k) then k
    else FindCiFrom(s, pattern, k + 1)
  }

  /** Searching the upper-cased text for an upper-case pattern finds what a
      case-insensitive search of the original text finds. */
  lemma OccursUpperIff(s: string, pattern: string, i: int)
    ensures OccursAt(Upper(s), pattern, i) <==> CiOccursAt(s, pattern, i)
  {
    if 0 <= i && i + |pattern| <= |s| {
      var u := Upper(s)[i..i + |pattern|];
      assert forall k :: 0 <= k < |pattern| ==> u[k] == UpperChar(s[i..i + |pattern|][k]);
    }
  }

  lemma IndexOfUpper(s: string, pattern: string)
    ensures IndexOf(Upper(s), pattern) == FindCi(s, pattern)
  {
    var a := IndexOf(Upper(s), pattern);
    var b := FindCi(s, pattern);
    if a >= 0 {
      OccursUpperIff(s, pattern, a);
    }
    if b >= 0 {
      OccursUpperIff(s, pattern, b);
    }
  }

  /** An occurrence inside a slice is an occurrence in the whole text. */
  lemma CiOccursInSlice(s: string, pattern: string, a: nat, b: nat, j: int)
    requires a <= b <= |s|
    requires CiOccursAt(s[a..b], pattern, j)
    ensures CiOccursAt(s, pattern, a + j)
  {
    var n := |pattern|;
    var x := s[a..b][j..j + n];
    var y := s[a + j..a + j + n];
    assert forall k :: 0 <= k < n ==> x[k] == y[k];
    assert x == y;
  }

  /** An occurrence that lies inside the trimmed part of a text is found in the trimmed text. */
  lemma CiOccursInTrim(s: string, pattern: string, i: int)
    requires |pattern| > 0 && !IsSpace(pattern[0]) && !IsSpace(pattern[|pattern| - 1])
    requires CiOccursAt(s, pattern, i)
    ensures CiOccursAt(Trim(s), pattern, i - SpaceRun(s))
  {
    CiOccursInTrimmed(s, Trim(s), pattern, SpaceRun(s), i);
  }

  /** `CiOccursInTrim` for any slice `r` of `s` with only white space around it. */
  lemma CiOccursInTrimmed(s: string, r: string, pattern: string, w: nat, i: int)
    requires w + |r| <= |s| && r == s[w..w + |r|]
    requires forall k :: 0 <= k < w ==> IsSpace(s[k])
    requires forall k :: w + |r| <= k < |s| ==> IsSpace(s[k])
    requires |pattern| > 0 && !IsSpace(pattern[0]) && !IsSpace(pattern[|pattern| - 1])
    requires CiOccursAt(s, pattern, i)
    ensures CiOccursAt(r, pattern, i - w)
  {
    OccurrenceEdges(s, pattern, i);
    CiOccursInPart(s, r, pattern, w, i);
  }

  /** An occurrence of a pattern that neither starts nor ends with white
      space neither starts nor ends with white space. */
  lemma OccurrenceEdges(s: string, pattern: string, i: int)
    requires |pattern| > 0 && !IsSpace(pattern[0]) && !IsSpace(pattern[|pattern| - 1])
    requires CiOccursAt(s, pattern, i)
    ensures !IsSpace(s[i]) && !IsSpace(s[i + |pattern| - 1])
  {
    var piece := s[i..i + |pattern|];
    EdgesNotSpace(piece, pattern);
    assert piece[0] == s[i] && piece[|pattern| - 1] == s[i + |pattern| - 1];
  }

  /** An occurrence that lies inside a slice `r` of `s` is an occurrence in `r`. */
  lemma CiOccursInPart(s: string, r: string, pattern: string, a: nat, i: nat)
    requires a + |r| <= |s| && r == s[a..a + |r|]
    requires a <= i && i + |pattern| <= a + |r|
    requires CiOccursAt(s, pattern, i)
    ensures CiOccursAt(r, pattern, i - a)
  {
    var n := |pattern|;
    var x := r[i - a..i - a + n];
    var y := s[i..i + n];
    assert forall k :: 0 <= k < n ==> x[k] == y[k];
    assert x == y;
  }

  /** A prefix of a suffix is a slice. */
  lemma SliceOfSuffix(s: string, a: nat, b: nat)
    requires a <= b <= |s|
    ensures s[a..][..b - a] == s[a..b]
  {
  }

  /** The search finds an occurrence with none before it. */
  lemma FindCiAt(s: string, pattern: string, i: nat)
    requires CiOccursAt(s, pattern, i)
    requires forall k :: 0 <= k < i ==> !CiOccursAt(s, pattern, k)
    ensures FindCi(s, pattern) == i
  {
  }

  /** Searching from `a` on stops at `j`: the next occurrence, or the end of the text. */
  lemma FindCiNext(s: string, pattern: string, a: nat, j: nat)
    requires |pattern| > 0 && a <= j <= |s|
    requires j == |s| || CiOccursAt(s, pattern, j)
    requires forall k :: a <= k < j ==> !CiOccursAt(s, pattern, k)
    ensures var f := FindCi(s[a..], pattern); (if f < 0 then |s| - a else f) == j - a
  {
    var t := s[a..];
    var f := FindCi(t, pattern);
    if f >= 0 {
      CiOccursOfPart(s, t, pattern, a, f);
    }
    if j < |s| {
      CiOccursInPart(s, t, pattern, a, j);
    }
  }

  /** An occurrence in a slice `r` of `s` is an occurrence in `s`. */
  lemma CiOccursOfPart(s: string, r: string, pattern: string, a: nat, j: int)
    requires a + |r| <= |s| && r == s[a..a + |r|]
    requires CiOccursAt(r, pattern, j)
    ensures CiOccursAt(s, pattern, a + j)
  {
    CiOccursInSlice(s, pattern, a, a + |r|, j);
  }

  /** A case-insensitive match of a pattern that neither starts nor ends
      with white space neither starts nor ends with white space. */
  lemma EdgesNotSpace(piece: string, pattern: string)
    requires |pattern| > 0 && !IsSpace(pattern[0]) && !IsSpace(pattern[|pattern| - 1])
    requires CiEq(piece, pattern)
    ensures !IsSpace(piece[0]) && !IsSpace(piece[|piece| - 1])
  {
    assert UpperChar(piece[0]) == pattern[0];
    assert UpperChar(piece[|piece| - 1]) == pattern[|pattern| - 1];
  }

  lemma SliceOfTail(s: string, x: nat, y: nat)
    requires 0 < |s| && x <= y <= |s| - 1
    ensures s[1..][x..y] == s[x + 1..y + 1]
  {
    assert forall k :: 0 <= k < y - x ==> s[1..][x..y][k] == s[x + 1..y + 1][k];
  }

  /** Trimming never removes an occurrence of a pattern that neither starts
      nor ends with white space. */
  lemma FindCiTrim(s: string, pattern: string)
    requires |pattern| > 0 && !IsSpace(pattern[0]) && !IsSpace(pattern[|pattern| - 1])
    ensures FindCi(Trim(s), pattern) >= 0 <==> FindCi(s, pattern) >= 0
  {
    FindCiTrimKeeps(s, pattern);
    FindCiTrimFinds(s, pattern);
  }

  lemma FindCiTrimFinds(s: string, pattern: string)
    ensures FindCi(Trim(s), pattern) >= 0 ==> FindCi(s, pattern) >= 0
  {
    var r := Trim(s);
    var j := FindCi(r, pattern);
    if j >= 0 {
      CiOccursOfPart(s, r, pattern, SpaceRun(s), j);
    }
  }

  lemma FindCiTrimKeeps(s: string, pattern: string)
    requires |pattern| > 0 && !IsSpace(pattern[0]) && !IsSpace(pattern[|pattern| - 1])
    ensures FindCi(s, pattern) >= 0 ==> FindCi(Trim(s), pattern) >= 0
  {
    var i := FindCi(s, pattern);
    if i >= 0 {
      assert CiOccursAt(s, pattern, i);
      CiOccursInTrim(s, pattern, i);
    }
  }

  /** The first piece of a split: the text up to the first separator. */
  lemma {:induction false} SplitFirst(s: string, sep: char)
    ensures sep !in Split(s, sep)[0]
    ensures StartsWith(s, Split(s, sep)[0])
    ensures |Split(s, sep)[0]| == |s| || s[|Split(s, sep)[0]|] == sep
    decreases |s|
  {
    if |s| > 0 && s[0] != sep {
      SplitFirst(s[1..], sep);
      assert s == [s[0]] + s[1..];
    }
  }

  /** Length of the longest prefix of `s` whose characters all satisfy `p`
      (what a greedy `p*` consumes). */
  function Run(s: string, p: char -> bool): (n: nat)
    ensures n <= |s|
    ensures forall i :: 0 <= i < n ==> p(s[i])
    ensures n < |s| ==> !p(s[n])
    decreases |s|
  {
    if |s| > 0 && p(s[0]) then 1 + Run(s[1..], p) else 0
  }

  /** Length of the white-space run at the start of `s` (what a greedy `\s*` consumes). */
  function SpaceRun(s: string): (n: nat)
    ensures n <= |s|
    ensures AllSpace(s[..n])
    ensures n < |s| ==> !IsSpace(s[n])
    decreases |s|
  {
    if |s| > 0 && IsSpace(s[0]) then
      var k := SpaceRun(s[1..]);
      var run, rest := s[..k + 1], s[1..][..k];
      assert forall i :: 0 < i < k + 1 ==> run[i] == rest[i - 1];
      k + 1
    else 0
  }

  /** A greedy run stops exactly at the first character outside the class. */
  lemma {:induction false} RunOfPrefix(a: string, b: string, p: char -> bool)
    requires forall i :: 0 <= i < |a| ==> p(a[i])
    requires |b| == 0 || !p(b[0])
    ensures Run(a + b, p) == |a|
    decreases |a|
  {
    if |a| > 0 {
      assert (a + b)[1..] == a[1..] + b;
      RunOfPrefix(a[1..], b, p);
    }
  }

  /** Every character of `s` is white space. */
  predicate AllSpace(s: string) {
    forall i :: 0 <= i < |s| ==> IsSpace(s[i])
  }

  /** A greedy `\s*` over `s` stops at the first character that is not white space. */
  lemma {:induction false} SpaceRunAt(s: string, n: nat)
    requires n <= |s| && AllSpace(s[..n])
    requires n < |s| ==> !IsSpace(s[n])
    ensures SpaceRun(s) == n
    decreases n
  {
    if n > 0 {
      assert IsSpace(s[..n][0]);
      var rest := s[1..][..n - 1];
      assert AllSpace(rest) by {
        forall i | 0 <= i < n - 1 ensures IsSpace(rest[i]) {
          assert rest[i] == s[..n][i + 1];
        }
      }
      SpaceRunAt(s[1..], n - 1);
    }
  }

  /** `trimStart`. */
  function TrimStart(s: string): (r: string)
    ensures |r| <= |s| && r == s[|s| - |r|..]
    ensures |r| > 0 ==> !IsSpace(r[0])
    ensures forall i :: 0 <= i < |s| - |r| ==> IsSpace(s[i])
  {
    s[SpaceRun(s)..]
  }

  /** `trimEnd`. */
  function TrimEnd(s: string): (r: string)
    ensures |r| <= |s| && r == s[..|r|]
    ensures |r| > 0 ==> !IsSpace(r[|r| - 1])
    ensures forall i :: |r| <= i < |s| ==> IsSpace(s[i])
    decreases |s|
  {
    if |s| > 0 && IsSpace(s[|s| - 1]) then TrimEnd(s[..|s| - 1]) else s
  }

  /** `trim`: the part of `s` between its leading and trailing white space. */
  function Trim(s: string): (r: string)
    ensures |r| > 0 ==> !IsSpace(r[0]) && !IsSpace(r[|r| - 1])
    ensures SpaceRun(s) + |r| <= |s| && r == s[SpaceRun(s)..SpaceRun(s) + |r|]
    ensures forall i :: SpaceRun(s) + |r| <= i < |s| ==> IsSpace(s[i])
  {
    var t := TrimStart(s);
    var r := TrimEnd(t);
    assert r == s[|s| - |t|..|s| - |t| + |r|];
    r
  }

  /** A string without surrounding white space is its own trim. */
  lemma TrimUnchanged(s: string)
    requires |s| > 0 ==> !IsSpace(s[0]) && !IsSpace(s[|s| - 1])
    ensures Trim(s) == s
  {
  }

  function CountChar(s: string, c: char): (n: nat)
    ensures n <= |s|
    decreases |s|
  {
    if |s| == 0 then 0 else (if s[0] == c then 1 else 0) + CountChar(s[1..], c)
  }

  lemma {:induction false} CountCharAppend(a: string, b: string, c: char)
    ensures CountChar(a + b, c) == CountChar(a, c) + CountChar(b, c)
    decreases |a|
  {
    if |a| > 0 {
      assert (a + b)[0] == a[0];
      assert (a + b)[1..] == a[1..] + b;
      CountCharAppend(a[1..], b, c);
    } else {
      assert a + b == b;
    }
  }

  lemma {:induction false} CountCharAbsent(s: string, c: char)
    requires c !in s
    ensures CountChar(s, c) == 0
    decreases |s|
  {
    if |s| > 0 {
      CountCharAbsent(s[1..], c);
    }
  }

  /** `s.split(sep)` for a one-character separator: the pieces between
      separators, so an empty string splits into one empty piece. */
  function Split(s: string, sep: char): (parts: seq<string>)
    ensures |parts| > 0
    ensures forall p :: p in parts ==> sep !in p
    decreases |s|
  {
    if |s| == 0 then [""]
    else
      var rest := Split(s[1..], sep);
      if s[0] == sep then [""] + rest
      else [[s[0]] + rest[0]] + rest[1..]
  }

  /** A piece after the first comes from the split of the tail. */
  lemma SplitLater(s: string, sep: char, i: nat)
    requires 0 < i < |Split(s, sep)|
    ensures |s| > 0
    ensures var j := if s[0] == sep then i - 1 else i;
            j < |Split(s[1..], sep)| && Split(s, sep)[i] == Split(s[1..], sep)[j]
  {
  }

  /** `parts.join(sep)`. */
  function Join(parts: seq<string>, sep: char): string
    decreases |parts|
  {
    if |parts| == 0 then ""
    else if |parts| == 1 then parts[0]
    else parts[0] + [sep] + Join(parts[1..], sep)
  }

  /** Joining the pieces of a split restores the original string. */
  lemma {:induction false} JoinSplit(s: string, sep: char)
    ensures Join(Split(s, sep), sep) == s
    decreases |s|
  {
    if |s| > 0 {
      var rest := Split(s[1..], sep);
      JoinSplit(s[1..], sep);
      if s[0] == sep {
        assert Join(Split(s, sep), sep) == "" + [sep] + Join(rest, sep);
      } else {
        var parts := [[s[0]] + rest[0]] + rest[1..];
        if |rest| == 1 {
          assert Join(parts, sep) == [s[0]] + rest[0];
        } else {
          assert parts[1..] == rest[1..];
          assert Join(rest, sep) == rest[0] + [sep] + Join(rest[1..], sep);
          assert Join(parts, sep) == [s[0]] + rest[0] + [sep] + Join(rest[1..], sep);
        }
        assert s == [s[0]] + s[1..];
      }
    }
  }

  /** A piece free of the separator splits into itself, and one followed by
      the separator splits off as the first piece. */
  lemma {:induction false} SplitPiece(p: string, t: string, sep: char)
    requires sep !in p
    ensures Split(p, sep) == [p]
    ensures Split(p + [sep] + t, sep) == [p] + Split(t, sep)
    decreases |p|
  {
    if |p| > 0 {
      SplitPiece(p[1..], t, sep);
      assert (p + [sep] + t)[1..] == p[1..] + [sep] + t;
      assert [p[0]] + p[1..] == p;
    } else {
      assert p + [sep] + t == [sep] + t;
    }
  }

  /** Splitting a join of separator-free pieces gives the pieces back. */
  lemma {:induction false} SplitJoin(parts: seq<string>, sep: char)
    requires |parts| > 0
    requires forall i :: 0 <= i < |parts| ==> sep !in parts[i]
    ensures Split(Join(parts, sep), sep) == parts
    decreases |parts|
  {
    if |parts| == 1 {
      SplitPiece(parts[0], "", sep);
    } else {
      SplitJoin(parts[1..], sep);
      SplitPiece(parts[0], Join(parts[1..], sep), sep);
      assert [parts[0]] + parts[1..] == parts;
    }
  }

  /** Decimal digits of a natural number, as `String(n)` renders it. */
  function NatToString(n: nat): (s: string)
    ensures |s| > 0
    ensures forall i :: 0 <= i < |s| ==> IsDigit(s[i])
    decreases n
  {
    if n < 10 then [('0' as int + n) as char]
    else NatToString(n / 10) + [('0' as int + n % 10) as char]
  }

  /** The value of a string of decimal digits, as `parseInt` reads it. */
  function DecimalValue(d: string): nat
    requires forall i :: 0 <= i < |d| ==> IsDigit(d[i])
    decreases |d|
  {
    if |d| == 0 then 0
    else
      var last := d[|d| - 1];
      assert IsDigit(last);
      DecimalValue(d[..|d| - 1]) * 10 + (last as int - '0' as int)
  }

  /** Reading back the rendering of a number gives the number. */
  lemma {:induction false} DecimalValueOfNatToString(n: nat)
    ensures DecimalValue(NatToString(n)) == n
    decreases n
  {
    if n >= 10 {
      DecimalValueOfNatToString(n / 10);
      var s := NatToString(n);
      assert s[..|s| - 1] == NatToString(n / 10);
    }
  }
}

=== FILE: js_value.dfy ===
/**
  JavaScript values as the modelled code sees them: strings that may be
  `undefined`, numbers that may be `NaN`, and the truthiness rules that the
  `||` defaults and `if (!x)` checks of the source depend on.
 */
module JsValue {

  datatype Option<+T> = None | Some(value: T)

  /** A computation that either yields a value or fails with an error message
      (a thrown exception or a rejected promise in the source). */
  datatype Result<+T> = Ok(value: T) | Err(error: string)

  /** A JavaScript number. Finite values are kept exactly; the double-precision
      rounding of the source is not modelled. */
  datatype Number = NaN | Finite(r: real)

  /** The JavaScript values that travel as query parameters and record fields. */
  datatype Value = Undefined | Str(s: string) | Num(n: Number)

  /** A field read from a CSV row: a string, or `undefined` when the column is absent. */
  type TextValue = v: Value | !v.Num? witness Undefined

  /** `NaN`, `0` and `-0` are the falsy numbers. */
  predicate NumberTruthy(n: Number) {
    n.Finite? && n.r != 0.0
  }

  /** JavaScript truthiness: `undefined`, the empty string and the falsy numbers are falsy. */
  predicate Truthy(v: Value) {
    match v
    case Undefined => false
    case Str(s) => |s| > 0
    case Num(n) => NumberTruthy(n)
  }

  /** `a || b`: the left operand when it is truthy, otherwise the right one. */
  function Or(a: Value, b: Value): (r: Value)
    ensures Truthy(a) ==> r == a
    ensures !Truthy(a) ==> r == b
    ensures Truthy(r) <==> Truthy(a) || Truthy(b)
  {
    if Truthy(a) then a else b
  }

  /** The number parsers of the runtime, applied to a string: `parseInt`,
      `parseFloat`, and the `ToNumber` conversion that arithmetic applies. */
  datatype Parsers = Parsers(integer: string -> Number, decimal: string -> Number, number: string -> Number)

  /** `n <= 0` on a JavaScript number: false for `NaN`. */
  predicate AtMostZero(n: Number) {
    n.Finite? && n.r <= 0.0
  }
}

=== FILE: listing.dfy ===
/**
  The paginated list endpoints for properties and tenants: from the query
  string (`page`, `limit`, `search`) they build a positional SQL statement
  with its parameter array, a count statement, and the pagination summary
  of the response. Both handlers share one shape, described by `Handler`.
 */
module Listing {
  import opened JsValue
  import opened JsString
  import opened Translator

  // ---------------------------------------------------------------------
  // Request and arithmetic
  // ---------------------------------------------------------------------

  /** `req.query`: each field a string, or `undefined` when absent. */
  datatype ListRequest = ListRequest(page: TextValue, limit: TextValue, search: TextValue)

  /** `page = 1`: the default applies only when the field is absent. */
  function Page(q: ListRequest): (v: Value)
    ensures v != Undefined
    ensures q.page == Undefined ==> v == Num(Finite(1.0))
    ensures q.page != Undefined ==> v == q.page
  {
    if q.page == Undefined then Num(Finite(1.0)) else q.page
  }

  /** `limit = 10`. */
  function Limit(q: ListRequest): (v: Value)
    ensures v != Undefined
    ensures q.limit == Undefined ==> v == Num(Finite(10.0))
    ensures q.limit != Undefined ==> v == q.limit
  {
    if q.limit == Undefined then Num(Finite(10.0)) else q.limit
  }

  /** `search = ''`. */
  function Search(q: ListRequest): string {
    if q.search.Str? then q.search.s else ""
  }

  /** The `ToNumber` conversion that `-`, `*` and `/` apply to their operands. */
  function ToNumber(parse: Parsers, v: Value): Number {
    match v
    case Num(n) => n
    case Str(s) => parse.number(s)
    case Undefined => NaN
  }

  /** `parseInt` of a value: its text parsed. The only numbers it is given
      are the defaults `1` and `10`, which it returns unchanged. */
  function ParseInt(parse: Parsers, v: Value): Number {
    match v
    case Num(n) => n
    case Str(s) => if |s| > 0 then parse.integer(s) else NaN
    case Undefined => NaN
  }

  function Minus(a: Number, b: Number): (r: Number)
    ensures r.Finite? <==> a.Finite? && b.Finite?
  {
    if a.Finite? && b.Finite? then Finite(a.r - b.r) else NaN
  }

  function Times(a: Number, b: Number): (r: Number)
    ensures r.Finite? <==> a.Finite? && b.Finite?
  {
    if a.Finite? && b.Finite? then Finite(a.r * b.r) else NaN
  }

  /** `(page - 1) * limit`. */
  function Offset(parse: Parsers, q: ListRequest): (n: Number)
    ensures q.page == Undefined && q.limit == Undefined ==> n == Finite(0.0)
    ensures ToNumber(parse, Page(q)).Finite? && ToNumber(parse, Limit(q)).Finite? ==>
              n == Finite((ToNumber(parse, Page(q)).r - 1.0) * ToNumber(parse, Limit(q)).r)
    ensures ToNumber(parse, Page(q)) == NaN || ToNumber(parse, Limit(q)) == NaN ==> n == NaN
  {
    Times(Minus(ToNumber(parse, Page(q)), Finite(1.0)), ToNumber(parse, Limit(q)))
  }

  /** `Math.ceil`. */
  function Ceil(x: real): (c: int)
    ensures c as real - 1.0 < x <= c as real
  {
    if x == x.Floor as real then x.Floor else x.Floor + 1
  }

  /** `Math.ceil(total / limit)`; `None` stands for `NaN` or an infinity,
      which the JSON response renders as `null`. */
  function Pages(total: Number, limit: Number): (p: Option<int>)
    ensures p.Some? <==> total.Finite? && limit.Finite? && limit.r != 0.0
  {
    if total.Finite? && limit.Finite? && limit.r != 0.0 then Some(Ceil(total.r / limit.r)) else None
  }

  /** With a positive whole limit, the number of pages is the fewest pages
      of `limit` rows that hold all `total` rows. */
  lemma PagesHoldAll(total: nat, limit: nat)
    requires limit > 0
    ensures var p := Pages(Finite(total as real), Finite(limit as real));
            p.Some? && p.value >= 0 &&
            total <= p.value * limit && (p.value - 1) * limit < total
  {
    var p := Ceil(total as real / limit as real);
    assert Pages(Finite(total as real), Finite(limit as real)) == Some(p);
    PagesCoverRows(total, limit, p);
    PagesLeaveNoSpare(total, limit, p);
  }

  /** A whole number of pages at or above `total / limit` holds every row. */
  lemma PagesCoverRows(total: nat, limit: nat, p: int)
    requires limit > 0 && total as real / limit as real <= p as real
    ensures total <= p * limit
  {
    var l := limit as real;
    DivTimes(total as real, l);
    ScaleLe(total as real / l, p as real, l);
    IntTimesReal(p, limit);
  }

  /** When `p - 1` is below `total / limit`, `p - 1` pages leave some row out. */
  lemma PagesLeaveNoSpare(total: nat, limit: nat, p: int)
    requires limit > 0 && p as real - 1.0 < total as real / limit as real
    ensures (p - 1) * limit < total
  {
    var l := limit as real;
    DivTimes(total as real, l);
    ScaleLt(p as real - 1.0, total as real / l, l);
    IntTimesReal(p - 1, limit);
    assert (p - 1) as real == p as real - 1.0;
  }

  lemma DivTimes(a: real, c: real)
    requires c > 0.0
    ensures (a / c) * c == a
  {
  }

  /** Multiplying whole numbers and then converting is converting and then multiplying. */
  lemma IntTimesReal(a: int, b: int)
    ensures (a * b) as real == a as real * b as real
  {
  }

  lemma ScaleLe(a: real, b: real, c: real)
    requires a <= b && c > 0.0
    ensures a * c <= b * c
  {
  }

  lemma ScaleLt(a: real, b: real, c: real)
    requires a < b && c > 0.0
    ensures a * c < b * c
  {
  }

  // ---------------------------------------------------------------------
  // Statements
  // ---------------------------------------------------------------------

  /** A statement text and its positional parameters. */
  datatype Statement = Statement(text: string, params: seq<Value>)

  /** What distinguishes the two list handlers: the list query up to its
      optional WHERE, the two columns it searches, the ordering, and the
      table and columns of the count query. */
  datatype Handler = Handler(
    select: string, searchFirst: string, searchSecond: string, order: string,
    table: string, countFirst: string, countSecond: string)

  predicate Plain(h: Handler) {
    && '$' !in h.select && '$' !in h.searchFirst && '$' !in h.searchSecond && '$' !in h.order
    && '$' !in h.table && '$' !in h.countFirst && '$' !in h.countSecond
    && |h.order| > 0 && h.order[0] == ' '
  }

  // The statement texts are written as concatenations of short pieces.

  /** The property query up to its second column. */
  const PropertySelect := "\n      SELECT p.*, \n" + "        COUNT(u.id) " + "FILTER (WHERE " + "u.status = " + "'occupied') "

  /** The rest of the select list. */
  const PropertyCounts := "as occupied_units,\n" + "        COUNT(u.id) " + "as total_units\n"

  /** The joined tables of the property query. */
  const PropertyTables := "      FROM " + "properties p\n" + "      LEFT JOIN " + "units u ON " + "u.property_id " + "= p.id\n    "

  const PropertyHandler := Handler(
    PropertySelect + PropertyCounts + PropertyTables, "p.name", "p.address",
    " GROUP BY p.id " + "ORDER BY " + "p.created_at DESC",
    "properties", "name", "address")

  const TenantHandler := Handler(
    "SELECT * " + "FROM tenants", "company_name", "contact_name",
    " ORDER BY " + "created_at DESC",
    "tenants", "company_name", "contact_name")

  lemma PropertySelectPlain()
    ensures '$' !in PropertySelect
  {
    var head := "\n      SELECT p.*, \n" + "        COUNT(u.id) ";
    var filter := "FILTER (WHERE " + "u.status = " + "'occupied') ";
    assert '$' !in head;
    assert '$' !in filter;
    assert PropertySelect == head + filter;
  }

  lemma PropertyCountsPlain()
    ensures '$' !in PropertyCounts
  {
  }

  lemma PropertyTablesPlain()
    ensures '$' !in PropertyTables
  {
  }

  lemma PropertyQueryPlain()
    ensures '$' !in PropertySelect + PropertyCounts + PropertyTables
  {
    PropertySelectPlain();
    PropertyCountsPlain();
    PropertyTablesPlain();
  }

  lemma PropertyOrderPlain()
    ensures var order := " GROUP BY p.id " + "ORDER BY " + "p.created_at DESC";
            '$' !in order && |order| > 0 && order[0] == ' '
  {
  }

  lemma PropertyHandlerPlain()
    ensures Plain(PropertyHandler)
  {
    PropertyQueryPlain();
    PropertyOrderPlain();
  }

  lemma TenantHandlerPlain()
    ensures Plain(TenantHandler)
  {
  }

  /** Plain text followed by the placeholder `$n`. */
  function Use(text: string, n: nat): string {
    text + PlaceholderRef(n)
  }

  /** ` WHERE a ILIKE $1 OR b ILIKE $1`. */
  function SearchClause(first: string, second: string): string {
    Use(" WHERE " + first + " ILIKE ", 1) + Use(" OR " + second + " ILIKE ", 1)
  }

  /** `%search%`: the ILIKE pattern for a substring match. */
  function Pattern(search: string): Value {
    Str("%" + search + "%")
  }

  /** The list statement: the pattern first when searching, then limit and
      offset, whose placeholders follow those already used. */
  function ListStatement(h: Handler, parse: Parsers, q: ListRequest): (s: Statement)
    ensures |Search(q)| > 0 ==> s.params == [Pattern(Search(q)), Limit(q), Num(Offset(parse, q))]
    ensures |Search(q)| == 0 ==> s.params == [Limit(q), Num(Offset(parse, q))]
    ensures StartsWith(s.text, h.select)
  {
    var search := Search(q);
    var filter := if |search| > 0 then SearchClause(h.searchFirst, h.searchSecond) else "";
    var params: seq<Value> := if |search| > 0 then [Pattern(search)] else [];
    var paging := h.order + " LIMIT " + PlaceholderRef(|params| + 1) + " OFFSET " + PlaceholderRef(|params| + 2);
    Statement(h.select + filter + paging, params + [Limit(q), Num(Offset(parse, q))])
  }

  /** The count statement, filtered by the same pattern when searching. */
  function CountStatement(h: Handler, q: ListRequest): (s: Statement)
    ensures s.params == (if |Search(q)| > 0 then [Pattern(Search(q))] else [])
    ensures StartsWith(s.text, CountPrefix + h.table)
  {
    var search := Search(q);
    var count := CountPrefix + h.table;
    if |search| > 0 then Statement(count + SearchClause(h.countFirst, h.countSecond), [Pattern(search)])
    else Statement(count, [])
  }

  /** `SELECT COUNT(*) FROM `. */
  const CountPrefix := "SELECT " + "COUNT(*) " + "FROM "

  /** `getProperties`: the list and count statements. */
  function PropertyStatements(parse: Parsers, q: ListRequest): (Statement, Statement) {
    (ListStatement(PropertyHandler, parse, q), CountStatement(PropertyHandler, q))
  }

  /** `getTenants`: the list and count statements. */
  function TenantStatements(parse: Parsers, q: ListRequest): (Statement, Statement) {
    (ListStatement(TenantHandler, parse, q), CountStatement(TenantHandler, q))
  }

  // ---------------------------------------------------------------------
  // Placeholders of the built statements
  // ---------------------------------------------------------------------

  /** `$n` between plain text and text that does not continue the number. */
  lemma PlaceholdersAround(a: string, n: nat, b: string)
    requires '$' !in a
    requires |b| == 0 || !IsDigit(b[0])
    ensures Placeholders(a + PlaceholderRef(n) + b) == [n] + Placeholders(b)
  {
    assert a + PlaceholderRef(n) + b == a + (PlaceholderRef(n) + b);
    PlaceholdersAfterPlainText(a, PlaceholderRef(n) + b);
    PlaceholdersAppend(PlaceholderRef(n), b);
    PlaceholdersOfRef(n);
  }

  /** A use of `$n` contributes `n`, provided the text after it does not
      continue the number. */
  lemma UsePlaceholders(a: string, n: nat, rest: string)
    requires '$' !in a
    requires |rest| == 0 || !IsDigit(rest[0])
    ensures Placeholders(Use(a, n) + rest) == [n] + Placeholders(rest)
  {
    PlaceholdersAround(a, n, rest);
  }

  lemma UseHead(b: string, n: nat, rest: string)
    requires |b| > 0
    ensures |Use(b, n) + rest| > 0 && (Use(b, n) + rest)[0] == b[0]
  {
  }

  /** Two uses of `$n`, the second text not starting with a digit. */
  lemma TwoUsesPlaceholders(a: string, b: string, n: nat, rest: string)
    requires '$' !in a && '$' !in b
    requires |b| > 0 && !IsDigit(b[0])
    requires |rest| == 0 || !IsDigit(rest[0])
    ensures Placeholders(Use(a, n) + Use(b, n) + rest) == [n, n] + Placeholders(rest)
  {
    var u := Use(a, n);
    var tail := Use(b, n) + rest;
    UseHead(b, n, rest);
    UsePlaceholders(b, n, rest);
    UsePlaceholders(a, n, tail);
    TwoUsesJoin(u, Use(b, n), rest, [n] + Placeholders(tail), [n] + Placeholders(rest), n);
  }

  /** The list of two uses read off one after the other. */
  lemma TwoUsesJoin(u: string, v: string, rest: string, x: seq<nat>, y: seq<nat>, n: nat)
    requires Placeholders(u + (v + rest)) == x && x == [n] + Placeholders(v + rest)
    requires Placeholders(v + rest) == y && y == [n] + Placeholders(rest)
    ensures Placeholders(u + v + rest) == [n, n] + Placeholders(rest)
  {
    assert u + v + rest == u + (v + rest);
  }

  lemma SearchClausePlaceholders(first: string, second: string, rest: string)
    requires '$' !in first && '$' !in second
    requires |rest| == 0 || !IsDigit(rest[0])
    ensures Placeholders(SearchClause(first, second) + rest) == [1, 1] + Placeholders(rest)
  {
    var a := " WHERE " + first + " ILIKE ";
    var b := " OR " + second + " ILIKE ";
    SearchClauseParts(first, second);
    TwoUsesPlaceholders(a, b, 1, rest);
  }

  lemma SearchClauseParts(first: string, second: string)
    requires '$' !in first && '$' !in second
    ensures var a := " WHERE " + first + " ILIKE ";
            var b := " OR " + second + " ILIKE ";
            '$' !in a && '$' !in b && |b| > 0 && !IsDigit(b[0]) &&
            SearchClause(first, second) == Use(a, 1) + Use(b, 1)
  {
  }

  lemma PagingPlaceholders(order: string, k: nat)
    requires '$' !in order
    ensures Placeholders(order + " LIMIT " + PlaceholderRef(k + 1) + " OFFSET " + PlaceholderRef(k + 2)) == [k + 1, k + 2]
  {
    var a := order + " LIMIT ";
    assert order + " LIMIT " + PlaceholderRef(k + 1) + " OFFSET " + PlaceholderRef(k + 2)
        == a + PlaceholderRef(k + 1) + (" OFFSET " + PlaceholderRef(k + 2) + "");
    PlaceholdersAround(a, k + 1, " OFFSET " + PlaceholderRef(k + 2) + "");
    PlaceholdersAround(" OFFSET ", k + 2, "");
    PlaceholdersNoDollar("");
  }

  /** The list statement uses `$1` twice for the pattern and then the next
      two numbers for limit and offset; without a search, `$1` and `$2`. */
  lemma ListPlaceholders(h: Handler, parse: Parsers, q: ListRequest)
    requires Plain(h)
    ensures var s := ListStatement(h, parse, q);
            Placeholders(s.text) == if |Search(q)| > 0 then [1, 1, 2, 3] else [1, 2]
  {
    var search := Search(q);
    var k := if |search| > 0 then 1 else 0;
    var paging := h.order + " LIMIT " + PlaceholderRef(k + 1) + " OFFSET " + PlaceholderRef(k + 2);
    PagingPlaceholders(h.order, k);
    if |search| > 0 {
      var filter := SearchClause(h.searchFirst, h.searchSecond);
      assert h.select + filter + paging == h.select + (filter + paging);
      PlaceholdersAfterPlainText(h.select, filter + paging);
      SearchClausePlaceholders(h.searchFirst, h.searchSecond, paging);
    } else {
      assert h.select + "" + paging == h.select + paging;
      PlaceholdersAfterPlainText(h.select, paging);
    }
  }

  /** Every placeholder of the list statement names a parameter, and every
      parameter is named by some placeholder. */
  lemma ListPlaceholdersMatchParams(h: Handler, parse: Parsers, q: ListRequest)
    requires Plain(h)
    ensures var s := ListStatement(h, parse, q);
            forall n :: n in Placeholders(s.text) <==> 1 <= n <= |s.params|
  {
    ListPlaceholders(h, parse, q);
  }

  /** On the embedded backend, the translated list statement carries the
      pattern once per use, then limit and offset: no parameter is lost. */
  lemma ListTranslated(h: Handler, parse: Parsers, q: ListRequest)
    requires Plain(h)
    ensures var s := ListStatement(h, parse, q);
            var p := Pattern(Search(q));
            ConvertQuery(s.text, s.params).params ==
              if |Search(q)| > 0 then [p, p, Limit(q), Num(Offset(parse, q))] else [Limit(q), Num(Offset(parse, q))]
  {
    var s := ListStatement(h, parse, q);
    ListPlaceholders(h, parse, q);
    if |Search(q)| > 0 {
      SearchTranslated(s.text, Pattern(Search(q)), Limit(q), Num(Offset(parse, q)));
    } else {
      PagingTranslated(s.text, Limit(q), Num(Offset(parse, q)));
    }
  }

  /** A text with `$1` twice, then `$2` and `$3`, sends the first value twice. */
  lemma SearchTranslated(text: string, p: Value, l: Value, o: Value)
    requires Placeholders(text) == [1, 1, 2, 3]
    requires p != Undefined && l != Undefined && o != Undefined
    ensures ConvertQuery(text, [p, l, o]).params == [p, p, l, o]
  {
    assert Gather([1, 1, 2, 3], [p, l, o]) == [p, p, l, o];
  }

  /** A text with `$1` and `$2` sends both values in order. */
  lemma PagingTranslated(text: string, l: Value, o: Value)
    requires Placeholders(text) == [1, 2]
    requires l != Undefined && o != Undefined
    ensures ConvertQuery(text, [l, o]).params == [l, o]
  {
    assert Gather([1, 2], [l, o]) == [l, o];
  }

  /** The count statement uses the pattern exactly when searching. */
  lemma CountPlaceholders(h: Handler, q: ListRequest)
    requires Plain(h)
    ensures var c := CountStatement(h, q);
            Placeholders(c.text) == (if |Search(q)| > 0 then [1, 1] else []) &&
            (|c.params| > 0 <==> |Search(q)| > 0) &&
            ConvertQuery(c.text, c.params).params == (if |Search(q)| > 0 then [Pattern(Search(q)), Pattern(Search(q))] else [])
  {
    var count := CountPrefix + h.table;
    assert '$' !in count;
    var c := CountStatement(h, q);
    if |Search(q)| > 0 {
      var clause := SearchClause(h.countFirst, h.countSecond);
      assert c.text == count + (clause + "");
      PlaceholdersAfterPlainText(count, clause + "");
      SearchClausePlaceholders(h.countFirst, h.countSecond, "");
      PlaceholdersNoDollar("");
      CountTranslated(c.text, Pattern(Search(q)));
    } else {
      PlaceholdersNoDollar(count);
    }
  }

  /** A text with `$1` twice sends its one value twice. */
  lemma CountTranslated(text: string, p: Value)
    requires Placeholders(text) == [1, 1] && p != Undefined
    ensures ConvertQuery(text, [p]).params == [p, p]
  {
    assert Gather([1, 1], [p]) == [p, p];
  }

  /** The defaults: page 1 of 10 rows, `LIMIT $1 OFFSET $2` with 10 and 0. */
  lemma DefaultRequest(parse: Parsers)
    ensures var q := ListRequest(Undefined, Undefined, Undefined);
            PropertyStatements(parse, q).0.params == [Num(Finite(10.0)), Num(Finite(0.0))] &&
            TenantStatements(parse, q).0.params == [Num(Finite(10.0)), Num(Finite(0.0))] &&
            PropertyStatements(parse, q).1.params == [] && TenantStatements(parse, q).1.params == []
  {
  }

  // ---------------------------------------------------------------------
  // The response
  // ---------------------------------------------------------------------

  /** The `pagination` object of the response; `pages` is `None` when JSON renders it `null`. */
  datatype Pagination = Pagination(page: Number, limit: Number, total: Number, pages: Option<int>)

  /** `getProperties`: `total` is the parsed count, and `pages` divides it by the limit.
      The count, `rows[0].count`, is text from the PostgreSQL driver and
      `undefined` on SQLite, whose count column has another name. */
  function PropertyPagination(parse: Parsers, q: ListRequest, count: TextValue): (r: Pagination)
    ensures r.total == ParseInt(parse, count)
    ensures r.total == if count.Str? && |count.s| > 0 then parse.integer(count.s) else NaN
    ensures r.pages == Pages(ParseInt(parse, count), ToNumber(parse, Limit(q)))
    ensures q.page == Undefined && q.limit == Undefined ==> r.page == Finite(1.0) && r.limit == Finite(10.0)
    ensures q.page.Str? ==> r.page == if |q.page.s| > 0 then parse.integer(q.page.s) else NaN
    ensures q.limit.Str? ==> r.limit == if |q.limit.s| > 0 then parse.integer(q.limit.s) else NaN
  {
    var total := ParseInt(parse, count);
    Pagination(ParseInt(parse, Page(q)), ParseInt(parse, Limit(q)), total, Pages(total, ToNumber(parse, Limit(q))))
  }

  /** `getTenants`: as for properties, but `pages` divides the raw count, not the parsed one. */
  function TenantPagination(parse: Parsers, q: ListRequest, count: TextValue): (r: Pagination)
    ensures r.total == ParseInt(parse, count)
    ensures r.total == if count.Str? && |count.s| > 0 then parse.integer(count.s) else NaN
    ensures r.pages == Pages(ToNumber(parse, count), ToNumber(parse, Limit(q)))
    ensures q.page == Undefined && q.limit == Undefined ==> r.page == Finite(1.0) && r.limit == Finite(10.0)
    ensures q.page.Str? ==> r.page == if |q.page.s| > 0 then parse.integer(q.page.s) else NaN
    ensures q.limit.Str? ==> r.limit == if |q.limit.s| > 0 then parse.integer(q.limit.s) else NaN
  {
    Pagination(ParseInt(parse, Page(q)), ParseInt(parse, Limit(q)), ParseInt(parse, count),
               Pages(ToNumber(parse, count), ToNumber(parse, Limit(q))))
  }
}

=== FILE: migration.dfy ===
/**
  The import of CSV exports into the property database: each row becomes a
  record (the first truthy of two header spellings per field, enumerations
  mapped onto the system's values, numbers parsed), records that fail
  validation are reported, and once the whole file has been read the valid
  ones are inserted one at a time, a failed insert being counted and
  reported without stopping the others.

  The CSV reader and the number parsers are inputs: a file arrives as the
  sequence of its rows (or the rows read before a parse error), and
  `parseInt`/`parseFloat` as functions from a non-empty string to a number.
 */
module Migration {
  import opened JsValue
  import opened JsString
  import opened Translator
  import opened Database

  // ---------------------------------------------------------------------
  // Rows and fields
  // ---------------------------------------------------------------------

  /** A CSV row read with a header line: column name to cell text. */
  type CsvRow = map<string, string>

  /** `row.column`: the cell, or `undefined` when the header has no such column. */
  function Cell(row: CsvRow, column: string): TextValue {
    if column in row then Str(row[column]) else Undefined
  }

  /** `row.first || row.second`: the first spelling whose cell is non-empty,
      otherwise whatever the second spelling holds. */
  function Pick(row: CsvRow, first: string, second: string): (v: TextValue)
    ensures Truthy(v) <==> Truthy(Cell(row, first)) || Truthy(Cell(row, second))
    ensures Truthy(Cell(row, first)) ==> v == Cell(row, first)
    ensures !Truthy(Cell(row, first)) ==> v == Cell(row, second)
  {
    Or(Cell(row, first), Cell(row, second))
  }

  /** `parseFloat(v || 0)`: an empty or missing cell reads as zero. */
  function DecimalOrZero(parse: Parsers, v: TextValue): (n: Number)
    ensures !Truthy(v) ==> n == Finite(0.0)
    ensures Truthy(v) ==> n == parse.decimal(v.s)
  {
    if Truthy(v) then parse.decimal(v.s) else Finite(0.0)
  }

  /** `parseInt(v)`: an empty or missing cell reads as `NaN`. */
  function IntegerOf(parse: Parsers, v: TextValue): (n: Number)
    ensures !Truthy(v) ==> n == NaN && !NumberTruthy(n)
    ensures Truthy(v) ==> n == parse.integer(v.s)
  {
    if Truthy(v) then parse.integer(v.s) else NaN
  }

  /** A text that is always present: `v || fallback` with a non-empty fallback. */
  function TextOr(v: TextValue, fallback: string): (t: string)
    requires |fallback| > 0
    ensures |t| > 0
    ensures Truthy(v) ==> t == v.s
    ensures !Truthy(v) ==> t == fallback
  {
    if Truthy(v) then v.s else fallback
  }

  // ---------------------------------------------------------------------
  // Enumeration mappers
  // ---------------------------------------------------------------------

  const PropertyTypeMap: map<string, string> := map[
    "Office" := "office", "Retail" := "retail", "Industrial" := "industrial",
    "Warehouse" := "warehouse", "Mixed Use" := "mixed-use", "Mixed-Use" := "mixed-use"]

  const LeaseStatusMap: map<string, string> := map[
    "Active" := "active", "Expired" := "expired", "Terminated" := "terminated", "Renewed" := "renewed"]

  const TransactionTypeMap: map<string, string> := map[
    "Rent" := "rent", "Rental" := "rent", "Utilities" := "utilities",
    "Maintenance" := "maintenance", "Other" := "other"]

  const ValidPropertyTypes: seq<string> := ["office", "retail", "industrial", "warehouse", "mixed-use"]

  const ValidLeaseStatuses: seq<string> := ["active", "expired", "terminated", "renewed"]

  const ValidTransactionTypes: seq<string> := ["rent", "utilities", "maintenance", "other"]

  /** The property name a value has when used as an object key: `undefined` becomes `"undefined"`. */
  function KeyOf(v: TextValue): string {
    if v.Str? then v.s else "undefined"
  }

  /** `table[key] || fallback` over the table's own entries only. */
  function MapOr(table: map<string, string>, key: string, fallback: string): (r: string)
    ensures key in table ==> r == table[key]
    ensures key !in table ==> r == fallback
  {
    if key in table then table[key] else fallback
  }

  /** `mapPropertyType`: the system's property type; anything unknown is an office. */
  function MapPropertyType(v: TextValue): (t: string)
    ensures t in ValidPropertyTypes
    ensures KeyOf(v) in PropertyTypeMap ==> t == PropertyTypeMap[KeyOf(v)]
    ensures KeyOf(v) !in PropertyTypeMap ==> t == "office"
  {
    MapOr(PropertyTypeMap, KeyOf(v), "office")
  }

  /** `mapLeaseStatus`: the system's lease status; anything unknown is active. */
  function MapLeaseStatus(key: string): (t: string)
    ensures t in ValidLeaseStatuses
    ensures key in LeaseStatusMap ==> t == LeaseStatusMap[key]
    ensures key !in LeaseStatusMap ==> t == "active"
  {
    MapOr(LeaseStatusMap, key, "active")
  }

  /** `mapTransactionType`: the system's invoice type; anything unknown is other. */
  function MapTransactionType(key: string): (t: string)
    ensures t in ValidTransactionTypes
    ensures key in TransactionTypeMap ==> t == TransactionTypeMap[key]
    ensures key !in TransactionTypeMap ==> t == "other"
  {
    MapOr(TransactionTypeMap, key, "other")
  }

  /** The lookups are exact and case-sensitive. */
  lemma MappersAreCaseSensitive()
    ensures MapPropertyType(Str("retail")) == "office" && MapPropertyType(Str("Retail")) == "retail"
    ensures MapPropertyType(Undefined) == "office"
    ensures MapLeaseStatus("expired") == "active" && MapLeaseStatus("Expired") == "expired"
    ensures MapTransactionType("rent") == "other" && MapTransactionType("Rental") == "rent"
  {
    assert "retail" !in PropertyTypeMap && "undefined" !in PropertyTypeMap;
    assert "expired" !in LeaseStatusMap;
    assert "rent" !in TransactionTypeMap;
  }

  // ---------------------------------------------------------------------
  // The mappers as written: object literals inherit from Object.prototype
  // ---------------------------------------------------------------------

  /** The members every object literal inherits from `Object.prototype`. All
      are functions or objects, so `table[key] || fallback` keeps them. */
  const PrototypeMembers: set<string> := {
    "constructor", "hasOwnProperty", "isPrototypeOf", "propertyIsEnumerable",
    "toString", "toLocaleString", "valueOf", "__proto__",
    "__defineGetter__", "__defineSetter__", "__lookupGetter__", "__lookupSetter__"}

  /** What `table[key] || fallback` yields on an object literal: a string, or an inherited member. */
  datatype Looked = Text(s: string) | Inherited(member: string)

  function LookupAsWritten(table: map<string, string>, key: string, fallback: string): (r: Looked)
    ensures key in table ==> r == Text(table[key])
    ensures key !in table && key in PrototypeMembers ==> r == Inherited(key)
    ensures key !in table && key !in PrototypeMembers ==> r == Text(fallback)
  {
    if key in table then Text(table[key])
    else if key in PrototypeMembers then Inherited(key)
    else Text(fallback)
  }

  function MapPropertyTypeAsWritten(v: TextValue): Looked {
    LookupAsWritten(PropertyTypeMap, KeyOf(v), "office")
  }

  function MapLeaseStatusAsWritten(key: string): Looked {
    LookupAsWritten(LeaseStatusMap, key, "active")
  }

  function MapTransactionTypeAsWritten(key: string): Looked {
    LookupAsWritten(TransactionTypeMap, key, "other")
  }

  /** As written, a cell naming an inherited member escapes the fallback: the
      property type is then a function, not one of the valid types, so the row
      is rejected; the lease status likewise; and the invoice type sent to
      the database is a function. The corrected mappers return the fallback. */
  lemma MappersAsWrittenEscape()
    ensures MapPropertyTypeAsWritten(Str("constructor")) == Inherited("constructor")
    ensures MapLeaseStatusAsWritten("toString") == Inherited("toString")
    ensures MapTransactionTypeAsWritten("valueOf") == Inherited("valueOf")
    ensures MapPropertyType(Str("constructor")) == "office"
    ensures MapLeaseStatus("toString") == "active"
    ensures MapTransactionType("valueOf") == "other"
  {
  }

  /** The corrected mappers agree with the written ones on every key that is
      not an inherited member, and differ on every inherited member. */
  lemma MappersAgreeOffPrototype(key: string)
    ensures key !in PrototypeMembers ==>
              MapPropertyTypeAsWritten(Str(key)) == Text(MapPropertyType(Str(key))) &&
              MapLeaseStatusAsWritten(key) == Text(MapLeaseStatus(key)) &&
              MapTransactionTypeAsWritten(key) == Text(MapTransactionType(key))
    ensures key in PrototypeMembers ==>
              MapPropertyTypeAsWritten(Str(key)).Inherited? &&
              MapLeaseStatusAsWritten(key).Inherited? &&
              MapTransactionTypeAsWritten(key).Inherited?
  {
    TablesHaveNoPrototypeKey();
    LookupAsWrittenOffPrototype(PropertyTypeMap, KeyOf(Str(key)), "office");
    LookupAsWrittenOffPrototype(LeaseStatusMap, key, "active");
    LookupAsWrittenOffPrototype(TransactionTypeMap, key, "other");
  }

  /** The tables' keys are capitalised; no inherited member's name is. */
  predicate Capitalised(k: string) {
    |k| > 0 && 'A' <= k[0] <= 'Z'
  }

  lemma PrototypeNotCapitalised(k: string)
    requires k in PrototypeMembers
    ensures !Capitalised(k)
  {
  }

  /** None of the tables has an own key that shadows an inherited member. */
  lemma NoPrototypeKey(table: map<string, string>)
    requires forall k :: k in table ==> Capitalised(k)
    ensures PrototypeMembers !! table.Keys
  {
    forall k | k in PrototypeMembers
      ensures k !in table
    {
      PrototypeNotCapitalised(k);
    }
  }

  lemma TablesHaveNoPrototypeKey()
    ensures PrototypeMembers !! PropertyTypeMap.Keys
    ensures PrototypeMembers !! LeaseStatusMap.Keys
    ensures PrototypeMembers !! TransactionTypeMap.Keys
  {
    NoPrototypeKey(PropertyTypeMap);
    NoPrototypeKey(LeaseStatusMap);
    NoPrototypeKey(TransactionTypeMap);
  }

  /** On a table without prototype keys, the lookup as written is the
      corrected one except on the inherited members. */
  lemma LookupAsWrittenOffPrototype(table: map<string, string>, key: string, fallback: string)
    requires PrototypeMembers !! table.Keys
    ensures key !in PrototypeMembers ==> LookupAsWritten(table, key, fallback) == Text(MapOr(table, key, fallback))
    ensures key in PrototypeMembers ==> LookupAsWritten(table, key, fallback) == Inherited(key)
  {
    if key in PrototypeMembers {
      assert key !in table.Keys;
    }
  }

  // ---------------------------------------------------------------------
  // Validation
  // ---------------------------------------------------------------------

  /** A failed check of a validator; `Message` gives the text the source reports. */
  datatype Problem =
    | NameRequired | AddressRequired | CityRequired | ProvinceRequired
    | AreaNotPositive | BadPropertyType(kind: string)
    | CompanyNameRequired | ContactNameRequired | BadEmail
    | TenantIdRequired | UnitIdRequired | StartDateRequired | EndDateRequired
    | RentNotPositive | BadLeaseStatus(status: string)
    | BadLeaseIdOrAmount

  const PropertyTypePrefix := "Invalid property type: "
  const LeaseStatusPrefix := "Invalid lease status: "

  function Message(problem: Problem): string {
    match problem
    case NameRequired => "Name is required"
    case AddressRequired => "Address is required"
    case CityRequired => "City is required"
    case ProvinceRequired => "Province is required"
    case AreaNotPositive => "Total area must be positive"
    case BadPropertyType(kind) => PropertyTypePrefix + kind
    case CompanyNameRequired => "Company name is required"
    case ContactNameRequired => "Contact name is required"
    case BadEmail => "Invalid email format"
    case TenantIdRequired => "Tenant ID is required"
    case UnitIdRequired => "Unit ID is required"
    case StartDateRequired => "Start date is required"
    case EndDateRequired => "End date is required"
    case RentNotPositive => "Monthly rent must be positive"
    case BadLeaseStatus(status) => LeaseStatusPrefix + status
    case BadLeaseIdOrAmount => "Invalid lease ID or amount"
  }

  /** Where each check stands in its validator: the checks of
      `validatePropertyData`, `validateTenantData` and `validateLeaseData`
      numbered in the order the code runs them, then the invoice check. */
  function Rank(problem: Problem): nat {
    match problem
    case NameRequired => 0
    case AddressRequired => 1
    case CityRequired => 2
    case ProvinceRequired => 3
    case AreaNotPositive => 4
    case BadPropertyType(_) => 5
    case CompanyNameRequired => 6
    case ContactNameRequired => 7
    case BadEmail => 8
    case TenantIdRequired => 9
    case UnitIdRequired => 10
    case StartDateRequired => 11
    case EndDateRequired => 12
    case RentNotPositive => 13
    case BadLeaseStatus(_) => 14
    case BadLeaseIdOrAmount => 15
  }

  /** Each problem comes from a later check than the one before it. */
  predicate InCheckOrder(problems: seq<Problem>) {
    OrderedFrom(problems, 0)
  }

  /** From index `k` on, each problem comes from a later check than the one before it. */
  predicate OrderedFrom(problems: seq<Problem>, k: nat)
    decreases |problems| - k
  {
    k + 1 >= |problems| || (Rank(problems[k]) < Rank(problems[k + 1]) && OrderedFrom(problems, k + 1))
  }

  /** Check order is the same as: every problem comes from a later check than
      every problem before it, so no check is named twice. */
  lemma InCheckOrderPairs(problems: seq<Problem>)
    ensures InCheckOrder(problems) <==>
              forall i, j :: 0 <= i < j < |problems| ==> Rank(problems[i]) < Rank(problems[j])
  {
    OrderedFromPairs(problems, 0);
  }

  lemma {:induction false} OrderedFromPairs(problems: seq<Problem>, k: nat)
    ensures OrderedFrom(problems, k) <==>
              forall i, j :: k <= i < j < |problems| ==> Rank(problems[i]) < Rank(problems[j])
    decreases |problems| - k
  {
    if k + 1 < |problems| {
      OrderedFromPairs(problems, k + 1);
    }
  }

  /** The rank of the last problem, or -1 for none. */
  function LastRank(problems: seq<Problem>): int {
    if |problems| == 0 then -1 else Rank(problems[|problems| - 1])
  }

  /** A list in check order stays so when a later check is flagged after it. */
  lemma FlagAfter(a: seq<Problem>, fails: bool, problem: Problem)
    requires InCheckOrder(a) && LastRank(a) < Rank(problem)
    ensures InCheckOrder(a + Flag(fails, problem))
    ensures LastRank(a + Flag(fails, problem)) == if fails then Rank(problem) else LastRank(a)
  {
    if fails {
      OrderedSnoc(a, problem, 0);
    } else {
      assert a + Flag(fails, problem) == a;
    }
  }

  lemma {:induction false} OrderedSnoc(a: seq<Problem>, problem: Problem, k: nat)
    requires k <= |a| && OrderedFrom(a, k) && LastRank(a) < Rank(problem)
    ensures OrderedFrom(a + [problem], k)
    decreases |a| - k
  {
    if k + 1 < |a| {
      OrderedSnoc(a, problem, k + 1);
    }
  }

  /** Two later checks flagged after a list in check order keep it so. */
  lemma FlagsInOrder2(a: seq<Problem>, f1: bool, f2: bool, p1: Problem, p2: Problem)
    requires InCheckOrder(a) && LastRank(a) < Rank(p1) < Rank(p2)
    ensures InCheckOrder(a + Flag(f1, p1) + Flag(f2, p2))
  {
    FlagAfter(a, f1, p1);
    FlagAfter(a + Flag(f1, p1), f2, p2);
  }

  /** Four checks flagged in rising rank are in check order, the last at most
      the rank of the fourth. */
  lemma FlagsInOrder4(f1: bool, f2: bool, f3: bool, f4: bool, p1: Problem, p2: Problem, p3: Problem, p4: Problem)
    requires Rank(p1) < Rank(p2) < Rank(p3) < Rank(p4)
    ensures InCheckOrder(Flag(f1, p1) + Flag(f2, p2) + Flag(f3, p3) + Flag(f4, p4))
    ensures LastRank(Flag(f1, p1) + Flag(f2, p2) + Flag(f3, p3) + Flag(f4, p4)) <= Rank(p4)
  {
    var a := Flag(f1, p1);
    FlagAfter(a, f2, p2);
    FlagAfter(a + Flag(f2, p2), f3, p3);
    FlagAfter(a + Flag(f2, p2) + Flag(f3, p3), f4, p4);
  }

  /** The problem a message reports, read back from its text. */
  function ProblemOf(m: string): Option<Problem> {
    if StartsWith(m, PropertyTypePrefix) then Some(BadPropertyType(m[|PropertyTypePrefix|..]))
    else if StartsWith(m, LeaseStatusPrefix) then Some(BadLeaseStatus(m[|LeaseStatusPrefix|..]))
    else if m == "Invalid email format" then Some(BadEmail)
    else if m == "Invalid lease ID or amount" then Some(BadLeaseIdOrAmount)
    else if m == "Name is required" then Some(NameRequired)
    else if m == "Address is required" then Some(AddressRequired)
    else if m == "City is required" then Some(CityRequired)
    else if m == "Province is required" then Some(ProvinceRequired)
    else if m == "Total area must be positive" then Some(AreaNotPositive)
    else if m == "Company name is required" then Some(CompanyNameRequired)
    else if m == "Contact name is required" then Some(ContactNameRequired)
    else if m == "Tenant ID is required" then Some(TenantIdRequired)
    else if m == "Unit ID is required" then Some(UnitIdRequired)
    else if m == "Start date is required" then Some(StartDateRequired)
    else if m == "End date is required" then Some(EndDateRequired)
    else if m == "Monthly rent must be positive" then Some(RentNotPositive)
    else None
  }

  /** Every message reads back as the problem it reports, so different
      problems never give the same text. */
  lemma MessageReadsBack(p: Problem)
    ensures ProblemOf(Message(p)) == Some(p)
  {
    var m := Message(p);
    match p
    case BadPropertyType(k) =>
      assert m[..|PropertyTypePrefix|] == PropertyTypePrefix;
    case BadLeaseStatus(k) =>
      assert m[..|LeaseStatusPrefix|] == LeaseStatusPrefix;
      assert m[8] != PropertyTypePrefix[8];
    case NameRequired | AddressRequired | CityRequired | ProvinceRequired | AreaNotPositive =>
      PropertyMessagesReadBack(p);
    case CompanyNameRequired | ContactNameRequired | BadEmail =>
      TenantMessagesReadBack(p);
    case TenantIdRequired | UnitIdRequired =>
      LeaseIdMessagesReadBack(p);
    case StartDateRequired | EndDateRequired =>
      LeaseDateMessagesReadBack(p);
    case RentNotPositive | BadLeaseIdOrAmount =>
      AmountMessagesReadBack(p);
  }

  /** The fixed messages of `validatePropertyData` read back. */
  lemma PropertyMessagesReadBack(p: Problem)
    requires p.NameRequired? || p.AddressRequired? || p.CityRequired? || p.ProvinceRequired? || p.AreaNotPositive?
    ensures ProblemOf(Message(p)) == Some(p)
  {
    var m := Message(p);
    match p
    case NameRequired =>
      NotPrefixed(m);
    case AddressRequired =>
      NotPrefixed(m);
    case CityRequired =>
      NotPrefixed(m);
    case ProvinceRequired =>
      NotPrefixed(m);
    case AreaNotPositive =>
      NotPrefixed(m);
  }

  /** The fixed messages of `validateTenantData` read back. */
  lemma TenantMessagesReadBack(p: Problem)
    requires p.CompanyNameRequired? || p.ContactNameRequired? || p.BadEmail?
    ensures ProblemOf(Message(p)) == Some(p)
  {
    var m := Message(p);
    match p
    case CompanyNameRequired =>
      NotPrefixed(m);
    case ContactNameRequired =>
      NotPrefixed(m);
    case BadEmail =>
      assert |m| < |PropertyTypePrefix| && |m| < |LeaseStatusPrefix|;
  }

  /** The fixed messages of the id checks of `validateLeaseData` read back. */
  lemma LeaseIdMessagesReadBack(p: Problem)
    requires p.TenantIdRequired? || p.UnitIdRequired?
    ensures ProblemOf(Message(p)) == Some(p)
  {
    var m := Message(p);
    match p
    case TenantIdRequired =>
      NotPrefixed(m);
    case UnitIdRequired =>
      NotPrefixed(m);
  }

  /** The fixed messages of the date checks of `validateLeaseData` read back. */
  lemma LeaseDateMessagesReadBack(p: Problem)
    requires p.StartDateRequired? || p.EndDateRequired?
    ensures ProblemOf(Message(p)) == Some(p)
  {
    var m := Message(p);
    match p
    case StartDateRequired =>
      NotPrefixed(m);
    case EndDateRequired =>
      NotPrefixed(m);
  }

  /** The fixed messages of the rent check and the invoice check read back. */
  lemma AmountMessagesReadBack(p: Problem)
    requires p.RentNotPositive? || p.BadLeaseIdOrAmount?
    ensures ProblemOf(Message(p)) == Some(p)
  {
    var m := Message(p);
    match p
    case RentNotPositive =>
      NotPrefixed(m);
    case BadLeaseIdOrAmount =>
      assert m[8] != PropertyTypePrefix[8] && m[14] != LeaseStatusPrefix[14];
  }

  /** Only a text starting with `I` can carry one of the two prefixes. */
  lemma NotPrefixed(m: string)
    requires |m| > 0 && m[0] != 'I'
    ensures !StartsWith(m, PropertyTypePrefix) && !StartsWith(m, LeaseStatusPrefix)
  {
  }

  /** Different problems never give the same message. */
  lemma MessageInjective(p: Problem, q: Problem)
    ensures Message(p) == Message(q) <==> p == q
  {
    MessageReadsBack(p);
    MessageReadsBack(q);
  }

  /** The texts of a list of problems, in order: the `errors` array of a rejected row. */
  function Messages(problems: seq<Problem>): (r: seq<string>)
    ensures |r| == |problems|
    ensures forall i :: 0 <= i < |problems| ==> r[i] == Message(problems[i])
  {
    seq(|problems|, i requires 0 <= i < |problems| => Message(problems[i]))
  }

  /** `[problem]` when a check fails, nothing otherwise. */
  function Flag(fails: bool, problem: Problem): (r: seq<Problem>)
    ensures fails ==> r == [problem]
    ensures !fails ==> r == []
  {
    if fails then [problem] else []
  }

  datatype PropertyRecord = PropertyRecord(
    name: TextValue, kind: string, address: TextValue, city: TextValue, province: TextValue,
    postalCode: TextValue, description: TextValue, totalArea: Number)

  datatype TenantRecord = TenantRecord(
    companyName: TextValue, contactName: TextValue, email: TextValue, phone: TextValue,
    address: TextValue, city: TextValue, province: TextValue, postalCode: TextValue,
    vatNumber: TextValue, registrationNumber: TextValue)

  datatype LeaseRecord = LeaseRecord(
    tenantId: Number, unitId: Number, startDate: TextValue, endDate: TextValue,
    monthlyRent: Number, deposit: Number, escalationRate: Number, status: string, terms: TextValue)

  datatype InvoiceRecord = InvoiceRecord(
    leaseId: Number, amount: Number, dueDate: TextValue, description: TextValue, kind: string, status: string)

  /** What a valid property is: named and located, of a known type, and with
      no area or a positive one. */
  predicate PropertyValid(p: PropertyRecord) {
    && Truthy(p.name) && Truthy(p.address) && Truthy(p.city) && Truthy(p.province)
    && (p.totalArea == NaN || p.totalArea == Finite(0.0) || p.totalArea.r > 0.0)
    && p.kind in ValidPropertyTypes
  }

  /** The first four checks of `validatePropertyData`: the required text fields. */
  function PropertyFieldsMissing(p: PropertyRecord): (r: seq<Problem>)
    ensures r == [] <==> Truthy(p.name) && Truthy(p.address) && Truthy(p.city) && Truthy(p.province)
    ensures NameRequired in r <==> !Truthy(p.name)
    ensures AddressRequired in r <==> !Truthy(p.address)
    ensures CityRequired in r <==> !Truthy(p.city)
    ensures ProvinceRequired in r <==> !Truthy(p.province)
    ensures AreaNotPositive !in r && forall q :: q in r ==> !q.BadPropertyType?
    ensures |r| <= 4
    ensures !Truthy(p.name) ==> |r| > 0 && r[0] == NameRequired
  {
    Flag(!Truthy(p.name), NameRequired)
    + Flag(!Truthy(p.address), AddressRequired)
    + Flag(!Truthy(p.city), CityRequired)
    + Flag(!Truthy(p.province), ProvinceRequired)
  }

  /** `validatePropertyData`: one problem per failed check, in the order of
      the checks. A missing, zero or unparsable area is accepted. */
  function ValidatePropertyData(p: PropertyRecord): (r: seq<Problem>)
    ensures r == [] <==> PropertyValid(p)
    ensures NameRequired in r <==> !Truthy(p.name)
    ensures AddressRequired in r <==> !Truthy(p.address)
    ensures CityRequired in r <==> !Truthy(p.city)
    ensures ProvinceRequired in r <==> !Truthy(p.province)
    ensures AreaNotPositive in r <==> p.totalArea.Finite? && p.totalArea.r < 0.0
    ensures BadPropertyType(p.kind) in r <==> p.kind !in ValidPropertyTypes
    ensures forall q :: q in r ==> q.BadPropertyType? ==> q.kind == p.kind
    ensures |r| <= 6
    ensures !Truthy(p.name) ==> |r| > 0 && r[0] == NameRequired
    ensures p.kind !in ValidPropertyTypes ==> |r| > 0 && r[|r| - 1] == BadPropertyType(p.kind)
  {
    PropertyFieldsMissing(p)
    + Flag(NumberTruthy(p.totalArea) && AtMostZero(p.totalArea), AreaNotPositive)
    + Flag(p.kind !in ValidPropertyTypes, BadPropertyType(p.kind))
  }

  /** What a valid tenant is: both names present, and an email, if any, with an `@`. */
  predicate TenantValid(t: TenantRecord) {
    Truthy(t.companyName) && Truthy(t.contactName) && (t.email.Str? ==> |t.email.s| == 0 || '@' in t.email.s)
  }

  /** `validateTenantData`. The email check is only that an `@` occurs. */
  function ValidateTenantData(t: TenantRecord): (r: seq<Problem>)
    ensures r == [] <==> TenantValid(t)
    ensures CompanyNameRequired in r <==> !Truthy(t.companyName)
    ensures ContactNameRequired in r <==> !Truthy(t.contactName)
    ensures BadEmail in r <==> t.email.Str? && |t.email.s| > 0 && '@' !in t.email.s
    ensures |r| <= 3
  {
    ContainsChar(KeyOf(t.email), '@');
    Flag(!Truthy(t.companyName), CompanyNameRequired)
    + Flag(!Truthy(t.contactName), ContactNameRequired)
    + Flag(Truthy(t.email) && !Contains(t.email.s, "@"), BadEmail)
  }

  /** What a valid lease is: non-zero ids, both dates, a positive rent and a known status. */
  predicate LeaseValid(l: LeaseRecord) {
    && l.tenantId.Finite? && l.tenantId.r != 0.0 && l.unitId.Finite? && l.unitId.r != 0.0
    && Truthy(l.startDate) && Truthy(l.endDate)
    && l.monthlyRent.Finite? && l.monthlyRent.r > 0.0
    && l.status in ValidLeaseStatuses
  }

  /** The first four checks of `validateLeaseData`: the ids and the dates. */
  function LeaseFieldsMissing(l: LeaseRecord): (r: seq<Problem>)
    ensures r == [] <==> NumberTruthy(l.tenantId) && NumberTruthy(l.unitId) && Truthy(l.startDate) && Truthy(l.endDate)
    ensures TenantIdRequired in r <==> !NumberTruthy(l.tenantId)
    ensures UnitIdRequired in r <==> !NumberTruthy(l.unitId)
    ensures StartDateRequired in r <==> !Truthy(l.startDate)
    ensures EndDateRequired in r <==> !Truthy(l.endDate)
    ensures RentNotPositive !in r && forall q :: q in r ==> !q.BadLeaseStatus?
    ensures |r| <= 4
    ensures !NumberTruthy(l.tenantId) ==> |r| > 0 && r[0] == TenantIdRequired
  {
    Flag(!NumberTruthy(l.tenantId), TenantIdRequired)
    + Flag(!NumberTruthy(l.unitId), UnitIdRequired)
    + Flag(!Truthy(l.startDate), StartDateRequired)
    + Flag(!Truthy(l.endDate), EndDateRequired)
  }

  /** `validateLeaseData`. Unlike the property area, a missing, zero or
      unparsable rent is rejected. */
  function ValidateLeaseData(l: LeaseRecord): (r: seq<Problem>)
    ensures r == [] <==> LeaseValid(l)
    ensures TenantIdRequired in r <==> !(l.tenantId.Finite? && l.tenantId.r != 0.0)
    ensures UnitIdRequired in r <==> !(l.unitId.Finite? && l.unitId.r != 0.0)
    ensures StartDateRequired in r <==> !Truthy(l.startDate)
    ensures EndDateRequired in r <==> !Truthy(l.endDate)
    ensures RentNotPositive in r <==> !(l.monthlyRent.Finite? && l.monthlyRent.r > 0.0)
    ensures BadLeaseStatus(l.status) in r <==> l.status !in ValidLeaseStatuses
    ensures forall q :: q in r ==> q.BadLeaseStatus? ==> q.status == l.status
    ensures |r| <= 6
    ensures !NumberTruthy(l.tenantId) ==> |r| > 0 && r[0] == TenantIdRequired
    ensures l.status !in ValidLeaseStatuses ==> |r| > 0 && r[|r| - 1] == BadLeaseStatus(l.status)
  {
    LeaseFieldsMissing(l)
    + Flag(!NumberTruthy(l.monthlyRent) || AtMostZero(l.monthlyRent), RentNotPositive)
    + Flag(l.status !in ValidLeaseStatuses, BadLeaseStatus(l.status))
  }

  lemma PropertyFieldsInOrder(p: PropertyRecord)
    ensures InCheckOrder(PropertyFieldsMissing(p)) && LastRank(PropertyFieldsMissing(p)) < Rank(AreaNotPositive)
  {
    FlagsInOrder4(!Truthy(p.name), !Truthy(p.address), !Truthy(p.city), !Truthy(p.province),
                  NameRequired, AddressRequired, CityRequired, ProvinceRequired);
  }

  lemma LeaseFieldsInOrder(l: LeaseRecord)
    ensures InCheckOrder(LeaseFieldsMissing(l)) && LastRank(LeaseFieldsMissing(l)) < Rank(RentNotPositive)
  {
    FlagsInOrder4(!NumberTruthy(l.tenantId), !NumberTruthy(l.unitId), !Truthy(l.startDate), !Truthy(l.endDate),
                  TenantIdRequired, UnitIdRequired, StartDateRequired, EndDateRequired);
  }

  /** The problems of `validatePropertyData` come in the order of its checks,
      so none is reported twice. */
  lemma PropertyProblemsInOrder(p: PropertyRecord)
    ensures var r := ValidatePropertyData(p);
            forall i, j :: 0 <= i < j < |r| ==> Rank(r[i]) < Rank(r[j])
  {
    PropertyFieldsInOrder(p);
    FlagsInOrder2(PropertyFieldsMissing(p), NumberTruthy(p.totalArea) && AtMostZero(p.totalArea),
                  p.kind !in ValidPropertyTypes, AreaNotPositive, BadPropertyType(p.kind));
    InCheckOrderPairs(ValidatePropertyData(p));
  }

  /** The problems of `validateTenantData` come in the order of its checks. */
  lemma TenantProblemsInOrder(t: TenantRecord)
    ensures var r := ValidateTenantData(t);
            forall i, j :: 0 <= i < j < |r| ==> Rank(r[i]) < Rank(r[j])
  {
    FlagsInOrder2(Flag(!Truthy(t.companyName), CompanyNameRequired), !Truthy(t.contactName),
                  Truthy(t.email) && !Contains(t.email.s, "@"), ContactNameRequired, BadEmail);
    InCheckOrderPairs(ValidateTenantData(t));
  }

  /** The problems of `validateLeaseData` come in the order of its checks. */
  lemma LeaseProblemsInOrder(l: LeaseRecord)
    ensures var r := ValidateLeaseData(l);
            forall i, j :: 0 <= i < j < |r| ==> Rank(r[i]) < Rank(r[j])
  {
    LeaseFieldsInOrder(l);
    FlagsInOrder2(LeaseFieldsMissing(l), !NumberTruthy(l.monthlyRent) || AtMostZero(l.monthlyRent),
                  l.status !in ValidLeaseStatuses, RentNotPositive, BadLeaseStatus(l.status));
    InCheckOrderPairs(ValidateLeaseData(l));
  }

  /** The inline invoice check: a falsy lease id or an amount of at most zero.
      A `NaN` amount passes, since `NaN <= 0` is false. */
  function InvoiceProblems(i: InvoiceRecord): (r: seq<Problem>)
    ensures r == [] <==> i.leaseId.Finite? && i.leaseId.r != 0.0 && (i.amount == NaN || i.amount.r > 0.0)
    ensures r != [] ==> r == [BadLeaseIdOrAmount]
  {
    Flag(!NumberTruthy(i.leaseId) || AtMostZero(i.amount), BadLeaseIdOrAmount)
  }

  // ---------------------------------------------------------------------
  // Row to record
  // ---------------------------------------------------------------------

  function PropertyFromRow(parse: Parsers, row: CsvRow): PropertyRecord {
    PropertyRecord(
      Pick(row, "PropertyName", "name"),
      MapPropertyType(Pick(row, "PropertyType", "type")),
      Pick(row, "Address1", "address"),
      Pick(row, "City", "city"),
      Pick(row, "Province", "province"),
      Pick(row, "PostalCode", "postal_code"),
      Pick(row, "Description", "description"),
      DecimalOrZero(parse, Pick(row, "TotalSQM", "total_area")))
  }

  function TenantFromRow(row: CsvRow): TenantRecord {
    TenantRecord(
      Pick(row, "CompanyName", "company_name"),
      Pick(row, "ContactPerson", "contact_name"),
      Pick(row, "Email", "email"),
      Pick(row, "Phone", "phone"),
      Pick(row, "Address", "address"),
      Pick(row, "City", "city"),
      Pick(row, "Province", "province"),
      Pick(row, "PostalCode", "postal_code"),
      Pick(row, "VATNumber", "vat_number"),
      Pick(row, "RegNumber", "registration_number"))
  }

  function LeaseFromRow(parse: Parsers, row: CsvRow): LeaseRecord {
    LeaseRecord(
      IntegerOf(parse, Pick(row, "TenantID", "tenant_id")),
      IntegerOf(parse, Pick(row, "UnitID", "unit_id")),
      Pick(row, "StartDate", "start_date"),
      Pick(row, "EndDate", "end_date"),
      DecimalOrZero(parse, Pick(row, "MonthlyRental", "monthly_rent")),
      DecimalOrZero(parse, Pick(row, "Deposit", "deposit")),
      DecimalOrZero(parse, Pick(row, "EscalationRate", "escalation_rate")),
      MapLeaseStatus(TextOr(Pick(row, "Status", "status"), "active")),
      Pick(row, "Terms", "terms"))
  }

  function InvoiceFromRow(parse: Parsers, row: CsvRow): InvoiceRecord {
    InvoiceRecord(
      IntegerOf(parse, Pick(row, "LeaseID", "lease_id")),
      DecimalOrZero(parse, Pick(row, "Amount", "amount")),
      Pick(row, "DueDate", "due_date"),
      Pick(row, "Description", "description"),
      MapTransactionType(TextOr(Pick(row, "Type", "type"), "other")),
      Lower(TextOr(Pick(row, "Status", "status"), "pending")))
  }

  /** A record built from a row always has a valid type, so its property is
      never reported for an invalid type; with name, address, city and
      province present and no negative area it is accepted. */
  lemma PropertyFromRowType(parse: Parsers, row: CsvRow)
    ensures var p := PropertyFromRow(parse, row);
            BadPropertyType(p.kind) !in ValidatePropertyData(p)
  {
  }

  /** A tenant from a row passes `validateTenantData` exactly when the row
      names a company and a contact under either header, and the email it
      takes, from `Email` if that is non-empty and from `email` otherwise, is
      absent, empty or holds an `@`. */
  lemma TenantFromRowValid(row: CsvRow)
    ensures ValidateTenantData(TenantFromRow(row)) == [] <==>
              && (Truthy(Cell(row, "CompanyName")) || Truthy(Cell(row, "company_name")))
              && (Truthy(Cell(row, "ContactPerson")) || Truthy(Cell(row, "contact_name")))
              && (if Truthy(Cell(row, "Email")) then '@' in row["Email"]
                  else "email" in row ==> |row["email"]| == 0 || '@' in row["email"])
  {
  }

  /** Likewise a lease from a row always has a valid status. */
  lemma LeaseFromRowStatus(parse: Parsers, row: CsvRow)
    ensures var l := LeaseFromRow(parse, row);
            BadLeaseStatus(l.status) !in ValidateLeaseData(l)
  {
  }

  /** An invoice from a row has a lower-case status, `pending` by default, and
      a known type, `other` by default. */
  lemma InvoiceFromRowDefaults(parse: Parsers, row: CsvRow)
    ensures var i := InvoiceFromRow(parse, row);
            |i.status| > 0 && Lower(i.status) == i.status && i.kind in ValidTransactionTypes
    ensures !Truthy(Cell(row, "Status")) && !Truthy(Cell(row, "status")) ==> InvoiceFromRow(parse, row).status == "pending"
    ensures !Truthy(Cell(row, "Type")) && !Truthy(Cell(row, "type")) ==> InvoiceFromRow(parse, row).kind == "other"
  {
    var s := InvoiceFromRow(parse, row).status;
    assert forall k :: 0 <= k < |s| ==> LowerChar(LowerChar(s[k]) ) == LowerChar(s[k]);
  }

  // ---------------------------------------------------------------------
  // Insert statements
  // ---------------------------------------------------------------------

  /** `a, b, c`. */
  function ColumnList(columns: seq<string>): string
    requires |columns| >= 1
    decreases |columns|
  {
    if |columns| == 1 then columns[0]
    else ColumnList(columns[..|columns| - 1]) + ", " + columns[|columns| - 1]
  }

  lemma {:induction false} ColumnListPlain(columns: seq<string>)
    requires |columns| >= 1
    requires forall i :: 0 <= i < |columns| ==> '$' !in columns[i]
    ensures '$' !in ColumnList(columns)
    decreases |columns|
  {
    if |columns| > 1 {
      ColumnListPlain(columns[..|columns| - 1]);
    }
  }

  /** The line break and indentation between the column list and `VALUES`. */
  const Indent := "\n               "

  /** `INSERT INTO table (a, b, c)` and `VALUES ($1, $2, $3)` on the next line. */
  function InsertStatement(table: string, columns: seq<string>): string
    requires |columns| >= 1
  {
    "INSERT INTO " + table + " (" + ColumnList(columns) + ")" + Indent + "VALUES (" + ValueList(|columns|) + ")"
  }

  /** The statement refers to the parameters `1..n` once each, in order. */
  lemma InsertPlaceholders(table: string, columns: seq<string>)
    requires |columns| >= 1 && '$' !in table
    requires forall i :: 0 <= i < |columns| ==> '$' !in columns[i]
    ensures Placeholders(InsertStatement(table, columns)) == Ordinals(|columns|)
  {
    var n := |columns|;
    var head := "INSERT INTO " + table + " (" + ColumnList(columns) + ")" + Indent + "VALUES (";
    assert '$' !in head by {
      ColumnListPlain(columns);
    }
    assert InsertStatement(table, columns) == head + (ValueList(n) + ")");
    PlaceholdersAfterPlainText(head, ValueList(n) + ")");
    PlaceholdersAppend(ValueList(n), ")");
    PlaceholdersNoDollar(")");
    PlaceholdersOfValueList(n);
  }

  /** With a defined value per column, the statement is sent with exactly
      those values, in column order. */
  lemma InsertSendsValues(table: string, columns: seq<string>, values: seq<Value>)
    requires |columns| >= 1 && '$' !in table
    requires forall i :: 0 <= i < |columns| ==> '$' !in columns[i]
    requires |values| == |columns|
    requires forall i :: 0 <= i < |values| ==> values[i] != Undefined
    ensures ConvertQuery(InsertStatement(table, columns), values).params == values
  {
    var ns := Ordinals(|columns|);
    InsertPlaceholders(table, columns);
    GatherAllResolved(ns, values);
  }

  /** An `undefined` value (an empty optional cell) is not sent: its
      placeholder `$k` is left in the text after the placeholder pass. */
  lemma InsertKeepsUndefined(table: string, columns: seq<string>, values: seq<Value>, k: nat)
    requires |columns| >= 1 && '$' !in table
    requires forall i :: 0 <= i < |columns| ==> '$' !in columns[i]
    requires |values| == |columns|
    requires 1 <= k <= |values| && values[k - 1] == Undefined
    ensures k in Placeholders(Substitute(InsertStatement(table, columns), values).query)
  {
    var ns := Ordinals(|columns|);
    InsertPlaceholders(table, columns);
    SubstituteLeavesUnresolved(InsertStatement(table, columns), values);
    assert ns[k - 1] == k;
    UnresolvedMembers(ns, values, k);
  }

  const PropertyColumns: seq<string> :=
    ["name", "type", "address", "city", "province", "postal_code", "description", "total_area"]

  const TenantColumns: seq<string> :=
    ["company_name", "contact_name", "email", "phone", "address", "city", "province",
     "postal_code", "vat_number", "registration_number"]

  const LeaseColumns: seq<string> :=
    ["tenant_id", "unit_id", "start_date", "end_date", "monthly_rent", "deposit",
     "escalation_rate", "status", "terms"]

  const InvoiceColumns: seq<string> := ["lease_id", "amount", "due_date", "description", "type", "status"]

  function PropertyValues(p: PropertyRecord): (v: seq<Value>)
    ensures |v| == |PropertyColumns|
  {
    [p.name, Str(p.kind), p.address, p.city, p.province, p.postalCode, p.description, Num(p.totalArea)]
  }

  function TenantValues(t: TenantRecord): (v: seq<Value>)
    ensures |v| == |TenantColumns|
  {
    [t.companyName, t.contactName, t.email, t.phone, t.address, t.city, t.province,
     t.postalCode, t.vatNumber, t.registrationNumber]
  }

  function LeaseValues(l: LeaseRecord): (v: seq<Value>)
    ensures |v| == |LeaseColumns|
  {
    [Num(l.tenantId), Num(l.unitId), l.startDate, l.endDate, Num(l.monthlyRent), Num(l.deposit),
     Num(l.escalationRate), Str(l.status), l.terms]
  }

  function InvoiceValues(i: InvoiceRecord): (v: seq<Value>)
    ensures |v| == |InvoiceColumns|
  {
    [Num(i.leaseId), Num(i.amount), i.dueDate, i.description, Str(i.kind), Str(i.status)]
  }

  /** No column name of the property import holds a `$`. */
  lemma PropertyColumnsArePlain()
    ensures forall i :: 0 <= i < |PropertyColumns| ==> '$' !in PropertyColumns[i]
  {
  }

  /** A valid property is sent with its eight values when its optional text
      fields are all present; a missing description leaves `$7` in the text. */
  lemma PropertyInsertValues(p: PropertyRecord)
    requires PropertyValid(p)
    ensures p.postalCode != Undefined && p.description != Undefined ==>
              ConvertQuery(InsertStatement("properties", PropertyColumns), PropertyValues(p)).params == PropertyValues(p)
    ensures p.description == Undefined ==>
              7 in Placeholders(Substitute(InsertStatement("properties", PropertyColumns), PropertyValues(p)).query)
  {
    PropertyColumnsArePlain();
    var v := PropertyValues(p);
    if p.postalCode != Undefined && p.description != Undefined {
      InsertSendsValues("properties", PropertyColumns, v);
    }
    if p.description == Undefined {
      InsertKeepsUndefined("properties", PropertyColumns, v, 7);
    }
  }

  // ---------------------------------------------------------------------
  // The import pipeline
  // ---------------------------------------------------------------------

  /** What an error entry names: the property name, the tenant's company
      name, `Tenant <id> - Unit <id>` for a lease, `Lease <id>` for an invoice. */
  datatype Subject = Named(name: TextValue) | LeaseOf(tenant: Number, unit: Number) | InvoiceOf(lease: Number)

  /** One entry of the `errors` array. */
  datatype ErrorEntry = ErrorEntry(subject: Subject, messages: seq<string>)

  /** The CSV parser's output: every row, or the rows before a parse error. */
  datatype CsvStream = Complete(rows: seq<CsvRow>) | Broken(rows: seq<CsvRow>, error: string)

  /** `db.query(text, values)` as the database answers the insert made after
      `k` earlier ones in the same import. Its answer may depend on those:
      the same record can be stored once and rejected the next time. */
  type Store = (nat, string, seq<Value>) -> Result<QueryResult>

  /** What varies between the four imports: how a row becomes a record, how
      a record is checked, what an error entry names, and the insert. */
  datatype Import<!R> = Import(
    build: CsvRow -> R, problems: R -> seq<Problem>, subject: R -> Subject,
    statement: string, values: R -> seq<Value>)

  predicate RowValid<R>(imp: Import<R>, row: CsvRow) {
    imp.problems(imp.build(row)) == []
  }

  /** Reference: the records of the valid rows, in row order. */
  function Accepted<R>(imp: Import<R>, rows: seq<CsvRow>): seq<R>
    decreases |rows|
  {
    if |rows| == 0 then []
    else (if RowValid(imp, rows[0]) then [imp.build(rows[0])] else []) + Accepted(imp, rows[1..])
  }

  /** Reference: an entry for each invalid row, in row order. */
  function Rejections<R>(imp: Import<R>, rows: seq<CsvRow>): seq<ErrorEntry>
    decreases |rows|
  {
    if |rows| == 0 then []
    else
      var r := imp.build(rows[0]);
      (if RowValid(imp, rows[0]) then [] else [ErrorEntry(imp.subject(r), Messages(imp.problems(r)))])
      + Rejections(imp, rows[1..])
  }

  lemma {:induction false} AcceptedSplit<R>(imp: Import<R>, rows: seq<CsvRow>)
    ensures |Accepted(imp, rows)| + |Rejections(imp, rows)| == |rows|
    ensures forall i :: 0 <= i < |Rejections(imp, rows)| ==> |Rejections(imp, rows)[i].messages| > 0
    decreases |rows|
  {
    if |rows| > 0 {
      AcceptedSplit(imp, rows[1..]);
      var r := imp.build(rows[0]);
      var rest := Rejections(imp, rows[1..]);
      var head: seq<ErrorEntry> := if RowValid(imp, rows[0]) then [] else [ErrorEntry(imp.subject(r), Messages(imp.problems(r)))];
      assert Rejections(imp, rows) == head + rest;
      forall i | 0 <= i < |head + rest| ensures |(head + rest)[i].messages| > 0 {
        if i >= |head| {
          assert (head + rest)[i] == rest[i - |head|];
        }
      }
    }
  }

  /** The 'data' handler, one row at a time: collect the valid records and
      an error entry for each invalid one. */
  datatype Screened<R> = Screened(accepted: seq<R>, errors: seq<ErrorEntry>)

  function ScreenRow<R>(imp: Import<R>, s: Screened<R>, row: CsvRow): Screened<R> {
    var r := imp.build(row);
    var problems := imp.problems(r);
    if |problems| > 0 then Screened(s.accepted, s.errors + [ErrorEntry(imp.subject(r), Messages(problems))])
    else Screened(s.accepted + [r], s.errors)
  }

  /** The rows in arrival order, from an empty collection. */
  function Screen<R>(imp: Import<R>, rows: seq<CsvRow>): (s: Screened<R>)
    ensures s.accepted == Accepted(imp, rows)
    ensures s.errors == Rejections(imp, rows)
    decreases |rows|
  {
    if |rows| == 0 then Screened([], [])
    else
      var last := |rows| - 1;
      var before := Screen(imp, rows[..last]);
      ScreenLast(imp, rows);
      ScreenRow(imp, before, rows[last])
  }

  /** The front-to-back references extend at the back one row at a time. */
  lemma {:induction false} ScreenLast<R>(imp: Import<R>, rows: seq<CsvRow>)
    requires |rows| > 0
    ensures var last := |rows| - 1;
            var r := imp.build(rows[last]);
            Accepted(imp, rows) == Accepted(imp, rows[..last]) + (if RowValid(imp, rows[last]) then [r] else []) &&
            Rejections(imp, rows) == Rejections(imp, rows[..last]) +
              (if RowValid(imp, rows[last]) then [] else [ErrorEntry(imp.subject(r), Messages(imp.problems(r)))])
    decreases |rows|
  {
    var last := |rows| - 1;
    if last > 0 {
      ScreenLast(imp, rows[1..]);
      assert rows[1..][..last - 1] == rows[..last][1..];
      assert rows[1..][last - 1] == rows[last];
      assert rows[..last][0] == rows[0];
    }
  }

  /** The 'end' handler's running totals. */
  datatype Tally = Tally(success: nat, failed: nat, errors: seq<ErrorEntry>)

  /** Reference: every record inserted in order, a failed insert counted and
      reported with the database's message. */
  function InsertAll<R>(imp: Import<R>, store: Store, records: seq<R>): (t: Tally)
    ensures t.success + t.failed == |records|
    ensures |t.errors| == t.failed
    ensures forall i :: 0 <= i < |t.errors| ==> |t.errors[i].messages| == 1
    decreases |records|
  {
    if |records| == 0 then Tally(0, 0, [])
    else
      var last := |records| - 1;
      var before := InsertAll(imp, store, records[..last]);
      var r := records[last];
      match store(last, imp.statement, imp.values(r))
      case Ok(_) => Tally(before.success + 1, before.failed, before.errors)
      case Err(e) => Tally(before.success, before.failed + 1, before.errors + [ErrorEntry(imp.subject(r), [e])])
  }

  /** The 'end' handler's loop, awaiting each insert in turn. */
  method InsertEach<R>(imp: Import<R>, store: Store, records: seq<R>) returns (success: nat, failed: nat, errors: seq<ErrorEntry>)
    ensures Tally(success, failed, errors) == InsertAll(imp, store, records)
    ensures success + failed == |records|
  {
    success, failed, errors := 0, 0, [];
    for i := 0 to |records|
      invariant Tally(success, failed, errors) == InsertAll(imp, store, records[..i])
    {
      assert records[..i + 1][..i] == records[..i];
      var r := records[i];
      var outcome := store(i, imp.statement, imp.values(r));
      if outcome.Ok? {
        success := success + 1;
      } else {
        failed := failed + 1;
        errors := errors + [ErrorEntry(imp.subject(r), [outcome.error])];
      }
    }
    assert records[..|records|] == records;
  }

  /** When each insert succeeds, every accepted record is stored. */
  lemma {:induction false} InsertAllSucceeds<R>(imp: Import<R>, store: Store, records: seq<R>)
    requires forall k :: 0 <= k < |records| ==> store(k, imp.statement, imp.values(records[k])).Ok?
    ensures InsertAll(imp, store, records) == Tally(|records|, 0, [])
    decreases |records|
  {
    if |records| > 0 {
      var last := |records| - 1;
      assert forall k :: 0 <= k < last ==> records[..last][k] == records[k];
      InsertAllSucceeds(imp, store, records[..last]);
    }
  }

  /** The resolved summary of one import. */
  datatype MigrationResult = MigrationResult(success: nat, failed: nat, total: nat, errors: seq<ErrorEntry>)

  /** One import: a parse error rejects; otherwise the valid rows are
      inserted once the whole file has been read. `total` counts the valid
      rows, and the entries for invalid rows precede those for failed inserts. */
  function Migrate<R>(imp: Import<R>, store: Store, stream: CsvStream): (r: Result<MigrationResult>)
    ensures r.Err? <==> stream.Broken?
    ensures r.Err? ==> r.error == stream.error
    ensures r.Ok? ==> var valid := Accepted(imp, stream.rows);
            && r.value.total == |valid|
            && r.value.success + r.value.failed == r.value.total
            && r.value.errors == Rejections(imp, stream.rows) + InsertAll(imp, store, valid).errors
            && |r.value.errors| == |stream.rows| - r.value.total + r.value.failed
  {
    match stream
    case Broken(_, error) => Err(error)
    case Complete(rows) =>
      var screened := Screen(imp, rows);
      var tally := InsertAll(imp, store, screened.accepted);
      AcceptedSplit(imp, rows);
      Ok(MigrationResult(tally.success, tally.failed, |screened.accepted|, screened.errors + tally.errors))
  }

  function PropertyImport(parse: Parsers): Import<PropertyRecord> {
    Import(
      row => PropertyFromRow(parse, row), ValidatePropertyData, (p: PropertyRecord) => Named(p.name),
      InsertStatement("properties", PropertyColumns), PropertyValues)
  }

  function TenantImport(): Import<TenantRecord> {
    Import(
      TenantFromRow, ValidateTenantData, (t: TenantRecord) => Named(t.companyName),
      InsertStatement("tenants", TenantColumns), TenantValues)
  }

  function LeaseImport(parse: Parsers): Import<LeaseRecord> {
    Import(
      row => LeaseFromRow(parse, row), ValidateLeaseData, (l: LeaseRecord) => LeaseOf(l.tenantId, l.unitId),
      InsertStatement("leases", LeaseColumns), LeaseValues)
  }

  function InvoiceImport(parse: Parsers): Import<InvoiceRecord> {
    Import(
      row => InvoiceFromRow(parse, row), InvoiceProblems, (i: InvoiceRecord) => InvoiceOf(i.leaseId),
      InsertStatement("invoices", InvoiceColumns), InvoiceValues)
  }

  /** `migrateProperties`. */
  function MigrateProperties(parse: Parsers, store: Store, stream: CsvStream): (r: Result<MigrationResult>)
    ensures r.Err? <==> stream.Broken?
    ensures r.Ok? ==> r.value.success + r.value.failed == r.value.total <= |stream.rows|
    ensures r.Ok? ==> r.value.total == |Accepted(PropertyImport(parse), stream.rows)|
  {
    AcceptedSplit(PropertyImport(parse), stream.rows);
    Migrate(PropertyImport(parse), store, stream)
  }

  /** `migrateTenants`. */
  function MigrateTenants(store: Store, stream: CsvStream): (r: Result<MigrationResult>)
    ensures r.Err? <==> stream.Broken?
    ensures r.Ok? ==> r.value.success + r.value.failed == r.value.total <= |stream.rows|
    ensures r.Ok? ==> r.value.total == |Accepted(TenantImport(), stream.rows)|
  {
    AcceptedSplit(TenantImport(), stream.rows);
    Migrate(TenantImport(), store, stream)
  }

  /** `migrateLeases`. */
  function MigrateLeases(parse: Parsers, store: Store, stream: CsvStream): (r: Result<MigrationResult>)
    ensures r.Err? <==> stream.Broken?
    ensures r.Ok? ==> r.value.success + r.value.failed == r.value.total <= |stream.rows|
    ensures r.Ok? ==> r.value.total == |Accepted(LeaseImport(parse), stream.rows)|
  {
    AcceptedSplit(LeaseImport(parse), stream.rows);
    Migrate(LeaseImport(parse), store, stream)
  }

  /** `migrateInvoices`. */
  function MigrateInvoices(parse: Parsers, store: Store, stream: CsvStream): (r: Result<MigrationResult>)
    ensures r.Err? <==> stream.Broken?
    ensures r.Ok? ==> r.value.success + r.value.failed == r.value.total <= |stream.rows|
    ensures r.Ok? ==> r.value.total == |Accepted(InvoiceImport(parse), stream.rows)|
  {
    AcceptedSplit(InvoiceImport(parse), stream.rows);
    Migrate(InvoiceImport(parse), store, stream)
  }

  /** A file whose rows are all valid, imported into a database that accepts
      every insert, reports every row stored and no errors. */
  lemma MigrateCleanFile<R>(imp: Import<R>, store: Store, rows: seq<CsvRow>)
    requires forall i :: 0 <= i < |rows| ==> RowValid(imp, rows[i])
    requires forall k, row :: store(k, imp.statement, imp.values(imp.build(row))).Ok?
    ensures Migrate(imp, store, Complete(rows)) == Ok(MigrationResult(|rows|, 0, |rows|, []))
  {
    AcceptedSplit(imp, rows);
    AllValidAccepted(imp, rows);
    var valid := Accepted(imp, rows);
    forall k | 0 <= k < |valid| ensures store(k, imp.statement, imp.values(valid[k])).Ok? {
      AcceptedBuilt(imp, rows, valid[k]);
    }
    InsertAllSucceeds(imp, store, valid);
  }

  lemma {:induction false} AllValidAccepted<R>(imp: Import<R>, rows: seq<CsvRow>)
    requires forall i :: 0 <= i < |rows| ==> RowValid(imp, rows[i])
    ensures Rejections(imp, rows) == []
    decreases |rows|
  {
    if |rows| > 0 {
      assert RowValid(imp, rows[0]);
      assert forall i :: 0 <= i < |rows[1..]| ==> rows[1..][i] == rows[i + 1];
      AllValidAccepted(imp, rows[1..]);
    }
  }

  /** Every accepted record was built from a valid row. */
  lemma {:induction false} AcceptedBuilt<R>(imp: Import<R>, rows: seq<CsvRow>, r: R)
    requires r in Accepted(imp, rows)
    ensures exists i :: 0 <= i < |rows| && RowValid(imp, rows[i]) && r == imp.build(rows[i])
    decreases |rows|
  {
    if RowValid(imp, rows[0]) && r == imp.build(rows[0]) {
      assert RowValid(imp, rows[0]);
    } else {
      AcceptedBuilt(imp, rows[1..], r);
      var i :| 0 <= i < |rows[1..]| && RowValid(imp, rows[1..][i]) && r == imp.build(rows[1..][i]);
      assert rows[1..][i] == rows[i + 1];
    }
  }
}

=== FILE: schema_setup.dfy ===
/**
  Preparing the SQLite schema script: `--` comments are removed line by
  line (a line holding a quote is left alone, since the dashes might sit
  inside a string), the cleaned script is executed as one batch, and if
  that fails it is split on `;` and run statement by statement, errors that
  only say an object already exists (or is missing) being ignored and the
  others reported as warnings.
 */
module SchemaSetup {
  import opened JsValue
  import opened JsString

  // ---------------------------------------------------------------------
  // Comment removal
  // ---------------------------------------------------------------------

  /** A prefix of `s` contains `sub` only where `s` does. */
  lemma OccursInPrefix(s: string, sub: string, n: nat, i: int)
    requires n <= |s|
    requires OccursAt(s[..n], sub, i)
    ensures OccursAt(s, sub, i) && i + |sub| <= n
  {
    assert s[..n][i..i + |sub|] == s[i..i + |sub|];
  }

  /** One line: a line without `'` is cut just before its first `--`; a line
      with `'` is kept whole. The result is the longest comment-free prefix. */
  function StripLine(line: string): (r: string)
    ensures StartsWith(line, r)
    ensures '\'' in line ==> r == line
    ensures '\'' !in line ==> !Contains(r, "--") && (|r| == |line| || OccursAt(line, "--", |r|))
    ensures '\'' !in line ==> forall j :: 0 <= j < |r| ==> !OccursAt(line, "--", j)
    ensures '\'' !in line && Contains(line, "--") ==> |r| == IndexOf(line, "--")
    ensures !Contains(line, "--") ==> r == line
  {
    ContainsChar(line, '\'');
    var cut := IndexOf(line, "--");
    if cut >= 0 && !Contains(line, "'") then
      var r := line[..cut];
      assert !Contains(r, "--") by {
        var j := IndexOf(r, "--");
        if j >= 0 {
          OccursInPrefix(line, "--", cut, j);
          assert false;
        }
      }
      r
    else line
  }

  /** A stripped line strips to itself. */
  lemma StripLineIdempotent(line: string)
    ensures StripLine(StripLine(line)) == StripLine(line)
  {
    var r := StripLine(line);
    if '\'' !in line {
      assert '\'' !in r by {
        assert forall k :: 0 <= k < |r| ==> r[k] == line[k];
      }
    }
  }

  function StripLines(lines: seq<string>): (r: seq<string>)
    ensures |r| == |lines|
    ensures forall i :: 0 <= i < |lines| ==> r[i] == StripLine(lines[i])
  {
    seq(|lines|, i requires 0 <= i < |lines| => StripLine(lines[i]))
  }

  /** `split('\n').map(...).join('\n')`. */
  function StripComments(schema: string): string {
    Join(StripLines(Split(schema, '\n')), '\n')
  }

  /** The cleaned script has as many lines as the script, and each is the
      corresponding line stripped. */
  lemma StripCommentsLines(schema: string)
    ensures Split(StripComments(schema), '\n') == StripLines(Split(schema, '\n'))
  {
    var lines := Split(schema, '\n');
    var stripped := StripLines(lines);
    forall i | 0 <= i < |stripped| ensures '\n' !in stripped[i] {
      assert lines[i] in lines;
      assert forall k :: 0 <= k < |stripped[i]| ==> stripped[i][k] == lines[i][k];
    }
    SplitJoin(stripped, '\n');
  }

  /** Cleaning twice is cleaning once. */
  lemma StripCommentsIdempotent(schema: string)
    ensures StripComments(StripComments(schema)) == StripComments(schema)
  {
    var once := StripLines(Split(schema, '\n'));
    StripCommentsLines(schema);
    forall i | 0 <= i < |once| ensures StripLine(once[i]) == once[i] {
      StripLineIdempotent(Split(schema, '\n')[i]);
    }
    assert StripLines(once) == once;
  }

  /** A script without `--` is left as it is. */
  lemma StripCommentsNoComment(schema: string)
    requires forall i :: 0 <= i < |schema| - 1 ==> !(schema[i] == '-' && schema[i + 1] == '-')
    ensures StripComments(schema) == schema
  {
    var lines := Split(schema, '\n');
    forall i | 0 <= i < |lines| ensures StripLine(lines[i]) == lines[i] {
      NoCommentInLine(schema, i);
    }
    assert StripLines(lines) == lines;
    JoinSplit(schema, '\n');
  }

  /** A line of a script without `--` holds no `--`. */
  lemma NoCommentInLine(schema: string, i: nat)
    requires forall k :: 0 <= k < |schema| - 1 ==> !(schema[k] == '-' && schema[k + 1] == '-')
    requires i < |Split(schema, '\n')|
    ensures !Contains(Split(schema, '\n')[i], "--")
  {
    var line := Split(schema, '\n')[i];
    var start := LineStart(schema, i);
    var j := IndexOf(line, "--");
    if j >= 0 {
      DashesInSlice(schema, start, line, j);
      assert false;
    }
  }

  /** `--` inside a slice is `--` in the whole text. */
  lemma DashesInSlice(s: string, start: nat, piece: string, j: int)
    requires start + |piece| <= |s| && s[start..start + |piece|] == piece
    requires OccursAt(piece, "--", j)
    ensures 0 <= start + j < |s| - 1 && s[start + j] == '-' && s[start + j + 1] == '-'
  {
    assert piece[j..j + 2] == "--";
    assert s[start + j] == piece[j] && s[start + j + 1] == piece[j + 1];
  }

  /** Where line `i` of a split begins in the script: each line is a slice of it. */
  lemma {:induction false} LineStart(schema: string, i: nat) returns (start: nat)
    requires i < |Split(schema, '\n')|
    ensures start + |Split(schema, '\n')[i]| <= |schema|
    ensures schema[start..start + |Split(schema, '\n')[i]|] == Split(schema, '\n')[i]
    decreases |schema|
  {
    var parts := Split(schema, '\n');
    if i == 0 {
      SplitFirst(schema, '\n');
      start := 0;
    } else {
      SplitLater(schema, '\n', i);
      var rest := Split(schema[1..], '\n');
      var j := if schema[0] == '\n' then i - 1 else i;
      var s := LineStart(schema[1..], j);
      SliceOfTail(schema, s, s + |rest[j]|);
      start := s + 1;
    }
  }

  // ---------------------------------------------------------------------
  // The statement-by-statement fallback
  // ---------------------------------------------------------------------

  /** A piece that is run: non-empty after trimming and not starting with `--`. */
  predicate Kept(statement: string) {
    |statement| > 0 && !StartsWith(statement, "--")
  }

  /** `.map(s => s.trim()).filter(...)` over the pieces, in order. */
  function KeepStatements(pieces: seq<string>): (r: seq<string>)
    ensures |r| <= |pieces|
    ensures forall i :: 0 <= i < |r| ==> Kept(r[i]) && Trim(r[i]) == r[i]
    decreases |pieces|
  {
    if |pieces| == 0 then []
    else
      var t := Trim(pieces[0]);
      TrimUnchanged(t);
      (if Kept(t) then [t] else []) + KeepStatements(pieces[1..])
  }

  /** Filtering pieces one run after another gives the two filtered runs one after the other. */
  lemma {:induction false} KeepStatementsAppend(a: seq<string>, b: seq<string>)
    ensures KeepStatements(a + b) == KeepStatements(a) + KeepStatements(b)
    decreases |a|
  {
    if |a| > 0 {
      assert (a + b)[1..] == a[1..] + b;
      KeepStatementsAppend(a[1..], b);
    } else {
      assert a + b == b;
    }
  }

  /** A piece that passes the filter comes out trimmed, after exactly the
      statements kept from the pieces before it. */
  lemma KeepStatementsAt(pieces: seq<string>, i: nat)
    requires i < |pieces| && Kept(Trim(pieces[i]))
    ensures |KeepStatements(pieces[..i])| < |KeepStatements(pieces)|
    ensures KeepStatements(pieces)[|KeepStatements(pieces[..i])|] == Trim(pieces[i])
  {
    var rest := pieces[i..];
    assert pieces == pieces[..i] + rest;
    KeepStatementsAppend(pieces[..i], rest);
    assert rest[0] == pieces[i];
  }

  /** A statement is kept exactly when it is the trimmed form of some piece and passes the filter. */
  lemma {:induction false} KeepStatementsMembers(pieces: seq<string>, s: string)
    ensures s in KeepStatements(pieces) <==> exists p :: p in pieces && Trim(p) == s && Kept(s)
    decreases |pieces|
  {
    if |pieces| > 0 {
      KeepStatementsMembers(pieces[1..], s);
      assert forall p :: p in pieces <==> p == pieces[0] || p in pieces[1..];
    }
  }

  /** Trimming keeps a subset of the characters. */
  lemma TrimKeepsOut(s: string, c: char)
    requires c !in s
    ensures c !in Trim(s)
  {
    var r := Trim(s);
    var a := SpaceRun(s);
    assert forall k :: 0 <= k < |r| ==> r[k] == s[a + k];
  }

  /** `cleanedSchema.split(';')`, trimmed and filtered. */
  function Statements(cleaned: string): (r: seq<string>)
    ensures forall i :: 0 <= i < |r| ==> Kept(r[i]) && Trim(r[i]) == r[i] && ';' !in r[i]
    ensures forall s :: s in r <==> exists p :: p in Split(cleaned, ';') && Trim(p) == s && Kept(s)
    ensures forall i :: 0 <= i < |Split(cleaned, ';')| && Kept(Trim(Split(cleaned, ';')[i])) ==>
              |KeepStatements(Split(cleaned, ';')[..i])| < |r| && r[|KeepStatements(Split(cleaned, ';')[..i])|] == Trim(Split(cleaned, ';')[i])
  {
    var r := KeepStatements(Split(cleaned, ';'));
    forall i | 0 <= i < |Split(cleaned, ';')| && Kept(Trim(Split(cleaned, ';')[i]))
      ensures |KeepStatements(Split(cleaned, ';')[..i])| < |r| && r[|KeepStatements(Split(cleaned, ';')[..i])|] == Trim(Split(cleaned, ';')[i])
    {
      KeepStatementsAt(Split(cleaned, ';'), i);
    }
    forall s ensures s in r <==> exists p :: p in Split(cleaned, ';') && Trim(p) == s && Kept(s) {
      KeepStatementsMembers(Split(cleaned, ';'), s);
    }
    forall i | 0 <= i < |r| ensures ';' !in r[i] {
      assert r[i] in r;
      var p :| p in Split(cleaned, ';') && Trim(p) == r[i] && Kept(r[i]);
      TrimKeepsOut(p, ';');
    }
    r
  }

  const IgnoredPhrases: seq<string> := ["already exists", "duplicate column", "no such table"]

  /** A statement error that is silently ignored. */
  predicate Ignorable(message: string) {
    Contains(message, "already exists") || Contains(message, "duplicate column") || Contains(message, "no such table")
  }

  /** An error is ignored exactly when one of the phrases occurs in its message. */
  lemma IgnorableIff(message: string)
    ensures Ignorable(message) <==>
            exists k, i :: 0 <= k < |IgnoredPhrases| && OccursAt(message, IgnoredPhrases[k], i)
  {
    ContainsIff(message, "already exists");
    ContainsIff(message, "duplicate column");
    ContainsIff(message, "no such table");
    if Ignorable(message) {
      if Contains(message, "already exists") {
        var i :| OccursAt(message, "already exists", i);
        assert OccursAt(message, IgnoredPhrases[0], i);
      } else if Contains(message, "duplicate column") {
        var i :| OccursAt(message, "duplicate column", i);
        assert OccursAt(message, IgnoredPhrases[1], i);
      } else {
        var i :| OccursAt(message, "no such table", i);
        assert OccursAt(message, IgnoredPhrases[2], i);
      }
    }
    if exists k, i :: 0 <= k < |IgnoredPhrases| && OccursAt(message, IgnoredPhrases[k], i) {
      var k, i :| 0 <= k < |IgnoredPhrases| && OccursAt(message, IgnoredPhrases[k], i);
      assert k == 0 || k == 1 || k == 2;
    }
  }

  /** Executing SQL text: the database state afterwards, and the error
      message when execution stopped on an error. Statements executed
      before the failing one keep their effect. */
  type Exec<!S> = (S, string) -> (S, Option<string>)

  /** One statement run after others: its effect, and its message kept when not ignorable. */
  function Step<S>(exec: Exec<S>, done: (S, seq<string>), statement: string): (S, seq<string>) {
    var after := exec(done.0, statement);
    (after.0, done.1 + (if after.1.Some? && !Ignorable(after.1.value) then [after.1.value] else []))
  }

  /** Reference: the statements run in order, collecting the messages that are not ignored. */
  function RunEach<S>(exec: Exec<S>, state: S, statements: seq<string>): (r: (S, seq<string>))
    ensures |r.1| <= |statements|
    ensures forall w :: w in r.1 ==> !Ignorable(w)
    decreases |statements|
  {
    if |statements| == 0 then (state, [])
    else
      var last := |statements| - 1;
      Step(exec, RunEach(exec, state, statements[..last]), statements[last])
  }

  /** The fallback loop: each statement in turn, a failure that is not
      ignorable recorded as a warning, and the next statement run regardless.
      (The loop's own `trim().length > 0` guard always holds for the trimmed,
      non-empty statements it is given, and is not repeated here.) */
  method RunStatements<S>(exec: Exec<S>, state: S, statements: seq<string>) returns (final: S, warnings: seq<string>)
    ensures (final, warnings) == RunEach(exec, state, statements)
  {
    final, warnings := state, [];
    for i := 0 to |statements|
      invariant (final, warnings) == RunEach(exec, state, statements[..i])
    {
      assert statements[..i + 1][..i] == statements[..i];
      ghost var done := (final, warnings);
      var result := exec(final, statements[i]);
      final := result.0;
      if result.1.Some? && !Ignorable(result.1.value) {
        warnings := warnings + [result.1.value];
      }
      assert final == Step(exec, done, statements[i]).0;
      assert warnings == Step(exec, done, statements[i]).1;
    }
    assert statements[..|statements|] == statements;
  }

  datatype SetupOutcome<S> = SetupOutcome(state: S, batched: bool, warnings: seq<string>)

  /** The schema step of `setupDatabase`: the whole cleaned script first, and
      only if that fails, each statement of it in turn. */
  method ApplySchema<S>(exec: Exec<S>, state: S, schema: string) returns (out: SetupOutcome<S>)
    ensures var batch := exec(state, StripComments(schema));
            batch.1.None? ==> out == SetupOutcome(batch.0, true, [])
    ensures var batch := exec(state, StripComments(schema));
            batch.1.Some? ==>
              !out.batched && (out.state, out.warnings) == RunEach(exec, batch.0, Statements(StripComments(schema)))
    ensures forall w :: w in out.warnings ==> !Ignorable(w)
  {
    var cleaned := StripComments(schema);
    var batch := exec(state, cleaned);
    if batch.1.None? {
      return SetupOutcome(batch.0, true, []);
    }
    var final, warnings := RunStatements(exec, batch.0, Statements(cleaned));
    out := SetupOutcome(final, false, warnings);
  }
}

=== FILE: translator.dfy ===
/**
  The PostgreSQL-to-SQLite rewriting that the embedded backend applies to
  every statement before preparing it (`convertQuery`). Six passes run in a
  fixed order over the text:

    1. `$n` becomes `?`, and `params[n-1]` is appended to the new parameter
       list in the order the placeholders occur, when it is defined;
    2. `ILIKE` (any case) becomes `LIKE`;
    3. `COUNT(*) FILTER (WHERE c)` becomes `SUM(CASE WHEN c THEN 1 ELSE 0 END)`;
    4. `COUNT(e) FILTER (WHERE c)` becomes the same, `e` being dropped;
    5. `DATE_TRUNC('month', e)` becomes `strftime('%Y-%m', e)`;
    6. `NOW()` at a word boundary becomes `CURRENT_TIMESTAMP`.

  Passes 2 to 6 are global regular-expression replacements; each is modelled
  as one `Rule` scanned left to right, a match consuming its text and the
  scan resuming after it, as `String.prototype.replace` with the `g` flag does.
 */
module Translator {
  import opened JsValue
  import opened JsString

  /** A statement text and the values for its positional placeholders. */
  datatype Converted = Converted(query: string, params: seq<Value>)

  /** The number of `?` characters of a text: the positional placeholders SQLite binds. */
  function Marks(s: string): nat {
    CountChar(s, '?')
  }

  // ---------------------------------------------------------------------
  // Pass 1: `$n` placeholders
  // ---------------------------------------------------------------------

  /** `\$\d` matches at the start of `s`. */
  predicate StartsPlaceholder(s: string) {
    |s| >= 2 && s[0] == '$' && IsDigit(s[1])
  }

  /** The length of the match of `\$(\d+)` at the start of `s`: `$` and all the digits after it. */
  function PlaceholderLength(s: string): (k: nat)
    requires StartsPlaceholder(s)
    ensures 2 <= k <= |s|
    ensures forall i :: 1 <= i < k ==> IsDigit(s[i])
    ensures k < |s| ==> !IsDigit(s[k])
  {
    1 + Run(s[1..], IsDigit)
  }

  /** The numbers of the `$n` placeholders of `s`, in textual order: the
      independent reference for what pass 1 consumes. */
  function Placeholders(s: string): seq<nat>
    decreases |s|
  {
    if |s| == 0 then []
    else if StartsPlaceholder(s) then
      var k := PlaceholderLength(s);
      [DecimalValue(s[1..k])] + Placeholders(s[k..])
    else Placeholders(s[1..])
  }

  /** `params[n - 1] !== undefined`: the placeholder `$n` has a value (`$0` never has). */
  predicate Resolves(params: seq<Value>, n: nat) {
    1 <= n <= |params| && params[n - 1] != Undefined
  }

  /** The values of the placeholders `ns` that resolve, in the order of `ns`. */
  function Gather(ns: seq<nat>, params: seq<Value>): seq<Value>
    decreases |ns|
  {
    if |ns| == 0 then []
    else (if Resolves(params, ns[0]) then [params[ns[0] - 1]] else []) + Gather(ns[1..], params)
  }

  /** The placeholders of `ns` that do not resolve, in the order of `ns`. */
  function Unresolved(ns: seq<nat>, params: seq<Value>): seq<nat>
    decreases |ns|
  {
    if |ns| == 0 then []
    else (if Resolves(params, ns[0]) then [] else [ns[0]]) + Unresolved(ns[1..], params)
  }

  /** Every placeholder either contributes a value or stays in the text. */
  lemma {:induction false} GatherUnresolvedSplit(ns: seq<nat>, params: seq<Value>)
    ensures |Gather(ns, params)| + |Unresolved(ns, params)| == |ns|
    decreases |ns|
  {
    if |ns| > 0 {
      GatherUnresolvedSplit(ns[1..], params);
    }
  }

  /** A placeholder stays in the text exactly when it occurs and does not resolve. */
  lemma {:induction false} UnresolvedMembers(ns: seq<nat>, params: seq<Value>, n: nat)
    ensures n in Unresolved(ns, params) <==> n in ns && !Resolves(params, n)
    decreases |ns|
  {
    if |ns| > 0 {
      UnresolvedMembers(ns[1..], params, n);
      assert ns == [ns[0]] + ns[1..];
    }
  }

  /** When every placeholder resolves, each one contributes its value and none stays. */
  lemma {:induction false} GatherAllResolved(ns: seq<nat>, params: seq<Value>)
    requires forall i :: 0 <= i < |ns| ==> Resolves(params, ns[i])
    ensures Unresolved(ns, params) == []
    ensures |Gather(ns, params)| == |ns|
    ensures forall i :: 0 <= i < |ns| ==> 1 <= ns[i] <= |params| && Gather(ns, params)[i] == params[ns[i] - 1]
    decreases |ns|
  {
    if |ns| > 0 {
      assert Resolves(params, ns[0]);
      GatherAllResolved(ns[1..], params);
      forall i | 0 <= i < |ns|
        ensures 1 <= ns[i] <= |params| && Gather(ns, params)[i] == params[ns[i] - 1]
      {
        assert Resolves(params, ns[i]);
        if i > 0 {
          assert ns[1..][i - 1] == ns[i];
        }
      }
    }
  }

  /** A character that does not start a placeholder contributes nothing. */
  lemma PlaceholdersSkip(c: char, t: string)
    requires !StartsPlaceholder([c] + t)
    ensures Placeholders([c] + t) == Placeholders(t)
  {
    assert ([c] + t)[1..] == t;
  }

  /** `$` followed by a maximal digit run is one placeholder. */
  lemma PlaceholderHead(d: string, t: string)
    requires |d| > 0 && forall i :: 0 <= i < |d| ==> IsDigit(d[i])
    requires |t| == 0 || !IsDigit(t[0])
    ensures Placeholders("$" + d + t) == [DecimalValue(d)] + Placeholders(t)
  {
    var s := "$" + d + t;
    PlaceholderHeadParts(d, t);
    PlaceholdersAtHead(s);
  }

  /** The first placeholder of a text, as `Placeholders` reads it. */
  lemma PlaceholdersAtHead(s: string)
    requires StartsPlaceholder(s)
    ensures Placeholders(s) == [DecimalValue(s[1..PlaceholderLength(s)])] + Placeholders(s[PlaceholderLength(s)..])
  {
  }

  /** `$`, a maximal digit run and the rest, as the placeholder pattern splits them. */
  lemma PlaceholderHeadParts(d: string, t: string)
    requires |d| > 0 && forall i :: 0 <= i < |d| ==> IsDigit(d[i])
    requires |t| == 0 || !IsDigit(t[0])
    ensures var s := "$" + d + t;
            StartsPlaceholder(s) && PlaceholderLength(s) == 1 + |d| &&
            s[1..1 + |d|] == d && s[1 + |d|..] == t
  {
    var s := "$" + d + t;
    assert s[1..] == d + t;
    RunOfPrefix(d, t, IsDigit);
    assert s[1..1 + |d|] == d;
    assert s[1 + |d|..] == t;
  }

  /** Text without `$` holds no placeholder. */
  lemma {:induction false} PlaceholdersNoDollar(s: string)
    requires '$' !in s
    ensures Placeholders(s) == []
    decreases |s|
  {
    if |s| > 0 {
      assert s == [s[0]] + s[1..];
      PlaceholdersSkip(s[0], s[1..]);
      PlaceholdersNoDollar(s[1..]);
    }
  }

  /** A `$`-free prefix does not change the placeholders that follow it. */
  lemma {:induction false} PlaceholdersAfterPlainText(a: string, b: string)
    requires '$' !in a
    ensures Placeholders(a + b) == Placeholders(b)
    decreases |a|
  {
    if |a| > 0 {
      assert a + b == [a[0]] + (a[1..] + b);
      PlaceholdersSkip(a[0], a[1..] + b);
      PlaceholdersAfterPlainText(a[1..], b);
    } else {
      assert a + b == b;
    }
  }

  /** A placeholder at the start of `a` ends where it ends in `a + b` when `b` does not start with a digit. */
  lemma PlaceholderLengthAppend(a: string, b: string)
    requires StartsPlaceholder(a)
    requires |b| == 0 || !IsDigit(b[0])
    ensures StartsPlaceholder(a + b)
    ensures PlaceholderLength(a + b) == PlaceholderLength(a)
  {
    var s := a + b;
    var k := PlaceholderLength(a);
    assert s[1] == a[1];
    assert s[1..] == a[1..] + b;
    if k < |a| {
      assert a[1..] == a[1..k] + a[k..];
      assert s[1..] == a[1..k] + (a[k..] + b);
      assert (a[k..] + b)[0] == a[k];
      RunOfPrefix(a[1..k], a[k..] + b, IsDigit);
    } else {
      RunOfPrefix(a[1..], b, IsDigit);
    }
  }

  /** The placeholders of a text are those of its pieces, when the second
      piece does not start with a digit that could extend the first. */
  lemma {:induction false} PlaceholdersAppend(a: string, b: string)
    requires |b| == 0 || !IsDigit(b[0])
    ensures Placeholders(a + b) == Placeholders(a) + Placeholders(b)
    decreases |a|, 1
  {
    if |a| == 0 {
      assert a + b == b;
    } else if StartsPlaceholder(a) {
      PlaceholdersAppendHead(a, b);
    } else {
      var s := a + b;
      assert !StartsPlaceholder(s) by {
        if |a| == 1 && s[0] == '$' && |b| > 0 {
          assert s[1] == b[0];
        }
      }
      assert s[1..] == a[1..] + b;
      PlaceholdersAppend(a[1..], b);
    }
  }

  /** `PlaceholdersAppend` when `a` starts with a placeholder. */
  lemma {:induction false} PlaceholdersAppendHead(a: string, b: string)
    requires StartsPlaceholder(a)
    requires |b| == 0 || !IsDigit(b[0])
    ensures Placeholders(a + b) == Placeholders(a) + Placeholders(b)
    decreases |a|, 0
  {
    var s := a + b;
    var k := PlaceholderLength(a);
    assert PlaceholderLength(s) == k && s[1..k] == a[1..k] && s[k..] == a[k..] + b by {
      PlaceholderLengthAppend(a, b);
    }
    PlaceholdersAppend(a[k..], b);
  }

  /** `$n`. */
  function PlaceholderRef(n: nat): string {
    "$" + NatToString(n)
  }

  lemma PlaceholdersOfRef(n: nat)
    ensures Placeholders(PlaceholderRef(n)) == [n]
  {
    PlaceholderHead(NatToString(n), "");
    assert PlaceholderRef(n) + "" == PlaceholderRef(n);
    DecimalValueOfNatToString(n);
  }

  /** `$1, $2, ..., $n`: the value list of a positional INSERT. */
  function ValueList(n: nat): string
    requires n >= 1
    decreases n
  {
    if n == 1 then PlaceholderRef(1) else ValueList(n - 1) + ", " + PlaceholderRef(n)
  }

  /** `1, 2, ..., n`. */
  function Ordinals(n: nat): (r: seq<nat>)
    ensures |r| == n && forall i :: 0 <= i < n ==> r[i] == i + 1
  {
    seq(n, i requires 0 <= i < n => i + 1)
  }

  /** The value list of `n` columns refers to the parameters `1..n` once each, in order. */
  lemma {:induction false} PlaceholdersOfValueList(n: nat)
    requires n >= 1
    ensures Placeholders(ValueList(n)) == Ordinals(n)
    decreases n
  {
    PlaceholdersOfRef(n);
    if n > 1 {
      var front := ValueList(n - 1);
      var last := ", " + PlaceholderRef(n);
      PlaceholdersOfValueList(n - 1);
      assert front + ", " + PlaceholderRef(n) == front + last;
      PlaceholdersAppend(front, last);
      PlaceholdersAfterPlainText(", ", PlaceholderRef(n));
      assert Placeholders(ValueList(n)) == Ordinals(n - 1) + [n];
      assert Ordinals(n - 1) + [n] == Ordinals(n);
    }
  }

  /** Pass 1 of the translation: the global replacement of `\$(\d+)`. A
      placeholder with a value becomes `?` and contributes that value; one
      without (`$0`, an index past the end, an `undefined` entry) stays as it
      is and contributes nothing. */
  function Substitute(s: string, params: seq<Value>): Converted
    decreases |s|
  {
    if |s| == 0 then Converted("", [])
    else if StartsPlaceholder(s) then
      var k := PlaceholderLength(s);
      var n := DecimalValue(s[1..k]);
      var rest := Substitute(s[k..], params);
      if Resolves(params, n) then Converted("?" + rest.query, [params[n - 1]] + rest.params)
      else Converted(s[..k] + rest.query, rest.params)
    else
      var rest := Substitute(s[1..], params);
      Converted([s[0]] + rest.query, rest.params)
  }

  /** The values pass 1 takes are those of the placeholders that resolve, in textual order. */
  lemma {:induction false} SubstituteGathers(s: string, params: seq<Value>)
    ensures Substitute(s, params).params == Gather(Placeholders(s), params)
    decreases |s|
  {
    if |s| > 0 {
      if StartsPlaceholder(s) {
        SubstituteGathers(s[PlaceholderLength(s)..], params);
      } else {
        SubstituteGathers(s[1..], params);
        assert s == [s[0]] + s[1..];
        PlaceholdersSkip(s[0], s[1..]);
      }
    }
  }

  /** Pass 1 never turns a digit into a non-digit at the front of a text, nor the reverse. */
  lemma SubstituteFirstChar(s: string, params: seq<Value>)
    ensures |Substitute(s, params).query| == 0 <==> |s| == 0
    ensures |s| > 0 ==> (IsDigit(Substitute(s, params).query[0]) <==> IsDigit(s[0]))
  {
  }

  /** The placeholders left in the output of pass 1 are exactly those
      without a value, in their original order. */
  lemma {:induction false} SubstituteLeavesUnresolved(s: string, params: seq<Value>)
    ensures Placeholders(Substitute(s, params).query) == Unresolved(Placeholders(s), params)
    decreases |s|
  {
    if |s| > 0 {
      var r := Substitute(s, params);
      if StartsPlaceholder(s) {
        var k := PlaceholderLength(s);
        var n := DecimalValue(s[1..k]);
        var rest := Substitute(s[k..], params);
        SubstituteLeavesUnresolved(s[k..], params);
        if Resolves(params, n) {
          PlaceholdersSkip('?', rest.query);
          assert "?" + rest.query == ['?'] + rest.query;
        } else {
          assert s[..k] == "$" + s[1..k];
          SubstituteFirstChar(s[k..], params);
          PlaceholderHead(s[1..k], rest.query);
        }
      } else {
        var rest := Substitute(s[1..], params);
        SubstituteLeavesUnresolved(s[1..], params);
        SubstituteFirstChar(s[1..], params);
        assert s == [s[0]] + s[1..];
        PlaceholdersSkip(s[0], s[1..]);
        assert !StartsPlaceholder([s[0]] + rest.query) by {
          if s[0] == '$' && |rest.query| > 0 {
            assert ([s[0]] + rest.query)[1] == rest.query[0];
          }
        }
        PlaceholdersSkip(s[0], rest.query);
      }
    }
  }

  /** Every value pass 1 takes comes with one new `?` in the text. */
  lemma {:induction false} SubstituteMarks(s: string, params: seq<Value>)
    ensures Marks(Substitute(s, params).query) == Marks(s) + |Substitute(s, params).params|
    decreases |s|, 1
  {
    if |s| > 0 {
      if StartsPlaceholder(s) {
        SubstituteMarksPlaceholder(s, params);
      } else {
        var rest := Substitute(s[1..], params);
        SubstituteMarks(s[1..], params);
        assert s == [s[0]] + s[1..];
        CountCharAppend([s[0]], s[1..], '?');
        CountCharAppend([s[0]], rest.query, '?');
      }
    }
  }

  /** A placeholder holds no `?`. */
  lemma PlaceholderHasNoMark(s: string)
    requires StartsPlaceholder(s)
    ensures Marks(s) == Marks(s[PlaceholderLength(s)..])
  {
    var k := PlaceholderLength(s);
    assert '?' !in s[..k] by {
      forall i | 0 <= i < k ensures s[..k][i] != '?' {
        if i > 0 { assert IsDigit(s[i]); }
      }
    }
    CountCharAbsent(s[..k], '?');
    CountCharAppend(s[..k], s[k..], '?');
    assert s == s[..k] + s[k..];
  }

  /** `SubstituteMarks` when `s` starts with a placeholder. */
  lemma {:induction false} SubstituteMarksPlaceholder(s: string, params: seq<Value>)
    requires StartsPlaceholder(s)
    ensures Marks(Substitute(s, params).query) == Marks(s) + |Substitute(s, params).params|
    decreases |s|, 0
  {
    var k := PlaceholderLength(s);
    var n := DecimalValue(s[1..k]);
    var rest := Substitute(s[k..], params);
    SubstituteMarks(s[k..], params);
    PlaceholderHasNoMark(s);
    if Resolves(params, n) {
      CountCharAppend("?", rest.query, '?');
    } else {
      assert '?' !in s[..k] by {
        forall i | 0 <= i < k ensures s[..k][i] != '?' {
          if i > 0 { assert IsDigit(s[i]); }
        }
      }
      CountCharAbsent(s[..k], '?');
      CountCharAppend(s[..k], rest.query, '?');
    }
  }

  /** Pass 1 keeps text without `$` as it is and takes no values. */
  lemma SubstituteNoDollar(s: string, params: seq<Value>)
    requires '$' !in s
    ensures Substitute(s, params) == Converted(s, [])
  {
    SubstituteNoDollarRec(s, params);
  }

  lemma {:induction false} SubstituteNoDollarRec(s: string, params: seq<Value>)
    requires '$' !in s
    ensures Substitute(s, params).query == s
    ensures Substitute(s, params).params == []
    decreases |s|
  {
    if |s| > 0 {
      SubstituteNoDollarRec(s[1..], params);
      assert s == [s[0]] + s[1..];
    }
  }

  // ---------------------------------------------------------------------
  // Passes 2 to 6: global regular-expression replacements
  // ---------------------------------------------------------------------

  datatype Rule =
    | ILike            // /ILIKE/gi -> 'LIKE'
    | CountStarFilter  // /COUNT\(\*\)\s+FILTER\s+\(WHERE\s+([^)]+)\)/gi
    | CountExprFilter  // /COUNT\(([^)]+)\)\s+FILTER\s+\(WHERE\s+([^)]+)\)/gi
    | DateTruncMonth   // /DATE_TRUNC\s*\(\s*'month'\s*,\s*([^)]+)\s*\)/gi
    | Now              // /\bNOW\(\)/gi -> 'CURRENT_TIMESTAMP'

  /** A match at the start of the remaining text: how many characters it consumes and what replaces them. */
  datatype Hit = Hit(len: nat, out: string)

  /** A capture group's text and the number of characters consumed through the closing `)`. */
  datatype Group = Group(text: string, len: nat)

  /** The replacement of both FILTER rules. */
  function SumCase(cond: string): string {
    "SUM(CASE WHEN " + cond + " THEN 1 ELSE 0 END)"
  }

  /** The replacement of the DATE_TRUNC rule. */
  function MonthBucket(expr: string): string {
    "strftime('%Y-%m', " + expr + ")"
  }

  /** What `([^)]+)` captures after a white-space run that a backtracking
      engine took greedily: not empty, free of `)`, and starting with white
      space only when it is the single character the run gave back. */
  predicate Capturable(c: string) {
    0 < |c| && ')' !in c && (!IsSpace(c[0]) || |c| == 1)
  }

  /** `s` holds, from index `i` on, the white space `ws` (at least
      `minSpaces` characters of it), the capture `c` and `)`. */
  predicate CapturedAt(s: string, i: nat, minSpaces: nat, ws: string, c: string) {
    AllSpace(ws) && minSpaces <= |ws| && Capturable(c) && TextAt(s, i, ws + (c + ")"))
  }

  /** The pattern engine reads the text in place: every step below looks at
      `s` from an index `i` on, which is what a regular expression does with
      its `lastIndex`. */

  /** `\s*` from index `i`: the length of the greedy white-space run. */
  function SpacesFrom(s: string, i: nat): (n: nat)
    requires i <= |s|
    ensures i + n <= |s|
    ensures i + n < |s| ==> !IsSpace(s[i + n])
    decreases |s| - i
  {
    if i < |s| && IsSpace(s[i]) then 1 + SpacesFrom(s, i + 1) else 0
  }

  /** Everything the greedy run took is white space. */
  lemma {:induction false} SpacesFromRun(s: string, i: nat)
    requires i <= |s|
    ensures forall j :: i <= j < i + SpacesFrom(s, i) ==> IsSpace(s[j])
    decreases |s| - i
  {
    if i < |s| && IsSpace(s[i]) {
      SpacesFromRun(s, i + 1);
    }
  }

  /** A greedy run stops exactly at the first character that is not white space. */
  lemma {:induction false} SpacesFromAt(s: string, i: nat, n: nat)
    requires i + n <= |s|
    requires forall j :: i <= j < i + n ==> IsSpace(s[j])
    requires i + n < |s| ==> !IsSpace(s[i + n])
    ensures SpacesFrom(s, i) == n
    decreases n
  {
    if n > 0 {
      SpacesFromAt(s, i + 1, n - 1);
    }
  }

  /** The index of the first `)` at or after index `i`, or -1. */
  function ParenFrom(s: string, i: nat): (p: int)
    requires i <= |s|
    ensures p == -1 || i <= p < |s|
    ensures p >= 0 ==> s[p] == ')'
    decreases |s| - i
  {
    if i == |s| then -1
    else if s[i] == ')' then i
    else ParenFrom(s, i + 1)
  }

  /** No `)` comes before the one `ParenFrom` finds, and none at all when it finds none. */
  lemma {:induction false} ParenFromFirst(s: string, i: nat)
    requires i <= |s|
    ensures var p := ParenFrom(s, i);
            forall j :: i <= j < |s| && (p < 0 || j < p) ==> s[j] != ')'
    decreases |s| - i
  {
    if i < |s| && s[i] != ')' {
      ParenFromFirst(s, i + 1);
    }
  }

  /** A `)` with none before it from index `i` on is the one `ParenFrom` finds. */
  lemma {:induction false} ParenFromAt(s: string, i: nat, p: nat)
    requires i <= p < |s| && s[p] == ')'
    requires forall j :: i <= j < p ==> s[j] != ')'
    ensures ParenFrom(s, i) == p
    decreases p - i
  {
    if i < p {
      ParenFromAt(s, i + 1, p);
    }
  }

  /** `\s+([^)]+)\)` (minSpaces 1) or `\s*([^)]+)\)` (minSpaces 0) from index
      `i`, with a backtracking engine's choice: the white space is taken
      greedily and the capture runs to the first `)`; when `)` follows the
      white space immediately, the white space gives back one character to
      the capture if it can. The length counts from `i`. */
  function CaptureToParen(s: string, i: nat, minSpaces: nat): (g: Option<Group>)
    requires i <= |s|
    ensures g.Some? ==> 0 < |g.value.text| < g.value.len && i + g.value.len <= |s| && ')' !in g.value.text
    ensures g.Some? ==> s[i + g.value.len - 1] == ')'
  {
    var w := SpacesFrom(s, i);
    var p := ParenFrom(s, i);
    ParenFromFirst(s, i);
    SpacesFromRun(s, i);
    if w < minSpaces || p < 0 then None
    else if p > i + w then
      Some(Group(Slice(s, i + w, p), p + 1 - i))
    else if w > minSpaces then
      Some(Group(Slice(s, i + w - 1, p), p + 1 - i))
    else None
  }

  /** The pattern matches exactly when the text has enough leading white
      space and its first `)` comes after it; the match runs through that `)`. */
  lemma CaptureToParenFinds(s: string, i: nat, minSpaces: nat)
    requires i <= |s|
    ensures var g := CaptureToParen(s, i, minSpaces);
            && (g.Some? <==> SpacesFrom(s, i) >= minSpaces && ParenFrom(s, i) > i + minSpaces)
            && (g.Some? ==> i + g.value.len == ParenFrom(s, i) + 1)
  {
    SpacesFromRun(s, i);
  }

  /** What a match consumed: white space, a capturable text and `)`. */
  lemma CaptureToParenParts(s: string, i: nat, minSpaces: nat) returns (ws: string)
    requires i <= |s| && CaptureToParen(s, i, minSpaces).Some?
    ensures var g := CaptureToParen(s, i, minSpaces).value;
            CapturedAt(s, i, minSpaces, ws, g.text) && |ws| + |g.text| + 1 == g.len
  {
    var g := CaptureToParen(s, i, minSpaces).value;
    var w := SpacesFrom(s, i);
    var p := ParenFrom(s, i);
    var n := if p > i + w then w else w - 1;
    SpacesFromRun(s, i);
    ws := Slice(s, i, i + n);
    assert g.text == Slice(s, i + n, p);
    assert g.text[0] == s[i + n];
    assert TextAt(s, p, ")");
    TextAtConcat(s, i + n, g.text, ")");
    TextAtConcat(s, i, ws, g.text + ")");
  }

  /** The decomposition `CaptureToParen` reports is the only one: wherever a
      text is white space, a capturable text and `)`, that capture is found. */
  lemma CaptureOf(s: string, i: nat, minSpaces: nat, ws: string, c: string)
    requires i <= |s| && CapturedAt(s, i, minSpaces, ws, c)
    ensures CaptureToParen(s, i, minSpaces) == Some(Group(c, |ws| + |c| + 1))
  {
    var n := i + |ws|;
    var p := n + |c|;
    TextAtConcat(s, i, ws, c + ")");
    TextAtConcat(s, n, c, ")");
    assert s[p] == ")"[0];
    forall j | i <= j < p ensures s[j] != ')' {
      if j < n {
        assert s[i + (j - i)] == ws[j - i];
      } else {
        assert s[n + (j - n)] == c[j - n];
      }
    }
    ParenFromAt(s, i, p);
    assert s[n + 0] == c[0];
    forall j | i <= j < n ensures IsSpace(s[j]) {
      assert s[i + (j - i)] == ws[j - i];
    }
    SliceOf(s, n, c);
    if IsSpace(c[0]) {
      SpacesFromAt(s, i, |ws| + 1);
    } else {
      SpacesFromAt(s, i, |ws|);
    }
  }

  /** `\s+K` (minSpaces 1) or `\s*K` (minSpaces 0) from index `i`, the
      keyword `K` (written in upper case) matched ignoring case: the length
      consumed. */
  function SpacedKeyword(s: string, i: nat, k: string, minSpaces: nat): (n: Option<nat>)
    requires i <= |s|
    ensures n.Some? ==> |k| <= n.value && i + n.value <= |s|
  {
    var w := SpacesFrom(s, i);
    if w < minSpaces || !CiTextAt(s, i + w, k) then None
    else Some(w + |k|)
  }

  /** `\s+FILTER\s+\(WHERE\s+([^)]+)\)` from index `i`: the condition and the length consumed. */
  function FilterWhere(s: string, i: nat): (g: Option<Group>)
    requires i <= |s|
    ensures g.Some? ==> 0 < |g.value.text| && i + g.value.len <= |s| && ')' !in g.value.text
  {
    match SpacedKeyword(s, i, "FILTER", 1)
    case None => None
    case Some(a) =>
      match WhereCondition(s, i + a)
      case None => None
      case Some(c) => Some(Group(c.text, a + c.len))
  }

  /** The part of the FILTER clause after `FILTER`: `\s+\(WHERE\s+([^)]+)\)`. */
  function WhereCondition(s: string, i: nat): (g: Option<Group>)
    requires i <= |s|
    ensures g.Some? ==> 0 < |g.value.text| && i + g.value.len <= |s| && ')' !in g.value.text
  {
    match SpacedKeyword(s, i, "(WHERE", 1)
    case None => None
    case Some(b) =>
      match CaptureToParen(s, i + b, 1)
      case None => None
      case Some(c) => Some(Group(c.text, b + c.len))
  }

  /** `\s*\(\s*'month'\s*,\s*([^)]+)\s*\)` from index `i`: the month
      expression and the length consumed. */
  function MonthArgument(s: string, i: nat): (g: Option<Group>)
    requires i <= |s|
    ensures g.Some? ==> 0 < |g.value.text| && i + g.value.len <= |s| && ')' !in g.value.text
  {
    match SpacedKeyword(s, i, "(", 0)
    case None => None
    case Some(a) =>
      match MonthList(s, i + a)
      case None => None
      case Some(e) => Some(Group(e.text, a + e.len))
  }

  /** The part of the month argument list after its `(`:
      `\s*'month'\s*,\s*([^)]+)\s*\)`. */
  function MonthList(s: string, i: nat): (g: Option<Group>)
    requires i <= |s|
    ensures g.Some? ==> 0 < |g.value.text| && i + g.value.len <= |s| && ')' !in g.value.text
  {
    match SpacedKeyword(s, i, "'MONTH'", 0)
    case None => None
    case Some(b) =>
      match MonthExpr(s, i + b)
      case None => None
      case Some(e) => Some(Group(e.text, b + e.len))
  }

  /** The part of the month argument list after `'month'`: `\s*,\s*([^)]+)\s*\)`. */
  function MonthExpr(s: string, i: nat): (g: Option<Group>)
    requires i <= |s|
    ensures g.Some? ==> 0 < |g.value.text| && i + g.value.len <= |s| && ')' !in g.value.text
  {
    match SpacedKeyword(s, i, ",", 0)
    case None => None
    case Some(c) =>
      match CaptureToParen(s, i + c, 0)
      case None => None
      case Some(e) => Some(Group(e.text, c + e.len))
  }

  /** Whether `rule` matches at the start of `s`, `prev` being the character
      before it (`None` at the start of the text), and if so, how. */
  function MatchAt(rule: Rule, s: string, prev: Option<char>): (h: Option<Hit>)
    ensures h.Some? ==> 0 < h.value.len <= |s|
  {
    match rule
    case ILike => ILikeMatch(s)
    case CountStarFilter => CountStarMatch(s)
    case CountExprFilter => CountExprMatch(s)
    case DateTruncMonth => DateTruncMatch(s)
    case Now => NowMatch(s, prev)
  }

  /** `/ILIKE/gi`, replaced by `LIKE`. */
  function ILikeMatch(s: string): (h: Option<Hit>)
    ensures h.Some? ==> 0 < h.value.len <= |s|
  {
    if |s| >= 5 && CiEq(s[..5], "ILIKE") then Some(Hit(5, "LIKE")) else None
  }

  /** `/COUNT\(\*\)\s+FILTER\s+\(WHERE\s+([^)]+)\)/gi`, replaced by a `SUM(CASE …)` over the condition. */
  function CountStarMatch(s: string): (h: Option<Hit>)
    ensures h.Some? ==> 0 < h.value.len <= |s|
  {
    if CiTextAt(s, 0, "COUNT(*)") then
      match FilterWhere(s, 8)
      case None => None
      case Some(c) => Some(Hit(8 + c.len, SumCase(c.text)))
    else None
  }

  /** `/COUNT\(([^)]+)\)\s+FILTER\s+\(WHERE\s+([^)]+)\)/gi`, replaced by a
      `SUM(CASE …)` over the condition; the counted argument, which runs to
      the first `)`, is dropped. */
  function CountExprMatch(s: string): (h: Option<Hit>)
    ensures h.Some? ==> 0 < h.value.len <= |s|
  {
    if CiTextAt(s, 0, "COUNT(") then
      var p := ParenFrom(s, 6);
      if p <= 6 then None
      else
        match FilterWhere(s, p + 1)
        case None => None
        case Some(c) => Some(Hit(p + 1 + c.len, SumCase(c.text)))
    else None
  }

  /** `/DATE_TRUNC\s*\(\s*'month'\s*,\s*([^)]+)\s*\)/gi`, replaced by `strftime('%Y-%m', …)`. */
  function DateTruncMatch(s: string): (h: Option<Hit>)
    ensures h.Some? ==> 0 < h.value.len <= |s|
  {
    if CiTextAt(s, 0, "DATE_TRUNC") then
      match MonthArgument(s, 10)
      case None => None
      case Some(e) => Some(Hit(10 + e.len, MonthBucket(e.text)))
    else None
  }

  /** `/\bNOW\(\)/gi`, replaced by `CURRENT_TIMESTAMP`: the word boundary
      asks that no word character come before the match. */
  function NowMatch(s: string, prev: Option<char>): (h: Option<Hit>)
    ensures h.Some? ==> 0 < h.value.len <= |s|
  {
    if (prev.None? || !IsWordChar(prev.value)) && |s| >= 5 && CiEq(s[..5], "NOW()") then
      Some(Hit(5, "CURRENT_TIMESTAMP"))
    else None
  }

  /** A pattern anchored at the start of a text, the character before the
      text being known: what a global regular-expression replacement tries
      at each position. */
  type Matcher = (string, Option<char>) -> Option<Hit>

  /** Every match consumes at least one character and no more than the text holds. */
  ghost predicate Consumes(m: Matcher) {
    forall s, prev :: m(s, prev).Some? ==> 0 < m(s, prev).value.len <= |s|
  }

  /** The matcher of one rule. */
  function Pattern(rule: Rule): (m: Matcher)
    ensures Consumes(m)
    ensures forall s, prev :: m(s, prev) == MatchAt(rule, s, prev)
  {
    (s: string, prev: Option<char>) => MatchAt(rule, s, prev)
  }

  /** Global replacement with `m` over `s`, scanning left to right. */
  function ReplaceAll(m: Matcher, s: string, prev: Option<char>): string
    requires Consumes(m)
    decreases |s|
  {
    if |s| == 0 then ""
    else
      match m(s, prev)
      case Some(h) => h.out + ReplaceAll(m, s[h.len..], Some(s[h.len - 1]))
      case None => [s[0]] + ReplaceAll(m, s[1..], Some(s[0]))
  }

  /** The character before index `i` of `s`, `prev` standing for the one before `s`. */
  function PrevAt(s: string, prev: Option<char>, i: nat): Option<char>
    requires i <= |s|
  {
    if i == 0 then prev else Some(s[i - 1])
  }

  /** `m` matches in `s` at index `i`. */
  predicate MatchesAt(m: Matcher, s: string, prev: Option<char>, i: nat)
    requires i <= |s|
  {
    m(s[i..], PrevAt(s, prev, i)).Some?
  }

  /** Where no match starts, the replacement leaves the text unchanged. */
  lemma ReplaceAllNoMatch(m: Matcher, s: string, prev: Option<char>)
    requires Consumes(m)
    requires forall i :: 0 <= i < |s| ==> !MatchesAt(m, s, prev, i)
    ensures ReplaceAll(m, s, prev) == s
  {
    ReplaceAllCopiesPrefix(m, s, prev, |s|);
    assert s[..|s|] == s;
  }

  /** One step of the scan at index `j` where no match starts: the character is copied. */
  lemma ReplaceAllCopiesAt(m: Matcher, s: string, prev: Option<char>, j: nat)
    requires Consumes(m)
    requires j < |s| && !MatchesAt(m, s, prev, j)
    ensures ReplaceAll(m, s[j..], PrevAt(s, prev, j)) == [s[j]] + ReplaceAll(m, s[j + 1..], PrevAt(s, prev, j + 1))
  {
    var t := s[j..];
    assert t[1..] == s[j + 1..];
    assert t[0] == s[j];
  }

  /** A scan that has found no match in the first `k` characters has copied them. */
  lemma {:induction false} ReplaceAllCopiesPrefix(m: Matcher, s: string, prev: Option<char>, k: nat)
    requires Consumes(m)
    requires k <= |s|
    requires forall j :: 0 <= j < k ==> !MatchesAt(m, s, prev, j)
    ensures ReplaceAll(m, s, prev) == s[..k] + ReplaceAll(m, s[k..], PrevAt(s, prev, k))
    decreases k
  {
    if k == 0 {
      assert s[0..] == s;
    } else {
      ReplaceAllCopiesPrefix(m, s, prev, k - 1);
      ReplaceAllCopiesAt(m, s, prev, k - 1);
      assert s[..k - 1] + [s[k - 1]] == s[..k];
    }
  }

  /** One step of the scan at index `i` where a match starts: it is replaced
      and the scan goes on after it. */
  lemma ReplaceAllReplacesAt(m: Matcher, s: string, prev: Option<char>, i: nat)
    requires Consumes(m)
    requires i < |s| && MatchesAt(m, s, prev, i)
    ensures var h := m(s[i..], PrevAt(s, prev, i)).value;
            && i + h.len <= |s|
            && ReplaceAll(m, s[i..], PrevAt(s, prev, i)) == h.out + ReplaceAll(m, s[i + h.len..], Some(s[i + h.len - 1]))
  {
    var t := s[i..];
    var h := m(t, PrevAt(s, prev, i)).value;
    assert t[h.len..] == s[i + h.len..];
    assert t[h.len - 1] == s[i + h.len - 1];
  }

  /** The text before the leftmost match is copied, the match is replaced,
      and the scan goes on after the match. */
  lemma ReplaceAllFirstMatch(m: Matcher, s: string, prev: Option<char>, i: nat)
    requires Consumes(m)
    requires i < |s|
    requires forall j :: 0 <= j < i ==> !MatchesAt(m, s, prev, j)
    requires MatchesAt(m, s, prev, i)
    ensures var h := m(s[i..], PrevAt(s, prev, i)).value;
            && i + h.len <= |s|
            && ReplaceAll(m, s, prev) == s[..i] + (h.out + ReplaceAll(m, s[i + h.len..], Some(s[i + h.len - 1])))
  {
    ReplaceAllCopiesPrefix(m, s, prev, i);
    ReplaceAllReplacesAt(m, s, prev, i);
  }

  /** The prefix form of `ReplaceAllFirstMatch`. */
  lemma ReplaceAllFirstMatchPrefix(m: Matcher, s: string, prev: Option<char>, i: nat)
    requires Consumes(m)
    requires i < |s|
    requires forall j :: 0 <= j < i ==> !MatchesAt(m, s, prev, j)
    requires MatchesAt(m, s, prev, i)
    ensures var h := m(s[i..], PrevAt(s, prev, i)).value;
            StartsWith(ReplaceAll(m, s, prev), s[..i] + h.out)
  {
    var h := m(s[i..], PrevAt(s, prev, i)).value;
    ReplaceAllFirstMatch(m, s, prev, i);
    StartsWithGrouped(s[..i], h.out, ReplaceAll(m, s[i + h.len..], Some(s[i + h.len - 1])));
  }

  /** The index of the leftmost match of `m` in `s` at or after `from`, or -1 when there is none. */
  function FirstMatch(m: Matcher, s: string, prev: Option<char>, from: nat): (i: int)
    requires from <= |s|
    ensures i == -1 || from <= i < |s|
    ensures i >= 0 ==> MatchesAt(m, s, prev, i)
    ensures forall j :: from <= j < |s| && (i < 0 || j < i) ==> !MatchesAt(m, s, prev, j)
    decreases |s| - from
  {
    if from == |s| then -1
    else if MatchesAt(m, s, prev, from) then from
    else FirstMatch(m, s, prev, from + 1)
  }

  /** Every rule's replacement starts with a character other than the first
      character of the text it replaces. */
  lemma HitChangesFirstChar(rule: Rule, s: string, prev: Option<char>)
    requires MatchAt(rule, s, prev).Some?
    ensures |MatchAt(rule, s, prev).value.out| > 0
    ensures MatchAt(rule, s, prev).value.out[0] != s[0]
  {
    var h := MatchAt(rule, s, prev).value;
    match rule
    case ILike =>
      assert UpperChar(s[..5][0]) == 'I';
    case CountStarFilter =>
      assert UpperChar(s[0 + 0]) == "COUNT(*)"[0];
      assert h.out[0] == 'S';
    case CountExprFilter =>
      assert UpperChar(s[0 + 0]) == "COUNT("[0];
      assert h.out[0] == 'S';
    case DateTruncMonth =>
      assert UpperChar(s[0 + 0]) == "DATE_TRUNC"[0];
      assert h.out[0] == 's';
    case Now =>
      assert UpperChar(s[..5][0]) == 'N';
  }

  /** A pass changes the text exactly when its pattern matches somewhere in it. */
  lemma ReplaceAllUnchangedIff(rule: Rule, s: string, prev: Option<char>)
    ensures ReplaceAll(Pattern(rule), s, prev) == s <==> forall i :: 0 <= i < |s| ==> !MatchesAt(Pattern(rule), s, prev, i)
  {
    var m := Pattern(rule);
    var i := FirstMatch(m, s, prev, 0);
    if i < 0 {
      ReplaceAllNoMatch(m, s, prev);
    } else {
      ReplaceAllFirstMatchPrefix(m, s, prev, i);
      var h := m(s[i..], PrevAt(s, prev, i)).value;
      HitChangesFirstChar(rule, s[i..], PrevAt(s, prev, i));
      var r := ReplaceAll(m, s, prev);
      assert r[..i + |h.out|][i] == (s[..i] + h.out)[i] == h.out[0];
      assert s[i..][0] == s[i];
      assert r != s;
    }
  }

  // ---------------------------------------------------------------------
  // The whole translation
  // ---------------------------------------------------------------------

  /** Passes 2 to 6, in the order the source applies them. */
  function RewriteDialect(q: string): string {
    var q2 := ReplaceAll(Pattern(ILike), q, None);
    var q3 := ReplaceAll(Pattern(CountStarFilter), q2, None);
    var q4 := ReplaceAll(Pattern(CountExprFilter), q3, None);
    var q5 := ReplaceAll(Pattern(DateTruncMonth), q4, None);
    ReplaceAll(Pattern(Now), q5, None)
  }

  /** `convertQuery(text, params)`. With no parameters the text is returned
      verbatim and none of the rewrites runs; otherwise the parameter list is
      the one pass 1 gathers, and the later passes leave it alone. */
  function ConvertQuery(text: string, params: seq<Value>): (r: Converted)
    ensures |params| == 0 ==> r == Converted(text, [])
    ensures |params| > 0 ==> r.params == Gather(Placeholders(text), params)
    ensures |r.params| <= |Placeholders(text)|
  {
    if |params| == 0 then Converted(text, [])
    else
      var step1 := Substitute(text, params);
      SubstituteGathers(text, params);
      GatherUnresolvedSplit(Placeholders(text), params);
      Converted(RewriteDialect(step1.query), step1.params)
  }
}
